=== FILE: README.md ===
# Fibers, queues and channels: a Dafny model

This project models the core of a C# message-passing concurrency library:

- the executor gate;
- the cancellable pending action, the single and recurring pending events, and the
  timer-backed action;
- the scheduler and the subscription registry;
- the unbounded and bounded action queues;
- the pool fiber, the pausable pool fiber, the GUI fiber, and the synchronous stub fiber
  with its scheduled actions;
- the channel subscriptions (plain, batch, keyed batch and last value);
- the multicast channel and its unsubscriber;
- request/reply with the reply inbox, and the snapshot channel's priming protocol;
- the competing-consumer queue channel.

Every locked region of the source is one atomic step. Each step is a pure function from an
immutable state record to the next state plus the effects the step produces:

- the actions it enqueued or ran;
- the flushes it scheduled;
- the calls it made on a registry;
- the error the source would throw.

Actions are opaque tokens, a generic `A`. The stub fiber is the one exception. There an
action is a task tree, because running it can enqueue further actions on the same fiber.

Some parts of the runtime become explicit state or parameters:

- The thread pool is a count of queued flush callbacks.
- A GUI host's execution context is a FIFO of posted batches.
- A timer tick is a step of its own.
- A blocking wait becomes a parameter: what another thread did while the lock was released.

Some behaviour of C# is written out:

- unchecked 64-bit addition, in `Longs.WrapAdd`;
- `List.Remove`, which removes the first equal element;
- delegate `-=`, which removes the last equal element.

The modules follow the source's structure:

| module | file |
|---|---|
| `Wrappers` (with `Seqs`) | `wrappers.dfy` |
| `Longs` | `longs.dfy` |
| `Executors` | `executor.dfy` |
| `PendingActions` | `pending_action.dfy` |
| `Events` | `events.dfy` |
| `TimerActions` | `timer_action.dfy` |
| `Registry` | `subscriptions.dfy` |
| `Scheduling` | `scheduler.dfy` |
| `Jobs` | `jobs.dfy` |
| `Queues` | `queues.dfy` |
| `PoolFibers` | `pool_fiber.dfy` |
| `GuiFibers` | `gui_fiber.dfy` |
| `StubFibers` | `stub_fiber.dfy` |
| `Subscribers` | `subscribers.dfy` |
| `Channels` | `channel.dfy` |
| `RequestReply` | `request_reply.dfy` |
| `Snapshots` | `snapshot_channel.dfy` |
| `QueueChannels` | `queue_channel.dfy` |

## Behaviour of the code worth knowing

Each point below is a fact about the code that a reader might not expect. The model
follows the code in each case.

- **Pool fiber `Start`.** It refuses only a running or a paused fiber, so a stopped fiber
  can be started again (Concurrency/Fibers/PoolFiber.cs:122-132).
- **Pool fiber after `Stop`.** `Stop` only disposes the scheduler, sets the state and
  disposes the subscriptions (Concurrency/Fibers/PoolFiber.cs:137-142). An enqueue on a
  stopped pool fiber is therefore still buffered and still asks the pool for a flush
  (Concurrency/Fibers/PoolFiber.cs:73-88).
- **`ExtendedPoolFiber.Pause`.** On a created or already paused fiber, `Pause` returns
  without doing anything (Concurrency/Fibers/ExtendedPoolFiber.cs:44-47).
- **`GuiFiber.Start`.** Only a running fiber is refused, so a stopped GUI fiber can be
  started again (Concurrency/Fibers/GuiFiber.cs:105-124).
- **`StubFiber.Dispose`.** It disposes every subscription but does not clear its own
  subscription list (Concurrency/Fibers/StubFiber.cs:89-100). The channel's unsubscribers
  deregister themselves when disposed (Concurrency/Channels/Unsubscriber.cs:21-25).
- **Disposing an unsubscriber twice.** Delegate removal takes out one matching entry per
  call (Concurrency/Channels/Channel.cs:97-103). A second `Dispose` is therefore harmless
  only when the receiver is on the invocation list at most once. A receiver subscribed
  twice loses both entries (`Channels.DisposeTwiceWithDuplicate`).

## Model

| member | source | states |
|---|---|---|
| Longs.WrapAdd | Concurrency/Core/SingleEvent.cs:25 | unchecked `long` addition: the exact sum when it fits in 64 bits, otherwise the sum shifted by 2^64 |
| Executors.NewExecutor | Concurrency/Core/DefaultExecutor.cs:11 | a new executor is enabled |
| Executors.SetEnabled | Concurrency/Core/DefaultExecutor.cs:17-27 | reading `IsEnabled` returns the last value written |
| Executors.ExecuteOne | Concurrency/Core/DefaultExecutor.cs:45-51 | a single action runs, once, iff the executor is enabled |
| Executors.ExecuteAll | Concurrency/Core/DefaultExecutor.cs:33-39 | enabled: every action of the list runs once, in list order; disabled: nothing runs |
| Executors.ExecuteAllAppend | Concurrency/Core/DefaultExecutor.cs:35-38 | executing two lists one after the other runs exactly what executing their concatenation runs |
| PendingActions.NewPendingAction | Concurrency/Core/PendingAction.cs:11-14 | a new wrapper holds the action and is not cancelled |
| PendingActions.Dispose | Concurrency/Core/PendingAction.cs:16-19 | disposal cancels and keeps the action |
| PendingActions.Execute | Concurrency/Core/PendingAction.cs:21-27 | the action runs, once, iff not cancelled |
| PendingActions.ReplayRunsUntilDisposed | Concurrency/Core/PendingAction.cs:16-27 | over any call sequence: each `Execute` before the first `Dispose` runs the action, none after it does, earlier runs stand, and cancellation is permanent |
| Events.NewSingleEvent | Concurrency/Core/SingleEvent.cs:23-28 | expiration is `now + scheduledTimeInMs` (wrapped to 64 bits); not cancelled |
| Events.ExecuteSingle | Concurrency/Core/SingleEvent.cs:30-37 | never re-arms and never moves the expiration; enqueues the action once iff not cancelled |
| Events.DisposeSingle | Concurrency/Core/SingleEvent.cs:39-42 | after disposal, an `Execute` at any time enqueues nothing |
| Events.NewRecurringEvent | Concurrency/Core/RecurringEvent.cs:25-31 | first expiration is `currentTime + scheduledTimeInMs`; interval kept |
| Events.ExecuteRecurring | Concurrency/Core/RecurringEvent.cs:33-42 | live: enqueues once, expiration becomes `currentTime + regularInterval`, returns itself; cancelled: returns null, enqueues nothing, changes nothing |
| Events.DisposeRecurring | Concurrency/Core/RecurringEvent.cs:44-47 | disposal cancels and keeps action, interval and expiration, so disposing twice is disposing once |
| Events.FireAtEnqueuesEachTime | Concurrency/Core/RecurringEvent.cs:33-42 | a live event fired n times enqueues its action n times and expires one interval after the last fire; a cancelled one enqueues nothing |
| TimerActions.NewTimerAction | Concurrency/Core/TimerAction.cs:20-26 | a new item holds its action and intervals, is not cancelled and has no timer yet |
| TimerActions.Arm | Concurrency/Core/TimerAction.cs:28-34 | `Schedule` creates the timer and changes nothing else |
| TimerActions.ExecuteOnTimerThread | Concurrency/Core/TimerAction.cs:36-51 | a tick asks for registry removal iff one-shot or cancelled (and then releases the timer), and for exactly one fiber-thread run iff not cancelled, removal first |
| TimerActions.ExecuteOnFiberThread | Concurrency/Core/TimerAction.cs:53-63 | the action runs iff not cancelled and still held |
| TimerActions.Dispose | Concurrency/Core/TimerAction.cs:65-75 | cancels, drops the action, releases the timer and asks for removal; afterwards neither a fiber-thread run nor a tick runs or enqueues anything |
| Registry.Add | Concurrency/Core/Subscriptions.cs:35-41 | appends, duplicates allowed; the count grows by one |
| Registry.Remove | Concurrency/Core/Subscriptions.cs:48-56 | true iff the item was registered, and then exactly its first occurrence leaves, the rest keeping their order; otherwise the registry is unchanged |
| Registry.Dispose | Concurrency/Core/Subscriptions.cs:61-73 | every item present at call time is disposed, in registration order, and the registry is left empty |
| Registry.AddThenRemove | Concurrency/Core/Subscriptions.cs:35-56 | removing an item just added (absent before) reports true and restores the registry |
| Scheduling.Schedule | Concurrency/Core/Scheduler.cs:41-52 | delay <= 0: a fresh cancellable pending action is enqueued at once and the pending set is untouched; delay > 0: a fresh one-shot timer item whose registration is enqueued |
| Scheduling.ScheduleOnInterval | Concurrency/Core/Scheduler.cs:57-62 | always a fresh timer item with both intervals, registration deferred through the context, whatever the first delay |
| Scheduling.AddPending | Concurrency/Core/Scheduler.cs:85-96 | a new timer item is stored under a fresh id with a timer handle for it; its deferred add is the only work enqueued; the pending set, the immediates and the running flag are untouched |
| Scheduling.AddPendingRegistersIffRunning | Concurrency/Core/Scheduler.cs:87-95 | when the context runs the deferred add, the new item becomes pending iff the scheduler is still running |
| Scheduling.Remove | Concurrency/Core/Scheduler.cs:68-74 | the pending set is not touched; only the removal is enqueued |
| Scheduling.Fire | Concurrency/Core/TimerAction.cs:36-51 | a tick of a registered item enqueues exactly its removal iff one-shot or cancelled, then one fiber-thread run iff not cancelled, in that order; every other item unchanged |
| Scheduling.RunWork | Concurrency/Core/Scheduler.cs:68-96 | running enqueued work: a deferred add registers and arms the item iff the scheduler still runs; a deferred removal drops one occurrence from the pending set; runs execute the item's action as the item allows |
| Scheduling.DisposeHandle | Concurrency/Core/TimerAction.cs:65-75 | disposing a returned handle cancels its item and changes no other item; an immediate action keeps its action and will run nothing; a timer item loses its action, enqueues its removal and will run nothing |
| Scheduling.Dispose | Concurrency/Core/Scheduler.cs:101-109 | stops accepting adds, empties the pending set and disposes each previously pending item once, in order, enqueuing its removal; other items untouched |
| Scheduling.ImmediateRunsUnlessDisposed | Concurrency/Core/Scheduler.cs:43-48 | an immediate schedule runs the action when the context runs it, and runs nothing if the handle was disposed first |
| Scheduling.OneShotLifecycle | Concurrency/Core/Scheduler.cs:68-96 | a one-shot timer on a running scheduler is registered and armed, its tick asks for removal then one run, the run executes the action, and the removal restores the pending set |
| Scheduling.DisposeAfterFireSuppresses | Concurrency/Core/TimerAction.cs:53-75 | disposal after the tick enqueued the fiber-thread run, but before it runs, suppresses the action |
| Scheduling.RecurringStaysRegistered | Concurrency/Core/TimerAction.cs:36-51 | a live recurring item stays pending and unchanged across a tick, which only enqueues one run |
| Scheduling.DisposedSchedulerIgnoresAdds | Concurrency/Core/Scheduler.cs:85-109 | after `Dispose`, a deferred add that runs later registers nothing |
| Jobs.RunJobs | Concurrency/Core/DefaultExecutor.cs:33-39 | a batch of fiber jobs through the executor: disabled runs nothing and leaves the scheduler alone; a batch of plain actions runs exactly those actions in order |
| PoolFibers.NewPoolFiberIsIdle | Concurrency/Fibers/PoolFiber.cs:55-60 | a new fiber is created, with an empty buffer, no flush requested, a running scheduler and an empty registry |
| PoolFibers.Enqueue | Concurrency/Fibers/PoolFiber.cs:73-88 | always buffered; created or paused asks for nothing; any other state asks the pool for a flush only when none is pending; the flush discipline is kept |
| PoolFibers.RegisterSubscription | Concurrency/Fibers/PoolFiber.cs:94-97 | the registry grows by one; nothing else changes |
| PoolFibers.DeregisterSubscription | Concurrency/Fibers/PoolFiber.cs:104-107 | true iff it was registered; otherwise the fiber is unchanged |
| PoolFibers.Schedule | Concurrency/Fibers/PoolFiber.cs:109-112 | the scheduler gains one new item under a fresh id holding `action`: a pending action when the delay is <= 0, otherwise a one-shot timer item with that delay; exactly one closure is appended to the buffer, the immediate run or the deferred add; the handle names that live, uncancelled item; the flush request follows `Enqueue`'s rule |
| PoolFibers.ScheduleOnInterval | Concurrency/Fibers/PoolFiber.cs:114-117 | the scheduler gains one new timer item under a fresh id holding `action` and both intervals; its deferred add is appended to the buffer, and the flush request follows `Enqueue`'s rule |
| PoolFibers.DisposeHandle | Concurrency/Core/TimerAction.cs:65-75 | disposing a handle through the fiber's scheduler touches only that item: an immediate action is cancelled, keeps its action, will run nothing, and the buffer is untouched; a timer item is cancelled, loses its action, will run nothing, and exactly one removal of it is appended to the buffer, with the flush request following `Enqueue`'s rule; every other item, the registry and the state are unchanged |
| PoolFibers.TimerTick | Concurrency/Core/TimerAction.cs:36-51 | a tick appends to the fiber's buffer exactly the item's removal iff it is one-shot or cancelled, then its run iff it is not cancelled, and nothing else; the flush request follows `Enqueue`'s rule; no other item, the item's own action and cancellation, the registry and the state are unchanged |
| PoolFibers.Start | Concurrency/Fibers/PoolFiber.cs:122-132 | refused iff running or paused; otherwise running, a no-op enqueued, and a flush requested unless one is pending; nothing else changes |
| PoolFibers.Stop | Concurrency/Fibers/PoolFiber.cs:137-150 | scheduler disposed (one removal enqueued per pending timer, each cancelled), state stopped, every registered subscription disposed in order |
| PoolFibers.BeginFlush | Concurrency/Fibers/PoolFiber.cs:179-194 | `ClearActions`: an empty buffer clears the pending flag; otherwise the whole buffer, in order, becomes the batch and the buffer is emptied |
| PoolFibers.FinishFlush | Concurrency/Fibers/PoolFiber.cs:152-177 | the batch runs through the executor; another flush is queued iff jobs arrived meanwhile, otherwise the pending flag clears |
| PoolFibers.PlainBatchFlush | Concurrency/Fibers/PoolFiber.cs:152-194 | one flush of a buffer of plain actions, with nothing arriving meanwhile, runs exactly those actions and leaves no flush pending |
| PoolFibers.NewExtendedPoolFiberNeedsExecutor | Concurrency/Fibers/ExtendedPoolFiber.cs:29-36 | construction fails with an argument error exactly when the executor is missing; otherwise a created fiber on that executor |
| PoolFibers.Pause | Concurrency/Fibers/ExtendedPoolFiber.cs:38-50 | refused iff stopped; a no-op unless running; from running, the executor pauses and the state becomes paused, and nothing else changes |
| PoolFibers.Resume | Concurrency/Fibers/ExtendedPoolFiber.cs:52-67 | refused iff not paused; otherwise running with the executor resumed, a no-op appended to the buffer, a flush pending and a pool request made iff none was pending; nothing else changes |
| PoolFibers.PauseThenResume | Concurrency/Fibers/ExtendedPoolFiber.cs:21-67 | `IsPaused` holds after `Pause` of a running fiber and no longer after the following `Resume`, which leaves the buffer followed by one no-op |
| PoolFibers.AtMostOneFlush | Concurrency/Fibers/PoolFiber.cs:73-88 | along any sequence of calls, pool callbacks and timer ticks, at most one flush is queued or running, and a running fiber with buffered work has one |
| PoolFibers.CreatedBuffersUntilStart | Concurrency/Fibers/PoolFiber.cs:122-132 | a created fiber asks the pool for nothing; `Start` asks for one flush, which runs every buffered action in enqueue order and leaves no flush pending |
| GuiFibers.NewGuiFiberIsIdle | Concurrency/Fibers/GuiFiber.cs:42-47 | a new fiber is created, with an empty buffer, nothing posted, a running scheduler and no subscriptions |
| GuiFibers.Enqueue | Concurrency/Fibers/GuiFiber.cs:53-74 | stopped: dropped; created: buffered, nothing posted; running: exactly one delegate posted with that job |
| GuiFibers.StoppedDropsEverything | Concurrency/Fibers/GuiFiber.cs:55-58 | any run of enqueues on a stopped fiber changes nothing |
| GuiFibers.EnqueueAllByState | Concurrency/Fibers/GuiFiber.cs:53-74 | a run of enqueues is dropped when stopped, buffered in order when created, and posted in order when running |
| GuiFibers.EnqueueAllBuffers | Concurrency/Fibers/GuiFiber.cs:59-69 | while created, enqueues only append to the buffer |
| GuiFibers.EnqueueAllPosts | Concurrency/Fibers/GuiFiber.cs:70-73 | while running, the context receives exactly the enqueued jobs, in order |
| GuiFibers.RegisterSubscription | Concurrency/Fibers/GuiFiber.cs:80-83 | the registry grows by one; nothing else changes |
| GuiFibers.DeregisterSubscription | Concurrency/Fibers/GuiFiber.cs:90-93 | true iff it was registered; otherwise the fiber is unchanged |
| GuiFibers.Schedule | Concurrency/Fibers/GuiFiber.cs:95-98 | the scheduler gains one new item under a fresh id holding `action` (a pending action when the delay is <= 0, otherwise a one-shot timer item); its closure goes through `Enqueue`: buffered when created, posted when running or paused, dropped when stopped |
| GuiFibers.ScheduleOnInterval | Concurrency/Fibers/GuiFiber.cs:100-103 | the scheduler gains one new timer item under a fresh id holding `action` and both intervals; its deferred add goes through `Enqueue`, by state as above |
| GuiFibers.Start | Concurrency/Fibers/GuiFiber.cs:105-124 | refused, with the already-started error, iff running; otherwise the subscriptions and scheduler are untouched, the buffer is posted as one delegate (none if empty) after what was posted before, and emptied |
| GuiFibers.Stop | Concurrency/Fibers/GuiFiber.cs:137-142 | every pending timer item is cancelled and its removal enqueued, in order, under the state the fiber had: buffered when created, posted when running or paused, dropped when stopped; then the state is stopped and every registered subscription is disposed in order |
| GuiFibers.RunPosted | Concurrency/Fibers/GuiFiber.cs:70-73 | the context runs the oldest posted delegate, whose batch goes through the executor |
| GuiFibers.BufferedRunFirst | Concurrency/Fibers/GuiFiber.cs:105-124 | actions enqueued before `Start` reach the context ahead of those enqueued after it, each group in order |
| StubFibers.NewStubFiber | Concurrency/Fibers/StubFiber.cs:18-24 | nothing pending, scheduled or subscribed; at the top level; immediate execution off (`Start` is a no-op, Concurrency/Fibers/StubFiber.cs:82-84, and is modelled as the identity) |
| StubFibers.Enqueue | Concurrency/Fibers/StubFiber.cs:106-123 | without immediate execution (or nested), only appends; otherwise the action runs first, then everything pending is drained, and the top-level flag is restored; then nothing is pending; the number of runs plus the size still pending is what was pending plus the new task's size (which ids: `StubFibers.EnqueueConservesIds`) |
| StubFibers.ExecuteAllPendingUntilEmpty | Concurrency/Fibers/StubFiber.cs:174-182 | runs until nothing is pending, including what the runs enqueue; the number of runs is the size of the pending tasks with everything they spawn |
| StubFibers.EnqueueConservesIds | Concurrency/Fibers/StubFiber.cs:106-123 | for every fiber and task, the ids `Enqueue` runs plus the ids still pending are, as a multiset, those pending before plus those the new task amounts to: no run lost or duplicated |
| StubFibers.DrainRunsAllIds | Concurrency/Fibers/StubFiber.cs:174-182 | the ids a drain runs are, as a multiset, exactly those of the pending tasks and of everything they spawn |
| StubFibers.DrainFlatIsFifo | Concurrency/Fibers/StubFiber.cs:174-182 | pending tasks that enqueue nothing run in FIFO order |
| StubFibers.DrainIsBreadthFirst | Concurrency/Fibers/StubFiber.cs:174-182 | without immediate execution, the tasks pending now run first, in order, and then what they spawned is drained |
| StubFibers.DrainSplit | Concurrency/Fibers/StubFiber.cs:174-182 | draining `p + q` runs the tasks of `p` in order, then drains `q` followed by what `p` spawned |
| StubFibers.ExecuteAllPending | Concurrency/Fibers/StubFiber.cs:187-197 | runs a snapshot of the pending list once, in order; what those runs enqueue stays pending |
| StubFibers.RegisterSubscription | Concurrency/Fibers/StubFiber.cs:129-132 | appends the subscription |
| StubFibers.DeregisterSubscription | Concurrency/Fibers/StubFiber.cs:139-142 | true iff it was registered, and then its first occurrence leaves and the rest keep their order; otherwise unchanged |
| StubFibers.Schedule | Concurrency/Fibers/StubFiber.cs:150-155 | appends a new one-shot entry (interval -1) for the action, distinct from every entry handed out before; nothing runs |
| StubFibers.ScheduleOnInterval | Concurrency/Fibers/StubFiber.cs:164-169 | appends a new recurring entry with both intervals, distinct from every entry handed out before; nothing runs |
| StubFibers.ScheduleEntry | Concurrency/Fibers/StubScheduledAction.cs:48-64 | an entry stores its action and intervals unchanged and is a new object: its identity is above every identity handed out before and not on the list |
| StubFibers.DisposeScheduled | Concurrency/Fibers/StubScheduledAction.cs:81-84 | the entry's first occurrence leaves the list and the rest keep their order; disposing an absent entry changes nothing |
| StubFibers.StaleHandleIsHarmless | Concurrency/Fibers/StubScheduledAction.cs:81-84 | after an entry is disposed, a later schedule returns a different entry, and disposing the stale handle again changes nothing |
| StubFibers.ExecuteScheduled | Concurrency/Fibers/StubScheduledAction.cs:69-76 | the action runs (its id first, its spawns accounted for), then a one-shot entry removes itself and a recurring one stays; subscriptions and the uid counter are untouched |
| StubFibers.ExecuteAllScheduled | Concurrency/Fibers/StubFiber.cs:202-210 | every entry of a snapshot runs once: without immediate execution the trace is the entries' action ids in list order and their spawns are left pending; in every case the ids run plus those left pending are exactly the ids the actions amount to; afterwards exactly the recurring entries remain; subscriptions, the flags and the uid counter are untouched |
| StubFibers.HandlesNeverReused | Concurrency/Fibers/StubFiber.cs:150-169 | whatever sequence of calls comes between them, an entry scheduled later (one-shot or recurring) differs from one scheduled earlier |
| StubFibers.UidCounterNeverDecreases | Concurrency/Fibers/StubScheduledAction.cs:48-64 | over any sequence of calls on the fiber, the identity counter for new entries never goes back |
| StubFibers.OneShotRunsOnce | Concurrency/Fibers/StubFiber.cs:202-210 | a one-shot entry runs on the first `ExecuteAllScheduled` and never again |
| StubFibers.Dispose | Concurrency/Fibers/StubFiber.cs:89-100 | every scheduled entry is disposed, every subscription handed back to be disposed, and nothing is left pending |
| Queues.DrainBuffer | Concurrency/Core/DefaultQueue.cs:73-99 | a drain yields nothing once stopped (even with actions buffered), waits while running and empty, and otherwise yields the whole buffer |
| Queues.Enqueue | Concurrency/Core/DefaultQueue.cs:42-49 | always appends at the tail, also after `Stop` |
| Queues.Stop | Concurrency/Core/DefaultQueue.cs:64-71 | not running; the buffer is kept |
| Queues.StopIdempotent | Concurrency/Core/DefaultQueue.cs:64-71 | stopping twice is stopping once |
| Queues.DequeueAll | Concurrency/Core/DefaultQueue.cs:73-90 | while running, the whole buffer in FIFO order, leaving it empty; otherwise nothing changes |
| Queues.ExecuteNextBatch | Concurrency/Core/DefaultQueue.cs:105-114 | a batch runs iff running with actions buffered, and it is the whole buffer through the executor; false iff stopped |
| Queues.Run | Concurrency/Core/DefaultQueue.cs:54-59 | the loop ends only once stopped; every action enqueued before the stopping round runs exactly once, in order (unless stopped in the first round); the stopping round's actions stay buffered |
| Queues.BoundedDefaults | Concurrency/Core/BoundedQueue.cs:18-20 | default `MaxDepth` -1 (unbounded) and wait time 0; running and empty |
| Queues.SpaceAvailable | Concurrency/Core/BoundedQueue.cs:110-133 | stopped: drop; over depth with no wait: full with the current depth; over depth with a wait: the same decision on the state after the wait; room exactly when running and not over depth |
| Queues.BoundedEnqueue | Concurrency/Core/BoundedQueue.cs:76-86 | appends iff there is room; drops silently when stopped; throws full with the depth, buffer unchanged; never takes a bounded buffer past `MaxDepth` |
| Queues.StopBounded | Concurrency/Core/BoundedQueue.cs:101-108 | not running; the buffer is kept |
| Queues.BoundedDequeueAll | Concurrency/Core/BoundedQueue.cs:135-162 | while running, the whole buffer in FIFO order, leaving it empty; nothing once stopped |
| Queues.BoundedExecuteNextBatch | Concurrency/Core/BoundedQueue.cs:168-177 | a batch runs iff running with actions buffered; false iff stopped |
| Queues.FullAfterMaxDepth | Concurrency/Core/BoundedQueue.cs:110-133 | with `MaxDepth` D > 0 and no wait, D+1 enqueues succeed D times and then fail with depth D; after a drain the next enqueue succeeds |
| Subscribers.ReceiveChannel | Concurrency/Channels/BaseSubscription.cs:33-44 | a message that passes the producer-thread filter (no filter passes everything) yields exactly one delivery of that message to the subscriber's fiber, any other yields nothing; over a stream this is `ChannelDeliversFilteredInOrder` |
| Subscribers.ChannelDeliversFilteredInOrder | Concurrency/Channels/ChannelSubscription.cs:43-49 | a plain subscription enqueues one delivery per message that passes the filter, in receive order, and nothing else |
| Subscribers.ReceiveBatch | Concurrency/Channels/BatchSubscriber.cs:52-63 | a passing message is appended to the batch; the first of a window also schedules the flush at the interval |
| Subscribers.BatchWindow | Concurrency/Channels/BatchSubscriber.cs:52-80 | over one window: one flush scheduled iff some message passed, the flush delivers all passing messages in order (nothing if none), and the subscriber is back to its start state |
| Subscribers.BatchWindowFrom | Concurrency/Channels/BatchSubscriber.cs:52-63 | from any state, the batch grows by exactly the passing messages, in order |
| Subscribers.FlushBatch | Concurrency/Channels/BatchSubscriber.cs:65-80 | hands over exactly the batch collected (nothing when there is none) and leaves no batch, so the next passing message opens a new window; the whole window is `BatchWindow` |
| Subscribers.ReceiveKeyed | Concurrency/Channels/KeyedBatchSubscriber.cs:57-69 | a passing message overwrites its key in the map, other keys unchanged; the first of a window schedules the flush |
| Subscribers.FlushKeyed | Concurrency/Channels/KeyedBatchSubscriber.cs:74-101 | a missing or empty map delivers nothing; otherwise the map is delivered; either way the batch resets |
| Subscribers.KeyedWindow | Concurrency/Channels/KeyedBatchSubscriber.cs:57-101 | over one window: one flush iff some message passed, and it delivers, for every key that occurred, the latest passing message with that key |
| Subscribers.KeyedWindowFrom | Concurrency/Channels/KeyedBatchSubscriber.cs:57-69 | from a map that is the latest-by-key of earlier messages, it stays the latest-by-key of all passing messages |
| Subscribers.LatestByKeySnoc | Concurrency/Channels/KeyedBatchSubscriber.cs:67 | writing a message at its key keeps the map the latest message per key |
| Subscribers.ReceiveLast | Concurrency/Channels/LastSubscriber.cs:53-64 | a passing message overwrites the slot; a flush is scheduled only when none is pending, then marked pending |
| Subscribers.LastWindow | Concurrency/Channels/LastSubscriber.cs:53-84 | over one window: one flush iff some message passed, and it hands over the last passing message |
| Subscribers.LastWindowPending | Concurrency/Channels/LastSubscriber.cs:53-64 | while a flush is pending, messages only overwrite the slot and schedule nothing |
| Subscribers.FlushLast | Concurrency/Channels/LastSubscriber.cs:69-84 | clears the flush-pending flag and hands over the latest message, which stays stored; the whole window is `LastWindow` |
| Channels.NewChannel | Concurrency/Channels/Channel.cs:16 | a new channel has no subscribers |
| Channels.SubscribeOnProducerThreads | Concurrency/Channels/Channel.cs:86-95 | the subscriber is appended (even if already there) and exactly one new unsubscriber is registered in its registry |
| Channels.SubscribeWith | Concurrency/Channels/Channel.cs:41-67 | each `Subscribe*` variant wraps the receiver in a new subscription object of its kind, which ends up on the list exactly once |
| Channels.Unsubscribe | Concurrency/Channels/Channel.cs:97-103 | the last matching entry leaves the list and the others keep their order; an absent subscriber leaves it unchanged |
| Channels.Publish | Concurrency/Channels/Channel.cs:105-114 | false iff no subscribers; otherwise every entry is called once, in subscription order |
| Channels.ClearSubscribers | Concurrency/Channels/Channel.cs:119-122 | the list is emptied, so a later publish returns false |
| Channels.Dispose | Concurrency/Channels/Unsubscriber.cs:21-25 | the receiver's last entry leaves the channel and the handle's first entry leaves the registry; every other entry of either stays, in order |
| Channels.SubscribeThenDispose | Concurrency/Channels/Unsubscriber.cs:21-25 | disposing the handle of a fresh subscription restores both the channel's list and the registry |
| Channels.DisposeTwice | Concurrency/Channels/Unsubscriber.cs:21-25 | a second `Dispose` changes neither channel nor registry, when the receiver was listed at most once |
| Channels.DisposeTwiceWithDuplicate | Concurrency/Channels/Channel.cs:97-103 | a receiver subscribed twice loses both entries when one handle is disposed twice |
| Channels.PublishReachesNewSubscriber | Concurrency/Channels/Channel.cs:105-114 | after a subscription, a publish succeeds and reaches the new subscriber last |
| RequestReply.SendReply | Concurrency/Channels/ChannelRequest.cs:30-47 | accepted and queued at the tail iff not disposed; otherwise nothing changes |
| RequestReply.Receive | Concurrency/Channels/ChannelRequest.cs:49-75 | a queued reply is taken first; empty and disposed gives nothing without waiting; otherwise the oldest reply that arrived during the wait, if any; no reply lost or duplicated |
| RequestReply.Dispose | Concurrency/Channels/ChannelRequest.cs:80-87 | refuses replies from now on, keeps the queued ones; idempotent |
| RequestReply.ReceiveManyFifo | Concurrency/Channels/ChannelRequest.cs:53-58 | successive receives take the queued replies oldest first, one per call |
| RequestReply.RepliesSurviveDispose | Concurrency/Channels/ChannelRequest.cs:53-64 | replies sent before disposal are all received after it, in order, and then the handle gives nothing |
| RequestReply.Subscribe | Concurrency/Channels/RequestReplyChannel.cs:21-24 | exactly one plain subscriber is added to the request channel |
| RequestReply.RequestRoundTrip | Concurrency/Channels/RequestReplyChannel.cs:31-39 | for any result of `SendRequest`: no handle (null) iff there are no repliers; otherwise every replier, in order, is handed the same new, empty, live handle for the payload, and a reply sent on it is what the requester's next `Receive` takes |
| Snapshots.NewSnapshotChannel | Concurrency/Channels/SnapshotChannel.cs:22-25 | keeps the timeout; both inner channels are empty |
| Snapshots.PrimedSubscribe | Concurrency/Channels/SnapshotChannel.cs:32-48 | fails iff there is no replier or no reply arrives; on failure nothing is subscribed; on success the receiver gets the first reply and is subscribed to updates; the reply handle is disposed on every path |
| Snapshots.Publish | Concurrency/Channels/SnapshotChannel.cs:54-57 | an update is the update channel's publish |
| Snapshots.ReplyToPrimingRequest | Concurrency/Channels/SnapshotChannel.cs:64-70 | one more replier on the request channel; updates untouched |
| Snapshots.Replier | Concurrency/Channels/SnapshotChannel.cs:66-69 | the installed handler sends exactly one reply, the current state, to a live request |
| Snapshots.PrimingWithoutReplierFails | Concurrency/Channels/SnapshotChannel.cs:36-39 | with no replier, priming fails at once and nothing is subscribed |
| Snapshots.PrimingWithReplier | Concurrency/Channels/SnapshotChannel.cs:32-70 | with a replier that answers, the subscriber receives exactly the current state and is subscribed to updates |
| QueueChannels.Pop | Concurrency/Channels/QueueChannel.cs:43-55 | the head is removed and returned; an empty queue gives nothing and stays unchanged |
| QueueChannels.Signal | Concurrency/Channels/QueueConsumer.cs:23-33 | `ConsumeNext` is scheduled only when none is pending; afterwards exactly one is pending |
| QueueChannels.SignalAll | Concurrency/Channels/QueueChannel.cs:67-71 | the signal reaches every handler on the list; consumers not on it are untouched |
| QueueChannels.Publish | Concurrency/Channels/QueueChannel.cs:61-72 | the message is appended at the tail, then every subscribed consumer has a `ConsumeNext` pending |
| QueueChannels.Subscribe | Concurrency/Channels/QueueChannel.cs:36-41 | exactly one new consumer handler is added to the signal event |
| QueueChannels.Dispose | Concurrency/Channels/QueueConsumer.cs:61-64 | the consumer's last handler entry leaves the signal event, the others keeping their order; nothing else changes |
| QueueChannels.ConsumeNext | Concurrency/Channels/QueueConsumer.cs:35-59 | pops at most one message, handed to the callback iff the pop succeeded; reschedules iff messages remain, else clears the flag |
| QueueChannels.DeliveredIsPopped | Concurrency/Channels/QueueConsumer.cs:35-59 | along any trace, the callbacks receive exactly the popped messages, in order |
| QueueChannels.EveryMessageAtMostOnce | Concurrency/Channels/QueueChannel.cs:43-72 | from a new hub, along any trace, delivered messages are a prefix of the published ones, delivered plus queued is exactly the published sequence, `Count` is published minus delivered, and no consumer has more than one `ConsumeNext` outstanding |

## Left out

- `ThreadFiber`, `BusyWaitQueue`, the form and dispatcher fibers and their adapter: thread
  plumbing, spinning and host calls, with no logic beyond what is modelled.
- The interface, enum and delegate files: they contribute only the shapes used as datatypes.
- Threads, locks, `Interlocked` and `volatile`: each locked region is one atomic step, and
  interleavings appear only as the order of steps in a trace.
- The race in `ExtendedPoolFiber.Resume` between its state check and its compare-exchange is
  left out for the same reason.
- The snapshot-versus-subscription race in `SnapshotChannel` is left out for the same reason.
- `Monitor.Wait` timeouts: a wait is a parameter describing what happened meanwhile, not a
  span of time. This applies to the bounded queue's enqueue wait and to the reply wait.
- `System.Threading.Timer`: its creation is the `armed` flag. Due times are not modelled.
- The thread pool: it is a count of queued flush callbacks.
- Exceptions thrown by user callbacks, and the `try`/`finally` paths that only matter for
  them.
- PoolFibers.Resume: the `executeFirstAction` argument handed to the pausable executor is
  not modelled.
- PoolFibers.Pause: the pausable executor's own pause behaviour is not modelled. It is
  recorded as the `executorPaused` flag, and batches run through the executor's enable gate
  only.
- The `Subscriptions` properties of the subscription classes are not modelled as such. The
  subscriber's registry (its fiber) is the registry argument of a subscription.
- The `FilterOnProducerThread` property is not modelled as such. The filter is a parameter
  of each receive step.
- The four `Subscribe*` variants of the channel are one function with a kind argument. The
  receiver callbacks are not modelled.
- Subscribers.FlushLast: a flush with no message ever stored would hand over `default(T)`
  in the source; here it hands over `None`. Such a flush cannot happen, because a flush is
  only scheduled after a message has been stored.
- StubFibers.Enqueue: a stub action can only enqueue further actions on the same fiber.
  Actions that schedule, subscribe or dispose from inside a run are not modelled.
- `Lists.Swap`: it becomes handing back the whole buffer and leaving an empty one.
- `QueueFullException`: it becomes an error value carrying the depth.
- The getters that only count (`NumSubscriptions`, `PendingCount`, `Count`) are plain
  functions without contracts. The lemmas above use them.
- Channels.DisposeTwice: it holds only when the receiver is on the list at most once and
  the handle is registered at most once. `Channels.DisposeTwiceWithDuplicate` shows why.

=== FILE: channel.dfy ===
/**
 * The multicast channel. Its subscriber list is the invocation list of a multicast
 * delegate: one entry per `SubscribeOnProducerThreads`, removal of the LAST equal entry on
 * `-=`, and a publish that calls every entry in order. Every subscription also registers an
 * `Unsubscriber` in the subscriber's registry (its fiber's), so that stopping the fiber
 * takes the subscription off the channel.
 */
module Channels {
  import Seqs
  import Registry
  import opened Longs

  /** The subscription object each `Subscribe*` variant wraps the receiver in. */
  datatype Kind =
    | Plain                                   // ChannelSubscription
    | Batch(intervalInMs: Int32)              // BatchSubscriber
    | KeyedBatch(intervalInMs: Int32)         // KeyedBatchSubscriber
    | Last(intervalInMs: Int32)               // LastSubscriber

  /**
   * A delegate's target. Delegates made from the same subscriber object are equal, so a
   * subscriber is its object identity: either one the channel created for a `Subscribe*`
   * call (numbered by the channel), or one the caller passed to `SubscribeOnProducerThreads`.
   */
  datatype Subscriber = Created(serial: nat, kind: Kind) | External(id: nat)

  /**
   * `subscribers` is the invocation list, in subscription order; `serial` counts the
   * subscriptions made so far and gives every new object its identity.
   */
  datatype Channel = Channel(id: nat, subscribers: seq<Subscriber>, serial: nat)

  /** The disposable handed back by a subscription; distinct objects have distinct serials. */
  datatype Unsubscriber = Unsubscriber(channel: nat, receiver: Subscriber, serial: nat)

  type Unsubscribers = Registry.Subscriptions<Unsubscriber>

  /** The objects the channel created all carry serials below its counter. */
  predicate Valid(c: Channel)
  {
    forall s :: s in c.subscribers && s.Created? ==> s.serial < c.serial
  }

  function NewChannel(id: nat): (c: Channel)
    ensures Valid(c) && c.id == id && NumSubscribers(c) == 0
  {
    Channel(id, [], 0)
  }

  /** `NumSubscribers`: the length of the invocation list, duplicates included. */
  function NumSubscribers(c: Channel): nat
  {
    |c.subscribers|
  }

  /** `HasSubscriptions`: the invocation list is not empty. */
  predicate HasSubscriptions(c: Channel)
  {
    c.subscribers != []
  }

  /** A subscription's result: the channel, the subscriber's registry and the new handle. */
  datatype Subscribed = Subscribed(channel: Channel, registry: Unsubscribers, handle: Unsubscriber)

  /**
   * `SubscribeOnProducerThreads`: one `Unsubscriber` for this subscription goes into the
   * subscriber's registry and the subscriber is appended to the invocation list, even when
   * it is already on it.
   */
  function SubscribeOnProducerThreads(c: Channel, registry: Unsubscribers, s: Subscriber): (r: Subscribed)
    requires Valid(c) && (s.Created? ==> s.serial <= c.serial)
    ensures Valid(r.channel) && r.channel.id == c.id
    ensures r.channel.subscribers == c.subscribers + [s]
    ensures r.handle == Unsubscriber(c.id, s, c.serial)
    ensures r.registry.items == registry.items + [r.handle]
    ensures NumSubscribers(r.channel) == NumSubscribers(c) + 1 && HasSubscriptions(r.channel)
  {
    var u := Unsubscriber(c.id, s, c.serial);
    Subscribed(c.(subscribers := c.subscribers + [s], serial := c.serial + 1), Registry.Add(registry, u), u)
  }

  /**
   * `Subscribe`, `SubscribeToBatch`, `SubscribeToKeyedBatch` and `SubscribeToLast`: the
   * receiver is wrapped in a new subscription object of the given kind, which is then
   * subscribed on producer threads. The new object is on the list exactly once.
   */
  function SubscribeWith(c: Channel, registry: Unsubscribers, kind: Kind): (r: Subscribed)
    requires Valid(c)
    ensures Valid(r.channel) && r.channel.id == c.id
    ensures r.handle.receiver.Created? && r.handle.receiver.kind == kind
    ensures r.handle.receiver !in c.subscribers
    ensures r.channel.subscribers == c.subscribers + [r.handle.receiver]
    ensures multiset(r.channel.subscribers)[r.handle.receiver] == 1
    ensures r.registry.items == registry.items + [r.handle]
  {
    var s := Created(c.serial, kind);
    SubscribeOnProducerThreads(c, registry, s)
  }

  /** `Unsubscribe` (delegate `-=`): the last equal entry leaves the list; an absent one changes nothing. */
  function Unsubscribe(c: Channel, s: Subscriber): (c': Channel)
    requires Valid(c)
    ensures Valid(c') && c'.id == c.id && c'.serial == c.serial
    ensures s !in c.subscribers ==> c' == c
    ensures s in c.subscribers ==> NumSubscribers(c') == NumSubscribers(c) - 1
    ensures s in c.subscribers ==>
      c'.subscribers == c.subscribers[..Seqs.LastIndex(c.subscribers, s)] + c.subscribers[Seqs.LastIndex(c.subscribers, s) + 1..]
    ensures multiset(c'.subscribers) == multiset(c.subscribers) - multiset{s}
  {
    RemoveLastKeepsValid(c, s);
    c.(subscribers := Seqs.RemoveLast(c.subscribers, s))
  }

  /** Taking an entry off the list keeps every remaining created subscriber below the counter. */
  lemma RemoveLastKeepsValid(c: Channel, s: Subscriber)
    requires Valid(c)
    ensures Valid(c.(subscribers := Seqs.RemoveLast(c.subscribers, s)))
  {
  }

  /**
   * `Publish`: false when nobody is subscribed; otherwise every entry of the invocation
   * list is called once, in subscription order (the calls are returned in that order).
   */
  function Publish(c: Channel): (r: (bool, seq<Subscriber>))
    ensures r.0 <==> HasSubscriptions(c)
    ensures |r.1| == NumSubscribers(c)
    ensures forall i :: 0 <= i < |r.1| ==> r.1[i] == c.subscribers[i]
  {
    (c.subscribers != [], c.subscribers)
  }

  /** `ClearSubscribers`: the list is emptied; registrations elsewhere are left as they are. */
  function ClearSubscribers(c: Channel): (c': Channel)
    requires Valid(c)
    ensures Valid(c') && c'.id == c.id && c'.serial == c.serial
    ensures NumSubscribers(c') == 0 && !Publish(c').0
  {
    c.(subscribers := [])
  }

  /**
   * `Unsubscriber.Dispose`: the receiver leaves the channel (one entry, the last) and the
   * handle leaves the registry (one occurrence); nothing else in either changes.
   */
  function Dispose(c: Channel, registry: Unsubscribers, u: Unsubscriber): (r: (Channel, Unsubscribers))
    requires Valid(c) && u.channel == c.id
    ensures Valid(r.0) && r.0.id == c.id && r.0.serial == c.serial
    ensures multiset(r.0.subscribers) == multiset(c.subscribers) - multiset{u.receiver}
    ensures multiset(r.1.items) == multiset(registry.items) - multiset{u}
    ensures u.receiver !in c.subscribers ==> r.0 == c
    ensures u !in registry.items ==> r.1 == registry
    ensures u.receiver in c.subscribers ==>
      r.0.subscribers ==
        c.subscribers[..Seqs.LastIndex(c.subscribers, u.receiver)] + c.subscribers[Seqs.LastIndex(c.subscribers, u.receiver) + 1..]
    ensures u in registry.items ==>
      r.1.items ==
        registry.items[..Seqs.FirstIndex(registry.items, u)] + registry.items[Seqs.FirstIndex(registry.items, u) + 1..]
  {
    UnsubscribeFacts(c, u.receiver);
    RemoveFacts(registry, u);
    (Unsubscribe(c, u.receiver), Registry.Remove(registry, u).0)
  }

  /** The channel half of `Dispose`, stated on its own to keep the proof small. */
  lemma UnsubscribeFacts(c: Channel, s: Subscriber)
    requires Valid(c)
    ensures var c' := Unsubscribe(c, s);
      && Valid(c') && c'.id == c.id && c'.serial == c.serial
      && multiset(c'.subscribers) == multiset(c.subscribers) - multiset{s}
      && (s !in c.subscribers ==> c' == c)
      && (s in c.subscribers ==>
            c'.subscribers == c.subscribers[..Seqs.LastIndex(c.subscribers, s)] + c.subscribers[Seqs.LastIndex(c.subscribers, s) + 1..])
  {
  }

  /** The registry half of `Dispose`. */
  lemma RemoveFacts(registry: Unsubscribers, u: Unsubscriber)
    ensures var r := Registry.Remove(registry, u).0;
      && multiset(r.items) == multiset(registry.items) - multiset{u}
      && (u !in registry.items ==> r == registry)
      && (u in registry.items ==>
            r.items == registry.items[..Seqs.FirstIndex(registry.items, u)] + registry.items[Seqs.FirstIndex(registry.items, u) + 1..])
  {
  }

  /** Disposing the handle of a subscription just made undoes it, on the channel and in the registry. */
  lemma SubscribeThenDispose(c: Channel, registry: Unsubscribers, kind: Kind)
    requires Valid(c) && Unsubscriber(c.id, Created(c.serial, kind), c.serial) !in registry.items
    ensures var r := SubscribeWith(c, registry, kind);
      Dispose(r.channel, r.registry, r.handle) == (c.(serial := c.serial + 1), registry)
  {
    var r := SubscribeWith(c, registry, kind);
    Seqs.RemoveLastAppended(c.subscribers, r.handle.receiver);
    assert Unsubscribe(r.channel, r.handle.receiver) == c.(serial := c.serial + 1);
    Registry.AddThenRemove(registry, r.handle);
    assert Registry.Remove(r.registry, r.handle).0 == registry;
  }

  /**
   * Disposing a handle twice changes nothing the second time, provided its receiver was
   * on the list at most once and the handle registered at most once.
   */
  lemma DisposeTwice(c: Channel, registry: Unsubscribers, u: Unsubscriber)
    requires Valid(c) && u.channel == c.id
    requires multiset(c.subscribers)[u.receiver] <= 1 && multiset(registry.items)[u] <= 1
    ensures var (c1, r1) := Dispose(c, registry, u);
      Dispose(c1, r1, u) == (c1, r1)
  {
    var (c1, r1) := Dispose(c, registry, u);
    assert u.receiver !in multiset(c1.subscribers);
    assert u !in multiset(r1.items);
  }

  /**
   * A receiver subscribed twice on producer threads is on the list twice, so disposing one
   * of its handles twice takes both entries off: a second `Dispose` is then not harmless.
   */
  lemma DisposeTwiceWithDuplicate()
    ensures var s := External(7);
      var r1 := SubscribeOnProducerThreads(NewChannel(0), Registry.NewSubscriptions(), s);
      var r2 := SubscribeOnProducerThreads(r1.channel, r1.registry, s);
      var (c1, reg1) := Dispose(r2.channel, r2.registry, r1.handle);
      NumSubscribers(c1) == 1 && NumSubscribers(Dispose(c1, reg1, r1.handle).0) == 0
  {
    var s := External(7);
    var r1 := SubscribeOnProducerThreads(NewChannel(0), Registry.NewSubscriptions(), s);
    var r2 := SubscribeOnProducerThreads(r1.channel, r1.registry, s);
    assert r2.channel.subscribers == [s, s];
    var (c1, reg1) := Dispose(r2.channel, r2.registry, r1.handle);
    assert s in c1.subscribers by {
      assert multiset(c1.subscribers)[s] == 1;
    }
  }

  /** After any subscription, a publish reaches the new subscriber, last. */
  lemma PublishReachesNewSubscriber(c: Channel, registry: Unsubscribers, kind: Kind)
    requires Valid(c)
    ensures var r := SubscribeWith(c, registry, kind);
      var (delivered, calls) := Publish(r.channel);
      delivered && calls == c.subscribers + [r.handle.receiver]
  {
    var r := SubscribeWith(c, registry, kind);
    var calls := Publish(r.channel).1;
    assert calls == r.channel.subscribers;
  }
}

=== FILE: events.dfy ===
/**
 * The single and recurring pending events: each fire enqueues the action onto the
 * execution context (returned as the enqueued tokens) unless cancelled.
 */
module Events {
  import opened Wrappers
  import opened Longs

  datatype SingleEvent<A> = SingleEvent(action: A, expiration: Long, canceled: bool)

  /** Constructor: expires `scheduledTimeInMs` after `now` (unchecked 64-bit addition). */
  function NewSingleEvent<A>(action: A, scheduledTimeInMs: Long, now: Long): (e: SingleEvent<A>)
    ensures e.expiration == WrapAdd(now, scheduledTimeInMs)
    ensures MinLong <= now + scheduledTimeInMs <= MaxLong ==> e.expiration == now + scheduledTimeInMs
    ensures e.action == action && !e.canceled
  {
    SingleEvent(action, WrapAdd(now, scheduledTimeInMs), false)
  }

  /** What one `Execute(currentTime)` call does: the state after it, the actions enqueued, the event returned. */
  datatype Fired<E, A> = Fired(after: E, enqueued: seq<A>, next: Option<E>)

  /** `SingleEvent.Execute`: enqueues once unless cancelled, never re-arms, never moves its expiration. */
  function ExecuteSingle<A>(e: SingleEvent<A>, currentTime: Long): (f: Fired<SingleEvent<A>, A>)
    ensures f.next == None
    ensures f.after == e
    ensures f.enqueued == [] <==> e.canceled
    ensures |f.enqueued| <= 1 && forall i :: 0 <= i < |f.enqueued| ==> f.enqueued[i] == e.action
  {
    Fired(e, if e.canceled then [] else [e.action], None)
  }

  /** `SingleEvent.Dispose`: afterwards an `Execute` at any time enqueues nothing. */
  function DisposeSingle<A>(e: SingleEvent<A>): (e': SingleEvent<A>)
    ensures e'.canceled && e'.action == e.action && e'.expiration == e.expiration
    ensures forall t: Long :: ExecuteSingle(e', t).enqueued == []
  {
    e.(canceled := true)
  }

  datatype RecurringEvent<A> = RecurringEvent(action: A, regularInterval: Long, expiration: Long, canceled: bool)

  /** Constructor: first expiration is `scheduledTimeInMs` after `currentTime`. */
  function NewRecurringEvent<A>(action: A, scheduledTimeInMs: Long, regularInterval: Long, currentTime: Long): (e: RecurringEvent<A>)
    ensures e.expiration == WrapAdd(currentTime, scheduledTimeInMs)
    ensures MinLong <= currentTime + scheduledTimeInMs <= MaxLong ==> e.expiration == currentTime + scheduledTimeInMs
    ensures e.action == action && e.regularInterval == regularInterval && !e.canceled
  {
    RecurringEvent(action, regularInterval, WrapAdd(currentTime, scheduledTimeInMs), false)
  }

  /**
   * `RecurringEvent.Execute`: when live, enqueues the action once, moves the expiration to
   * `currentTime + regularInterval` and returns itself; when cancelled, returns null and
   * leaves everything as it was.
   */
  function ExecuteRecurring<A>(e: RecurringEvent<A>, currentTime: Long): (f: Fired<RecurringEvent<A>, A>)
    ensures !e.canceled ==> f.enqueued == [e.action] && f.next == Some(f.after)
    ensures !e.canceled ==> f.after == e.(expiration := WrapAdd(currentTime, e.regularInterval))
    ensures e.canceled ==> f.enqueued == [] && f.next == None && f.after == e
  {
    if !e.canceled then
      var e' := e.(expiration := WrapAdd(currentTime, e.regularInterval));
      Fired(e', [e.action], Some(e'))
    else Fired(e, [], None)
  }

  /** `RecurringEvent.Dispose`. */
  function DisposeRecurring<A>(e: RecurringEvent<A>): (e': RecurringEvent<A>)
    ensures e'.canceled && e'.action == e.action && e'.expiration == e.expiration
    ensures e'.regularInterval == e.regularInterval
  {
    e.(canceled := true)
  }

  /** Fires the event at each of the given times, following the returned event as the scheduler does. */
  function FireAt<A>(e: RecurringEvent<A>, times: seq<Long>): (res: (RecurringEvent<A>, seq<A>))
    decreases |times|
  {
    if |times| == 0 then (e, [])
    else
      var f := ExecuteRecurring(e, times[0]);
      match f.next
      case None => (f.after, f.enqueued)
      case Some(n) =>
        var rest := FireAt(n, times[1..]);
        (rest.0, f.enqueued + rest.1)
  }

  /**
   * A live recurring event fired n times enqueues its action n times and ends up expiring one
   * interval after the last fire; a cancelled one enqueues nothing and keeps its expiration.
   */
  lemma {:induction false} FireAtEnqueuesEachTime<A>(e: RecurringEvent<A>, times: seq<Long>)
    ensures !e.canceled ==> |FireAt(e, times).1| == |times|
    ensures !e.canceled ==> forall i :: 0 <= i < |times| ==> FireAt(e, times).1[i] == e.action
    ensures !e.canceled && |times| > 0 ==> FireAt(e, times).0.expiration == WrapAdd(times[|times|-1], e.regularInterval)
    ensures e.canceled ==> FireAt(e, times) == (e, [])
    ensures FireAt(e, times).0.canceled == e.canceled
    decreases |times|
  {
    if |times| > 0 {
      var f := ExecuteRecurring(e, times[0]);
      if !e.canceled {
        FireAtEnqueuesEachTime(f.after, times[1..]);
        if |times| > 1 {
          assert times[1..][|times[1..]|-1] == times[|times|-1];
        }
      }
    }
  }
}

=== FILE: executor.dfy ===
/**
 * The default executor: a gate in front of batch execution. Running an action is
 * observed as the action's token appearing in the returned trace.
 */
module Executors {

  datatype Executor = Executor(isEnabled: bool)

  /** A freshly constructed executor is enabled. */
  function NewExecutor(): (e: Executor)
    ensures e.isEnabled
  {
    Executor(true)
  }

  /** The `IsEnabled` setter: a later read returns the value written. */
  function SetEnabled(e: Executor, value: bool): (e': Executor)
    ensures e'.isEnabled == value
  {
    e.(isEnabled := value)
  }

  /** `Execute(Action)`: runs the action only while the gate is open. */
  function ExecuteOne<A>(e: Executor, a: A): (ran: seq<A>)
    ensures |ran| <= 1
    ensures ran != [] <==> e.isEnabled
    ensures forall i :: 0 <= i < |ran| ==> ran[i] == a
  {
    if e.isEnabled then [a] else []
  }

  /** `Execute(List<Action>)`: the single-action `Execute` applied to each element in list order. */
  function ExecuteAll<A>(e: Executor, batch: seq<A>): (ran: seq<A>)
    ensures e.isEnabled ==> ran == batch
    ensures !e.isEnabled ==> ran == []
  {
    if |batch| == 0 then []
    else ExecuteOne(e, batch[0]) + ExecuteAll(e, batch[1..])
  }

  /** Executing two batches one after the other runs what executing their concatenation runs. */
  lemma {:induction false} ExecuteAllAppend<A>(e: Executor, b1: seq<A>, b2: seq<A>)
    ensures ExecuteAll(e, b1 + b2) == ExecuteAll(e, b1) + ExecuteAll(e, b2)
  {
    if |b1| == 0 {
      assert b1 + b2 == b2;
    } else {
      assert (b1 + b2)[1..] == b1[1..] + b2;
      ExecuteAllAppend(e, b1[1..], b2);
    }
  }
}

=== FILE: gui_fiber.dfy ===
/**
 * The fiber that forwards work onto an external execution context (a form's or a
 * dispatcher's thread). The context is a FIFO of posted delegates, each running one batch
 * of jobs through the executor; `RunPosted` is the context running the oldest of them.
 */
module GuiFibers {
  import opened Wrappers
  import opened Longs
  import opened Executors
  import opened Jobs
  import S = Scheduling
  import PA = PendingActions
  import TA = TimerActions
  import Registry

  datatype ExecutionState = Created | Running | Stopped | Paused

  datatype GuiFiber<A> = GuiFiber(
    started: ExecutionState,
    queue: seq<Job<A>>,            // buffered before `Start`
    posted: seq<seq<Job<A>>>,      // delegates posted on the execution context, oldest first
    executor: Executor,
    timer: S.Scheduler<A>,
    subscriptions: Registry.Subscriptions<Registry.SubscriptionId>)

  predicate PostedOf<A>(s: S.Scheduler<A>, posted: seq<seq<Job<A>>>)
  {
    forall i :: 0 <= i < |posted| ==> JobsOf(s, posted[i])
  }

  ghost predicate Valid<A>(f: GuiFiber<A>)
  {
    S.Valid(f.timer) && JobsOf(f.timer, f.queue) && PostedOf(f.timer, f.posted)
  }

  /** The jobs the context will run, in order. */
  function Flatten<J>(posted: seq<seq<J>>): seq<J>
  {
    if |posted| == 0 then [] else posted[0] + Flatten(posted[1..])
  }

  lemma {:induction false} FlattenAppend<J>(a: seq<seq<J>>, b: seq<seq<J>>)
    ensures Flatten(a + b) == Flatten(a) + Flatten(b)
  {
    if |a| == 0 {
      assert a + b == b;
    } else {
      assert (a + b)[1..] == a[1..] + b;
      FlattenAppend(a[1..], b);
    }
  }

  function NewGuiFiber<A>(executor: Executor): GuiFiber<A>
  {
    GuiFiber(Created, [], [], executor, S.NewScheduler(), Registry.NewSubscriptions())
  }

  /** A new fiber is created, with nothing buffered, nothing posted and no subscriptions. */
  lemma NewGuiFiberIsIdle<A>(f: GuiFiber<A>)
    requires f == NewGuiFiber(f.executor)
    ensures Valid(f) && f.started == Created && f.queue == [] && f.posted == []
    ensures f.timer.running && Registry.Count(f.subscriptions) == 0
  {
  }

  /**
   * `Enqueue`: dropped once stopped, buffered while created, and otherwise posted at once
   * as a delegate of its own.
   */
  function Enqueue<A>(f: GuiFiber<A>, j: Job<A>): (f': GuiFiber<A>)
    requires Valid(f) && (j.Sched? ==> S.WorkOf(f.timer, j.work))
    ensures Valid(f')
    ensures f.started == Stopped ==> f' == f
    ensures f.started == Created ==> f' == f.(queue := f.queue + [j])
    ensures f.started == Running || f.started == Paused ==> f' == f.(posted := f.posted + [[j]])
    ensures Flatten(f'.posted) == Flatten(f.posted) + (if f.started == Running || f.started == Paused then [j] else [])
  {
    FlattenAppend(f.posted, [[j]]);
    assert Flatten([[j]]) == [j] by {
      assert [[j]][1..] == [];
    }
    match f.started
    case Stopped => f
    case Created => f.(queue := f.queue + [j])
    case _ => f.(posted := f.posted + [[j]])
  }

  function EnqueueAll<A>(f: GuiFiber<A>, jobs: seq<Job<A>>): (f': GuiFiber<A>)
    requires Valid(f) && JobsOf(f.timer, jobs)
    ensures Valid(f') && f'.started == f.started && f'.timer == f.timer && f'.executor == f.executor
    ensures f'.subscriptions == f.subscriptions
    ensures |f'.posted| >= |f.posted| && f'.posted[..|f.posted|] == f.posted
    ensures f.started != Created ==> f'.queue == f.queue
    decreases |jobs|
  {
    if |jobs| == 0 then f
    else
      var f1 := Enqueue(f, jobs[0]);
      assert JobsOf(f1.timer, jobs[1..]) by {
        forall i | 0 <= i < |jobs[1..]| && jobs[1..][i].Sched? ensures S.WorkOf(f1.timer, jobs[1..][i].work) {
          assert jobs[1..][i] == jobs[i + 1];
        }
      }
      EnqueueAll(f1, jobs[1..])
  }

  /** A stopped fiber drops whatever is enqueued on it. */
  lemma {:induction false} StoppedDropsEverything<A>(f: GuiFiber<A>, jobs: seq<Job<A>>)
    requires Valid(f) && JobsOf(f.timer, jobs)
    ensures f.started == Stopped ==> EnqueueAll(f, jobs) == f
    decreases |jobs|
  {
    if |jobs| > 0 && f.started == Stopped {
      assert JobsOf(f.timer, jobs[1..]) by {
        forall i | 0 <= i < |jobs[1..]| && jobs[1..][i].Sched? ensures S.WorkOf(f.timer, jobs[1..][i].work) {
          assert jobs[1..][i] == jobs[i + 1];
        }
      }
      StoppedDropsEverything(f, jobs[1..]);
    }
  }

  /** `RegisterSubscription`. */
  function RegisterSubscription<A>(f: GuiFiber<A>, d: Registry.SubscriptionId): (f': GuiFiber<A>)
    ensures Registry.Count(f'.subscriptions) == Registry.Count(f.subscriptions) + 1
    ensures f' == f.(subscriptions := f'.subscriptions)
  {
    f.(subscriptions := Registry.Add(f.subscriptions, d))
  }

  /** `DeregisterSubscription`: true iff the subscription was registered. */
  function DeregisterSubscription<A>(f: GuiFiber<A>, d: Registry.SubscriptionId): (r: (GuiFiber<A>, bool))
    ensures r.1 <==> d in f.subscriptions.items
    ensures !r.1 ==> r.0 == f
    ensures r.0 == f.(subscriptions := r.0.subscriptions)
  {
    var (subs, removed) := Registry.Remove(f.subscriptions, d);
    (f.(subscriptions := subs), removed)
  }

  /**
   * Puts a scheduler call's new state in place and enqueues the closures it produced on the
   * fiber itself, so they are buffered, posted or dropped as any other enqueued job.
   */
  function Scheduled<A>(f: GuiFiber<A>, after: S.Scheduler<A>, work: seq<S.Work>): (f': GuiFiber<A>)
    requires Valid(f) && S.Valid(after)
    requires f.timer.immediates.Keys <= after.immediates.Keys && f.timer.timers.Keys <= after.timers.Keys
    requires forall i :: 0 <= i < |work| ==> S.WorkOf(after, work[i])
    ensures Valid(f') && f'.timer == after && f'.started == f.started && f'.subscriptions == f.subscriptions
    ensures f.started == Stopped ==> f'.queue == f.queue && f'.posted == f.posted
    ensures f.started == Created ==> f'.queue == f.queue + Wrap(work) && f'.posted == f.posted
    ensures f.started == Running || f.started == Paused ==>
      f'.queue == f.queue && Flatten(f'.posted) == Flatten(f.posted) + Wrap(work)
  {
    JobsOfGrow(f.timer, after, f.queue);
    assert PostedOf(after, f.posted) by {
      forall i | 0 <= i < |f.posted| ensures JobsOf(after, f.posted[i]) {
        JobsOfGrow(f.timer, after, f.posted[i]);
      }
    }
    var g := f.(timer := after);
    EnqueueAllByState(g, Wrap(work));
    EnqueueAll(g, Wrap(work))
  }

  /**
   * `Schedule`, delegated to the fiber's scheduler, whose closure goes through `Enqueue`:
   * buffered before `Start`, posted while running, and dropped once stopped, so that an
   * action scheduled on a stopped fiber never runs.
   */
  function Schedule<A>(f: GuiFiber<A>, action: A, firstInMs: Long): (r: (GuiFiber<A>, S.Handle))
    requires Valid(f)
    ensures Valid(r.0) && S.HandleOf(r.0.timer, r.1) && r.0.started == f.started
    ensures var w := if firstInMs <= 0 then S.RunPending(r.1.id) else S.AddTimer(r.1.id);
      && (f.started == Stopped ==> r.0.queue == f.queue && r.0.posted == f.posted)
      && (f.started == Created ==> r.0.queue == f.queue + [Sched(w)] && r.0.posted == f.posted)
      && (f.started == Running || f.started == Paused ==>
            r.0.queue == f.queue && Flatten(r.0.posted) == Flatten(f.posted) + [Sched(w)])
    ensures r.1.PendingHandle? <==> firstInMs <= 0
    ensures firstInMs <= 0 ==>
      && r.1.id !in f.timer.immediates && r.0.timer.timers == f.timer.timers
      && r.0.timer.immediates == f.timer.immediates[r.1.id := PA.NewPendingAction(action)]
    ensures firstInMs > 0 ==>
      && r.1.id !in f.timer.timers && r.0.timer.immediates == f.timer.immediates
      && r.0.timer.timers == f.timer.timers[r.1.id := TA.NewTimerAction(action, firstInMs, TA.OneShot)]
  {
    var sc := S.Schedule(f.timer, action, firstInMs);
    (Scheduled(f, sc.after, sc.work), sc.handle)
  }

  /** `ScheduleOnInterval`, delegated to the fiber's scheduler; the deferred add goes through `Enqueue`. */
  function ScheduleOnInterval<A>(f: GuiFiber<A>, action: A, firstInMs: Long, regularInMs: Long)
    : (r: (GuiFiber<A>, S.Handle))
    requires Valid(f)
    ensures Valid(r.0) && S.HandleOf(r.0.timer, r.1) && r.1.TimerHandle? && r.0.started == f.started
    ensures f.started == Stopped ==> r.0.queue == f.queue && r.0.posted == f.posted
    ensures f.started == Created ==> r.0.queue == f.queue + [Sched(S.AddTimer(r.1.id))]
    ensures f.started == Running || f.started == Paused ==>
      r.0.queue == f.queue && Flatten(r.0.posted) == Flatten(f.posted) + [Sched(S.AddTimer(r.1.id))]
    ensures r.1.id !in f.timer.timers && r.0.timer.immediates == f.timer.immediates
    ensures r.0.timer.timers == f.timer.timers[r.1.id := TA.NewTimerAction(action, firstInMs, regularInMs)]
  {
    var sc := S.ScheduleOnInterval(f.timer, action, firstInMs, regularInMs);
    (Scheduled(f, sc.after, sc.work), sc.handle)
  }

  /**
   * `Start`: refused only when already running. The buffer goes to the context as one
   * delegate (none when it is empty) ahead of anything enqueued afterwards.
   */
  function Start<A>(f: GuiFiber<A>): (r: Result<GuiFiber<A>, StateError>)
    requires Valid(f)
    ensures r.Err? <==> f.started == Running
    ensures r.Err? ==> r.error == AlreadyStarted
    ensures r.Ok? ==> Valid(r.value) && r.value.started == Running && r.value.queue == []
    ensures r.Ok? ==> r.value.posted == f.posted + (if f.queue == [] then [] else [f.queue])
    ensures r.Ok? ==> Flatten(r.value.posted) == Flatten(f.posted) + f.queue
    ensures r.Ok? ==> r.value.timer == f.timer && r.value.executor == f.executor
    ensures r.Ok? ==> r.value.subscriptions == f.subscriptions
    ensures r.Ok? ==> r.value == f.(started := Running, queue := [], posted := r.value.posted)
  {
    if f.started == Running then Err(AlreadyStarted)
    else
      var posted := f.posted + (if f.queue == [] then [] else [f.queue]);
      FlattenAppend(f.posted, if f.queue == [] then [] else [f.queue]);
      assert Flatten([f.queue]) == f.queue by {
        assert [f.queue][1..] == [];
      }
      Ok(f.(started := Running, queue := [], posted := posted))
  }

  /** `Stop` (and `Dispose`): as for the pool fiber, but jobs enqueued from now on are dropped. */
  function Stop<A>(f: GuiFiber<A>): (r: (GuiFiber<A>, seq<Registry.SubscriptionId>))
    requires Valid(f)
    ensures Valid(r.0) && r.0.started == Stopped && !r.0.timer.running && r.0.timer.pending == []
    ensures |r.0.posted| >= |f.posted| && r.0.posted[..|f.posted|] == f.posted
    ensures r.0.timer.timers.Keys == f.timer.timers.Keys
    ensures forall i :: 0 <= i < |f.timer.pending| ==> r.0.timer.timers[f.timer.pending[i]].cancelled
    ensures f.started == Created ==>
      r.0.queue == f.queue + Removals(f.timer.pending) && r.0.posted == f.posted
    ensures f.started == Running || f.started == Paused ==>
      r.0.queue == f.queue && Flatten(r.0.posted) == Flatten(f.posted) + Removals(f.timer.pending)
    ensures f.started == Stopped ==> r.0.queue == f.queue && r.0.posted == f.posted
    ensures r.1 == f.subscriptions.items && Registry.Count(r.0.subscriptions) == 0
  {
    var (after, work) := S.Dispose(f.timer);
    assert Wrap<A>(work) == Removals(f.timer.pending);
    JobsOfGrow(f.timer, after, f.queue);
    assert PostedOf(after, f.posted) by {
      forall i | 0 <= i < |f.posted| ensures JobsOf(after, f.posted[i]) {
        JobsOfGrow(f.timer, after, f.posted[i]);
      }
    }
    // the removals are enqueued on the fiber before it turns to stopped
    EnqueueAllByState(f.(timer := after), Wrap(work));
    var f1 := EnqueueAll(f.(timer := after), Wrap(work));
    var (subs, disposed) := Registry.Dispose(f1.subscriptions);
    (f1.(started := Stopped, subscriptions := subs), disposed)
  }

  /** The context runs its oldest delegate: that batch goes through the executor. */
  function RunPosted<A>(f: GuiFiber<A>): (r: (GuiFiber<A>, seq<A>))
    requires Valid(f) && f.posted != []
    ensures Valid(r.0) && r.0.posted == f.posted[1..] && r.0.queue == f.queue
    ensures (r.0.timer, r.1) == RunJobs(f.executor, f.timer, f.posted[0])
  {
    var (t, ran) := RunJobs(f.executor, f.timer, f.posted[0]);
    JobsOfGrow(f.timer, t, f.queue);
    assert PostedOf(t, f.posted[1..]) by {
      forall i | 0 <= i < |f.posted[1..]| ensures JobsOf(t, f.posted[1..][i]) {
        assert f.posted[1..][i] == f.posted[i + 1];
        JobsOfGrow(f.timer, t, f.posted[i + 1]);
      }
    }
    (f.(timer := t, posted := f.posted[1..]), ran)
  }

  /**
   * Actions enqueued before `Start` reach the context ahead of actions enqueued after it,
   * each group in enqueue order.
   */
  lemma {:induction false} BufferedRunFirst<A>(f0: GuiFiber<A>, xs: seq<A>, ys: seq<A>)
    requires f0 == NewGuiFiber(f0.executor)
    ensures var f1 := EnqueueAll(f0, Acts(xs));
      && Start(f1).Ok?
      && Flatten(EnqueueAll(Start(f1).value, Acts(ys)).posted) == Acts(xs) + Acts(ys)
  {
    JobsOfActsAny(f0.timer, xs);
    EnqueueAllBuffers(f0, Acts(xs));
    var f1 := EnqueueAll(f0, Acts(xs));
    var f2 := Start(f1).value;
    assert Flatten(f2.posted) == Acts(xs);
    JobsOfActsAny(f2.timer, ys);
    EnqueueAllPosts(f2, Acts(ys));
  }

  lemma JobsOfActsAny<A>(s: S.Scheduler<A>, xs: seq<A>)
    ensures JobsOf(s, Acts(xs))
  {
  }

  /** What enqueueing a run of jobs does, by the fiber's state. */
  lemma EnqueueAllByState<A>(f: GuiFiber<A>, jobs: seq<Job<A>>)
    requires Valid(f) && JobsOf(f.timer, jobs)
    ensures f.started == Stopped ==> EnqueueAll(f, jobs) == f
    ensures f.started == Created ==> EnqueueAll(f, jobs) == f.(queue := f.queue + jobs)
    ensures f.started == Running || f.started == Paused ==>
      EnqueueAll(f, jobs).queue == f.queue && Flatten(EnqueueAll(f, jobs).posted) == Flatten(f.posted) + jobs
  {
    StoppedDropsEverything(f, jobs);
    if f.started == Created {
      EnqueueAllBuffers(f, jobs);
    } else if f.started == Running || f.started == Paused {
      EnqueueAllPosts(f, jobs);
    }
  }

  /** While created, enqueueing only buffers. */
  lemma {:induction false} EnqueueAllBuffers<A>(f: GuiFiber<A>, jobs: seq<Job<A>>)
    requires Valid(f) && JobsOf(f.timer, jobs) && f.started == Created
    ensures EnqueueAll(f, jobs) == f.(queue := f.queue + jobs)
    decreases |jobs|
  {
    if |jobs| == 0 {
      assert f.queue + jobs == f.queue;
    } else {
      var f1 := Enqueue(f, jobs[0]);
      assert JobsOf(f1.timer, jobs[1..]) by {
        forall i | 0 <= i < |jobs[1..]| && jobs[1..][i].Sched? ensures S.WorkOf(f1.timer, jobs[1..][i].work) {
          assert jobs[1..][i] == jobs[i + 1];
        }
      }
      EnqueueAllBuffers(f1, jobs[1..]);
      assert f.queue + jobs == f.queue + [jobs[0]] + jobs[1..];
    }
  }

  /** While running or paused, every job is posted, in order. */
  lemma {:induction false} EnqueueAllPosts<A>(f: GuiFiber<A>, jobs: seq<Job<A>>)
    requires Valid(f) && JobsOf(f.timer, jobs) && (f.started == Running || f.started == Paused)
    ensures Flatten(EnqueueAll(f, jobs).posted) == Flatten(f.posted) + jobs
    decreases |jobs|
  {
    if |jobs| == 0 {
      assert Flatten(f.posted) + jobs == Flatten(f.posted);
    } else {
      var f1 := Enqueue(f, jobs[0]);
      assert JobsOf(f1.timer, jobs[1..]) by {
        forall i | 0 <= i < |jobs[1..]| && jobs[1..][i].Sched? ensures S.WorkOf(f1.timer, jobs[1..][i].work) {
          assert jobs[1..][i] == jobs[i + 1];
        }
      }
      EnqueueAllPosts(f1, jobs[1..]);
      assert Flatten(f.posted) + jobs == Flatten(f.posted) + [jobs[0]] + jobs[1..];
    }
  }
}

=== FILE: jobs.dfy ===
/**
 * What a scheduler-backed fiber queues: a user action, the no-op `Start`/`Resume` enqueue
 * to kick the flush loop, or a closure of the fiber's own scheduler.
 */
module Jobs {
  import opened Executors
  import S = Scheduling
  import Seqs

  datatype Job<A> = Noop | Act(action: A) | Sched(work: S.Work)

  /** Every scheduler closure in `jobs` belongs to scheduler `s`. */
  predicate JobsOf<A>(s: S.Scheduler<A>, jobs: seq<Job<A>>)
  {
    forall i :: 0 <= i < |jobs| ==> jobs[i].Sched? ==> S.WorkOf(s, jobs[i].work)
  }

  /** Scheduler closures stay valid while the scheduler only gains items. */
  lemma JobsOfGrow<A>(s: S.Scheduler<A>, s2: S.Scheduler<A>, jobs: seq<Job<A>>)
    requires JobsOf(s, jobs)
    requires s.immediates.Keys <= s2.immediates.Keys && s.timers.Keys <= s2.timers.Keys
    ensures JobsOf(s2, jobs)
  {
    forall i | 0 <= i < |jobs| && jobs[i].Sched? ensures S.WorkOf(s2, jobs[i].work) {
      assert S.WorkOf(s, jobs[i].work);
    }
  }

  /** Plain user actions, as jobs. */
  function Acts<A>(xs: seq<A>): (jobs: seq<Job<A>>)
    ensures |jobs| == |xs| && forall i :: 0 <= i < |xs| ==> jobs[i] == Act(xs[i])
  {
    if |xs| == 0 then [] else [Act(xs[0])] + Acts(xs[1..])
  }

  /** Wrapping actions as jobs and picking the actions back out gives them back in order. */
  lemma {:induction false} ActionsOfActs<A>(xs: seq<A>)
    ensures Actions(Acts(xs)) == xs
  {
    if |xs| > 0 {
      assert Acts(xs)[1..] == Acts(xs[1..]);
      ActionsOfActs(xs[1..]);
    }
  }

  /** The scheduler's enqueued closures, as jobs. */
  function Wrap<A>(work: seq<S.Work>): seq<Job<A>>
  {
    seq(|work|, i requires 0 <= i < |work| => Sched(work[i]))
  }

  /** The removal closures a disposed scheduler enqueues for the listed timer items, in order. */
  function Removals<A>(ids: seq<nat>): seq<Job<A>>
  {
    seq(|ids|, i requires 0 <= i < |ids| => Sched(S.RemoveTimer(ids[i])))
  }

  /** The user actions among `jobs`, in order. */
  function Actions<A>(jobs: seq<Job<A>>): seq<A>
  {
    if |jobs| == 0 then []
    else (if jobs[0].Act? then [jobs[0].action] else []) + Actions(jobs[1..])
  }

  lemma {:induction false} ActionsAppend<A>(a: seq<Job<A>>, b: seq<Job<A>>)
    ensures Actions(a + b) == Actions(a) + Actions(b)
  {
    if |a| == 0 {
      assert a + b == b;
    } else {
      var head := if a[0].Act? then [a[0].action] else [];
      assert (a + b)[0] == a[0] && (a + b)[1..] == a[1..] + b;
      assert Actions(a + b) == head + Actions(a[1..] + b);
      ActionsAppend(a[1..], b);
      Seqs.AppendAssoc(head, Actions(a[1..]), Actions(b));
    }
  }

  /** Runs one job on the fiber thread: the scheduler after it and the user actions that ran. */
  function RunJob<A>(s: S.Scheduler<A>, j: Job<A>): (r: (S.Scheduler<A>, seq<A>))
    requires S.Valid(s) && (j.Sched? ==> S.WorkOf(s, j.work))
    ensures S.Valid(r.0) && r.0.immediates == s.immediates && r.0.timers.Keys == s.timers.Keys
    ensures r.0.running == s.running
    ensures !j.Sched? ==> r.0 == s && r.1 == (if j.Act? then [j.action] else [])
  {
    match j
    case Noop => (s, [])
    case Act(a) => (s, [a])
    case Sched(w) => S.RunWork(s, w)
  }

  /**
   * Runs a batch through the executor's gate, in order. With the gate closed nothing runs
   * and the scheduler is untouched; a batch of plain actions runs exactly those actions.
   */
  function RunJobs<A>(e: Executor, s: S.Scheduler<A>, jobs: seq<Job<A>>): (r: (S.Scheduler<A>, seq<A>))
    requires S.Valid(s) && JobsOf(s, jobs)
    ensures S.Valid(r.0) && r.0.immediates == s.immediates && r.0.timers.Keys == s.timers.Keys
    ensures r.0.running == s.running
    ensures !e.isEnabled ==> r == (s, [])
    ensures e.isEnabled && (forall i :: 0 <= i < |jobs| ==> !jobs[i].Sched?) ==> r == (s, Actions(jobs))
    decreases |jobs|
  {
    if |jobs| == 0 then (s, [])
    else if !e.isEnabled then (s, [])
    else
      var (s1, ran1) := RunJob(s, jobs[0]);
      assert JobsOf(s1, jobs[1..]) by {
        forall i | 0 <= i < |jobs[1..]| && jobs[1..][i].Sched?
          ensures S.WorkOf(s1, jobs[1..][i].work)
        {
          assert jobs[1..][i] == jobs[i + 1];
        }
      }
      var rest := RunJobs(e, s1, jobs[1..]);
      (rest.0, ran1 + rest.1)
  }
}

=== FILE: longs.dfy ===
/** C#'s 64-bit `long` and 32-bit `int`, with the wrap-around of unchecked addition written out. */
module Longs {

  const TwoTo64: int := 0x1_0000_0000_0000_0000
  const MinLong: int := -0x8000_0000_0000_0000
  const MaxLong: int := 0x7FFF_FFFF_FFFF_FFFF

  type Long = x: int | MinLong <= x <= MaxLong

  const MinInt: int := -0x8000_0000
  const MaxInt: int := 0x7FFF_FFFF

  type Int32 = x: int | MinInt <= x <= MaxInt

  /** Unchecked `long + long`: the exact sum reduced into the 64-bit two's-complement range. */
  function WrapAdd(a: Long, b: Long): (r: Long)
    ensures MinLong <= a + b <= MaxLong ==> r == a + b
    ensures (a + b) - r == 0 || (a + b) - r == TwoTo64 || (a + b) - r == -TwoTo64
  {
    var s := a + b;
    if s > MaxLong then s - TwoTo64
    else if s < MinLong then s + TwoTo64
    else s
  }
}

=== FILE: pending_action.dfy ===
/** The cancellable one-shot wrapper the scheduler enqueues for an immediate schedule. */
module PendingActions {

  datatype PendingAction<A> = PendingAction(action: A, cancelled: bool)

  /** A new wrapper around `action`, not yet cancelled. */
  function NewPendingAction<A>(action: A): (p: PendingAction<A>)
    ensures p.action == action && !p.cancelled
  {
    PendingAction(action, false)
  }

  /** `Dispose`: marks the wrapper cancelled; the wrapped action is kept. */
  function Dispose<A>(p: PendingAction<A>): (p': PendingAction<A>)
    ensures p'.cancelled && p'.action == p.action
  {
    p.(cancelled := true)
  }

  /** `Execute`: runs the wrapped action unless cancelled; the wrapper itself is unchanged. */
  function Execute<A>(p: PendingAction<A>): (ran: seq<A>)
    ensures ran == [] <==> p.cancelled
    ensures forall i :: 0 <= i < |ran| ==> ran[i] == p.action
    ensures |ran| <= 1
  {
    if p.cancelled then [] else [p.action]
  }

  /** The two calls a holder of the wrapper can make. */
  datatype Call = ExecuteCall | DisposeCall

  /** Applies a sequence of calls to the wrapper, collecting what runs. */
  function Replay<A>(p: PendingAction<A>, calls: seq<Call>): (res: (PendingAction<A>, seq<A>))
    decreases |calls|
  {
    if |calls| == 0 then (p, [])
    else if calls[0] == DisposeCall then Replay(Dispose(p), calls[1..])
    else
      var rest := Replay(p, calls[1..]);
      (rest.0, Execute(p) + rest.1)
  }

  /** Number of `Execute` calls made before the first `Dispose`. */
  function ExecutesBeforeDispose(calls: seq<Call>): nat
  {
    if |calls| == 0 || calls[0] == DisposeCall then 0 else 1 + ExecutesBeforeDispose(calls[1..])
  }

  function Repeat<A>(a: A, n: nat): (r: seq<A>)
    ensures |r| == n && forall i :: 0 <= i < n ==> r[i] == a
  {
    if n == 0 then [] else [a] + Repeat(a, n - 1)
  }

  /**
   * Over any call sequence: every `Execute` before the first `Dispose` runs the action
   * (so executing does not consume it), every `Execute` after it runs nothing, an earlier
   * run is never undone, and once cancelled the wrapper stays cancelled.
   */
  lemma {:induction false} ReplayRunsUntilDisposed<A>(p: PendingAction<A>, calls: seq<Call>)
    ensures Replay(p, calls).0.action == p.action
    ensures Replay(p, calls).0.cancelled <==> p.cancelled || DisposeCall in calls
    ensures p.cancelled ==> Replay(p, calls).1 == []
    ensures !p.cancelled ==> Replay(p, calls).1 == Repeat(p.action, ExecutesBeforeDispose(calls))
    decreases |calls|
  {
    if |calls| > 0 {
      if calls[0] == DisposeCall {
        ReplayRunsUntilDisposed(Dispose(p), calls[1..]);
      } else {
        ReplayRunsUntilDisposed(p, calls[1..]);
        assert calls == [calls[0]] + calls[1..];
      }
    }
  }
}

=== FILE: pool_fiber.dfy ===
/**
 * The thread-pool fiber and its pausable extension. The fiber state is one record; the
 * thread pool is a count of queued flush callbacks, and a flush is two steps so that other
 * calls can interleave with it: `BeginFlush` (the pool picks up a callback and swaps out the
 * buffered jobs) and `FinishFlush` (the batch runs and the callback re-queues itself or
 * clears the pending flag).
 */
module PoolFibers {
  import opened Wrappers
  import opened Longs
  import opened Executors
  import opened Jobs
  import S = Scheduling
  import PA = PendingActions
  import TA = TimerActions
  import Registry
  import Seqs

  /** The `started` field: 0 created, 1 running, 2 stopped, 3 paused. */
  type FiberState = x: int | 0 <= x <= 3
  const Created: FiberState := 0
  const Running: FiberState := 1
  const Stopped: FiberState := 2
  const Paused: FiberState := 3

  datatype PoolFiber<A> = PoolFiber(
    started: FiberState,
    queue: seq<Job<A>>,
    inFlight: Option<seq<Job<A>>>,  // the swapped-out batch while a flush executes it
    flushPending: bool,
    poolRequests: nat,              // flush callbacks queued on the pool, not yet picked up
    executor: Executor,
    executorPaused: bool,           // the pausable executor's own flag (extended fiber only)
    timer: S.Scheduler<A>,
    subscriptions: Registry.Subscriptions<Registry.SubscriptionId>)

  /**
   * The flush discipline: exactly one flush callback is queued or running while the pending
   * flag is set and none otherwise, and a running fiber with buffered jobs has one.
   */
  ghost predicate Valid<A>(f: PoolFiber<A>)
  {
    Sound(f) && (f.started == Running && f.queue != [] ==> f.flushPending)
  }

  /** `Valid` without the liveness half, which `Start` and `Resume` restore by enqueueing. */
  ghost predicate Sound<A>(f: PoolFiber<A>)
  {
    && S.Valid(f.timer)
    && JobsOf(f.timer, f.queue)
    && (f.inFlight.Some? ==> JobsOf(f.timer, f.inFlight.value))
    && f.poolRequests + (if f.inFlight.Some? then 1 else 0) == (if f.flushPending then 1 else 0)
  }

  /** Stops buffering new jobs without asking the pool for a flush. */
  predicate Buffering(started: FiberState)
  {
    started == Created || started == Paused
  }

  function NewPoolFiber<A>(executor: Executor): PoolFiber<A>
  {
    PoolFiber(Created, [], None, false, 0, executor, false, S.NewScheduler(), Registry.NewSubscriptions())
  }

  /** A new fiber is created, with nothing buffered, no flush requested and no subscriptions. */
  lemma NewPoolFiberIsIdle<A>(f: PoolFiber<A>)
    requires f == NewPoolFiber(f.executor)
    ensures Valid(f) && f.started == Created && f.queue == [] && f.poolRequests == 0 && !f.flushPending
    ensures f.timer.running && Registry.Count(f.subscriptions) == 0
  {
  }

  /**
   * `Enqueue`: the job is always buffered; a created or paused fiber asks for nothing, any
   * other asks the pool for a flush only when none is pending.
   */
  function Enqueue<A>(f: PoolFiber<A>, j: Job<A>): (f': PoolFiber<A>)
    requires Sound(f) && (j.Sched? ==> S.WorkOf(f.timer, j.work))
    ensures Valid(f')
    ensures f'.queue == f.queue + [j]
    ensures Buffering(f.started) ==> f'.poolRequests == f.poolRequests && f'.flushPending == f.flushPending
    ensures !Buffering(f.started) ==> f'.flushPending
    ensures !Buffering(f.started) ==> f'.poolRequests == f.poolRequests + (if f.flushPending then 0 else 1)
    ensures f' == f.(queue := f'.queue, flushPending := f'.flushPending, poolRequests := f'.poolRequests)
  {
    var f1 := f.(queue := f.queue + [j]);
    if Buffering(f.started) then f1
    else if !f.flushPending then f1.(poolRequests := f.poolRequests + 1, flushPending := true)
    else f1
  }

  function EnqueueAll<A>(f: PoolFiber<A>, jobs: seq<Job<A>>): (f': PoolFiber<A>)
    requires Valid(f) && JobsOf(f.timer, jobs)
    ensures Valid(f')
    ensures f'.queue == f.queue + jobs
    ensures Buffering(f.started) || jobs == [] ==>
      f'.poolRequests == f.poolRequests && f'.flushPending == f.flushPending
    ensures !Buffering(f.started) && jobs != [] ==>
      f'.flushPending && f'.poolRequests == f.poolRequests + (if f.flushPending then 0 else 1)
    ensures f' == f.(queue := f'.queue, flushPending := f'.flushPending, poolRequests := f'.poolRequests)
    decreases |jobs|
  {
    if |jobs| == 0 then
      assert f.queue + jobs == f.queue;
      f
    else
      var f1 := Enqueue(f, jobs[0]);
      assert JobsOf(f1.timer, jobs[1..]) by {
        forall i | 0 <= i < |jobs[1..]| && jobs[1..][i].Sched? ensures S.WorkOf(f1.timer, jobs[1..][i].work) {
          assert jobs[1..][i] == jobs[i + 1];
        }
      }
      var f2 := EnqueueAll(f1, jobs[1..]);
      assert f.queue + jobs == f.queue + [jobs[0]] + jobs[1..];
      f2
  }

  /** `RegisterSubscription`. */
  function RegisterSubscription<A>(f: PoolFiber<A>, d: Registry.SubscriptionId): (f': PoolFiber<A>)
    ensures Registry.Count(f'.subscriptions) == Registry.Count(f.subscriptions) + 1
    ensures f' == f.(subscriptions := f'.subscriptions)
  {
    f.(subscriptions := Registry.Add(f.subscriptions, d))
  }

  /** `DeregisterSubscription`: true iff the subscription was registered. */
  function DeregisterSubscription<A>(f: PoolFiber<A>, d: Registry.SubscriptionId): (r: (PoolFiber<A>, bool))
    ensures r.1 <==> d in f.subscriptions.items
    ensures !r.1 ==> r.0 == f
    ensures r.0 == f.(subscriptions := r.0.subscriptions)
  {
    var (subs, removed) := Registry.Remove(f.subscriptions, d);
    (f.(subscriptions := subs), removed)
  }

  /** Puts a scheduler call's new state in place and enqueues the closures it produced. */
  function Scheduled<A>(f: PoolFiber<A>, after: S.Scheduler<A>, work: seq<S.Work>): (f': PoolFiber<A>)
    requires Valid(f) && S.Valid(after)
    requires f.timer.immediates.Keys <= after.immediates.Keys && f.timer.timers.Keys <= after.timers.Keys
    requires forall i :: 0 <= i < |work| ==> S.WorkOf(after, work[i])
    ensures Valid(f') && f'.timer == after && f'.queue == f.queue + Wrap(work)
    ensures f'.started == f.started && f'.subscriptions == f.subscriptions && f'.executor == f.executor
    ensures f'.inFlight == f.inFlight && f'.executorPaused == f.executorPaused
    ensures Buffering(f.started) || work == [] ==>
      f'.poolRequests == f.poolRequests && f'.flushPending == f.flushPending
    ensures !Buffering(f.started) && work != [] ==>
      f'.flushPending && f'.poolRequests == f.poolRequests + (if f.flushPending then 0 else 1)
  {
    JobsOfGrow(f.timer, after, f.queue);
    JobsOfGrow(f.timer, after, if f.inFlight.Some? then f.inFlight.value else []);
    EnqueueAll(f.(timer := after), Wrap(work))
  }

  /** `Schedule`, delegated to the fiber's scheduler; the returned handle cancels it. */
  function Schedule<A>(f: PoolFiber<A>, action: A, firstInMs: Long): (r: (PoolFiber<A>, S.Handle))
    requires Valid(f)
    ensures Valid(r.0) && S.HandleOf(r.0.timer, r.1)
    ensures r.1.PendingHandle? <==> firstInMs <= 0
    ensures r.1.PendingHandle? ==> !r.0.timer.immediates[r.1.id].cancelled
    ensures r.1.TimerHandle? ==> !r.0.timer.timers[r.1.id].cancelled
    ensures firstInMs <= 0 ==>
      && r.1.id !in f.timer.immediates && r.0.timer.timers == f.timer.timers
      && r.0.timer.immediates == f.timer.immediates[r.1.id := PA.NewPendingAction(action)]
    ensures firstInMs > 0 ==>
      && r.1.id !in f.timer.timers && r.0.timer.immediates == f.timer.immediates
      && r.0.timer.timers == f.timer.timers[r.1.id := TA.NewTimerAction(action, firstInMs, TA.OneShot)]
    ensures r.0.queue == f.queue + [Sched(if firstInMs <= 0 then S.RunPending(r.1.id) else S.AddTimer(r.1.id))]
    ensures Buffering(f.started) ==> r.0.poolRequests == f.poolRequests && r.0.flushPending == f.flushPending
    ensures !Buffering(f.started) ==>
      r.0.flushPending && r.0.poolRequests == f.poolRequests + (if f.flushPending then 0 else 1)
  {
    var sc := S.Schedule(f.timer, action, firstInMs);
    (Scheduled(f, sc.after, sc.work), sc.handle)
  }

  /** `ScheduleOnInterval`, delegated to the fiber's scheduler. */
  function ScheduleOnInterval<A>(f: PoolFiber<A>, action: A, firstInMs: Long, regularInMs: Long)
    : (r: (PoolFiber<A>, S.Handle))
    requires Valid(f)
    ensures Valid(r.0) && S.HandleOf(r.0.timer, r.1) && r.1.TimerHandle?
    ensures r.1.id !in f.timer.timers && r.0.timer.immediates == f.timer.immediates
    ensures r.0.timer.timers == f.timer.timers[r.1.id := TA.NewTimerAction(action, firstInMs, regularInMs)]
    ensures r.0.queue == f.queue + [Sched(S.AddTimer(r.1.id))]
    ensures Buffering(f.started) ==> r.0.poolRequests == f.poolRequests && r.0.flushPending == f.flushPending
    ensures !Buffering(f.started) ==>
      r.0.flushPending && r.0.poolRequests == f.poolRequests + (if f.flushPending then 0 else 1)
  {
    var sc := S.ScheduleOnInterval(f.timer, action, firstInMs, regularInMs);
    (Scheduled(f, sc.after, sc.work), sc.handle)
  }

  /**
   * Disposing a handle the fiber's scheduler returned: an immediate item is only marked
   * cancelled; a timer item is cancelled, drops its action and enqueues its removal, which
   * follows `Enqueue`'s flush rule. Nothing else about the fiber changes.
   */
  function DisposeHandle<A>(f: PoolFiber<A>, h: S.Handle): (f': PoolFiber<A>)
    requires Valid(f) && S.HandleOf(f.timer, h)
    ensures Valid(f')
    ensures f' == f.(timer := f'.timer, queue := f'.queue, flushPending := f'.flushPending, poolRequests := f'.poolRequests)
    ensures f'.timer == f.timer.(immediates := f'.timer.immediates, timers := f'.timer.timers)
    ensures f'.timer.immediates.Keys == f.timer.immediates.Keys && f'.timer.timers.Keys == f.timer.timers.Keys
    ensures h.PendingHandle? ==>
      && f'.queue == f.queue && f'.poolRequests == f.poolRequests && f'.flushPending == f.flushPending
      && f'.timer.timers == f.timer.timers
      && f'.timer.immediates == f.timer.immediates[h.id := f'.timer.immediates[h.id]]
      && f'.timer.immediates[h.id].cancelled && f'.timer.immediates[h.id].action == f.timer.immediates[h.id].action
      && PA.Execute(f'.timer.immediates[h.id]) == []
    ensures h.TimerHandle? ==>
      && f'.queue == f.queue + [Sched(S.RemoveTimer(h.id))]
      && f'.timer.immediates == f.timer.immediates
      && f'.timer.timers == f.timer.timers[h.id := f'.timer.timers[h.id]]
      && f'.timer.timers[h.id].cancelled && f'.timer.timers[h.id].action == None
      && TA.ExecuteOnFiberThread(f'.timer.timers[h.id]) == []
    ensures h.TimerHandle? && Buffering(f.started) ==>
      f'.poolRequests == f.poolRequests && f'.flushPending == f.flushPending
    ensures h.TimerHandle? && !Buffering(f.started) ==>
      f'.flushPending && f'.poolRequests == f.poolRequests + (if f.flushPending then 0 else 1)
  {
    var (after, work) := S.DisposeHandle(f.timer, h);
    Scheduled(f, after, work)
  }

  /**
   * A tick of one of the fiber's timers, on the timer thread: the item's removal is
   * enqueued iff it is one-shot or cancelled, then its fiber-thread run iff it is not
   * cancelled, under `Enqueue`'s flush rule. The tick only disarms the item that asks for
   * removal; the rest of the fiber is untouched.
   */
  function TimerTick<A>(f: PoolFiber<A>, id: nat): (f': PoolFiber<A>)
    requires Valid(f) && id in f.timer.timers
    ensures Valid(f')
    ensures var t := f.timer.timers[id];
      f'.queue == f.queue
        + (if t.intervalInMs == TA.OneShot || t.cancelled then [Sched(S.RemoveTimer(id))] else [])
        + (if !t.cancelled then [Sched(S.RunTimer(id))] else [])
    ensures f' == f.(timer := f'.timer, queue := f'.queue, flushPending := f'.flushPending, poolRequests := f'.poolRequests)
    ensures f'.timer == f.timer.(timers := f'.timer.timers)
    ensures f'.timer.timers.Keys == f.timer.timers.Keys
    ensures forall k :: k in f.timer.timers && k != id ==> f'.timer.timers[k] == f.timer.timers[k]
    ensures f'.timer.timers[id].cancelled == f.timer.timers[id].cancelled
    ensures f'.timer.timers[id].action == f.timer.timers[id].action
    ensures Buffering(f.started) ==> f'.poolRequests == f.poolRequests && f'.flushPending == f.flushPending
    ensures !Buffering(f.started) ==>
      f'.flushPending && f'.poolRequests == f.poolRequests + (if f.flushPending then 0 else 1)
  {
    var (after, work) := S.Fire(f.timer, id);
    var f' := Scheduled(f, after, work);
    var t := f.timer.timers[id];
    assert Wrap<A>(work) == (if t.intervalInMs == TA.OneShot || t.cancelled then [Sched(S.RemoveTimer(id))] else [])
                          + (if !t.cancelled then [Sched(S.RunTimer(id))] else []);
    Seqs.AppendAssoc(f.queue, if t.intervalInMs == TA.OneShot || t.cancelled then [Sched(S.RemoveTimer(id))] else [],
                     if !t.cancelled then [Sched(S.RunTimer(id))] else []);
    f'
  }

  /**
   * `Start`: refused on a running or paused fiber; otherwise the fiber runs and a no-op is
   * enqueued so the buffered jobs are flushed.
   */
  function Start<A>(f: PoolFiber<A>): (r: Result<PoolFiber<A>, StateError>)
    requires Valid(f)
    ensures r.Err? <==> f.started == Running || f.started == Paused
    ensures r.Err? ==> r.error == AlreadyStarted
    ensures r.Ok? ==> Valid(r.value) && r.value.started == Running && r.value.queue == f.queue + [Noop]
    ensures r.Ok? ==> r.value.flushPending
    ensures r.Ok? ==> r.value.poolRequests == f.poolRequests + (if f.flushPending then 0 else 1)
    ensures r.Ok? ==> r.value == f.(started := Running, queue := r.value.queue, flushPending := true, poolRequests := r.value.poolRequests)
  {
    if f.started == Running || f.started == Paused then Err(AlreadyStarted)
    else Ok(Enqueue(f.(started := Running), Noop))
  }

  /**
   * `Stop` (and `Dispose`): disposes the scheduler, which enqueues one removal per
   * registered timer, marks the fiber stopped and disposes every registered subscription,
   * returned here in registration order.
   */
  function Stop<A>(f: PoolFiber<A>): (r: (PoolFiber<A>, seq<Registry.SubscriptionId>))
    requires Valid(f)
    ensures Valid(r.0) && r.0.started == Stopped && !r.0.timer.running && r.0.timer.pending == []
    ensures r.0.timer.timers.Keys == f.timer.timers.Keys
    ensures forall i :: 0 <= i < |f.timer.pending| ==> r.0.timer.timers[f.timer.pending[i]].cancelled
    ensures r.1 == f.subscriptions.items && Registry.Count(r.0.subscriptions) == 0
    ensures |r.0.queue| == |f.queue| + |f.timer.pending| && r.0.queue[..|f.queue|] == f.queue
    ensures forall i :: 0 <= i < |f.timer.pending| ==>
      r.0.queue[|f.queue| + i] == Sched(S.RemoveTimer(f.timer.pending[i]))
  {
    var (after, work) := S.Dispose(f.timer);
    var f1 := Scheduled(f, after, work);
    var (subs, disposed) := Registry.Dispose(f1.subscriptions);
    var f2 := f1.(started := Stopped, subscriptions := subs);
    assert f2.queue[..|f.queue|] == f.queue;
    (f2, disposed)
  }

  /**
   * The pool picks up a flush callback and takes the buffer (`ClearActions`): an empty
   * buffer clears the pending flag and the callback ends; otherwise the whole buffer becomes
   * the batch in flight and the buffer is emptied.
   */
  function BeginFlush<A>(f: PoolFiber<A>): (f': PoolFiber<A>)
    requires Valid(f) && f.poolRequests > 0
    ensures Valid(f') && f'.queue == [] && f'.poolRequests == f.poolRequests - 1
    ensures f.queue == [] ==> f'.inFlight == None && !f'.flushPending
    ensures f.queue != [] ==> f'.inFlight == Some(f.queue) && f'.flushPending
    ensures f' == f.(queue := [], inFlight := f'.inFlight, flushPending := f'.flushPending, poolRequests := f'.poolRequests)
  {
    var f1 := f.(poolRequests := f.poolRequests - 1);
    if f.queue == [] then f1.(flushPending := false)
    else f1.(queue := [], inFlight := Some(f.queue))
  }

  /**
   * The batch in flight runs through the executor; then the callback re-queues itself if
   * jobs arrived meanwhile and otherwise clears the pending flag. Returns the user actions
   * that ran.
   */
  function FinishFlush<A>(f: PoolFiber<A>): (r: (PoolFiber<A>, seq<A>))
    requires Valid(f) && f.inFlight.Some?
    ensures Valid(r.0) && r.0.inFlight == None && r.0.queue == f.queue
    ensures r.0.flushPending <==> f.queue != []
    ensures r.0.poolRequests == (if f.queue != [] then 1 else 0)
    ensures (r.0.timer, r.1) == RunJobs(f.executor, f.timer, f.inFlight.value)
    ensures r.0.started == f.started && r.0.subscriptions == f.subscriptions && r.0.executor == f.executor
  {
    var (t, ran) := RunJobs(f.executor, f.timer, f.inFlight.value);
    JobsOfGrow(f.timer, t, f.queue);
    var f1 := f.(timer := t, inFlight := None);
    if f.queue != [] then (f1.(poolRequests := f.poolRequests + 1), ran)
    else (f1.(flushPending := false), ran)
  }

  /* ---------------- the pausable fiber ---------------- */

  /** The extended fiber's constructor: a missing executor is refused. */
  function NewExtendedPoolFiber<A>(executor: Option<Executor>): Result<PoolFiber<A>, StateError>
  {
    if executor.None? then Err(ArgumentNull) else Ok(NewPoolFiber(executor.value))
  }

  /** The extended constructor fails exactly without an executor; otherwise it is a new fiber on it. */
  lemma NewExtendedPoolFiberNeedsExecutor<A>(executor: Option<Executor>, r: Result<PoolFiber<A>, StateError>)
    requires r == NewExtendedPoolFiber(executor)
    ensures r.Err? <==> executor.None?
    ensures r.Err? ==> r.error == ArgumentNull
    ensures r.Ok? ==> Valid(r.value) && r.value.started == Created && r.value.executor == executor.value
  {
  }

  predicate IsPaused<A>(f: PoolFiber<A>)
  {
    f.started == Paused
  }

  /**
   * `Pause`: refused on a stopped fiber, a no-op unless running; a running fiber pauses its
   * executor and from then on only buffers.
   */
  function Pause<A>(f: PoolFiber<A>): (r: Result<PoolFiber<A>, StateError>)
    requires Valid(f)
    ensures r.Err? <==> f.started == Stopped
    ensures r.Err? ==> r.error == AlreadyStopped
    ensures r.Ok? && f.started != Running ==> r.value == f
    ensures r.Ok? && f.started == Running ==> IsPaused(r.value) && r.value.executorPaused
    ensures r.Ok? && f.started == Running ==> r.value == f.(started := Paused, executorPaused := true)
    ensures r.Ok? ==> Valid(r.value) && r.value.queue == f.queue && r.value.poolRequests == f.poolRequests
  {
    if f.started == Stopped then Err(AlreadyStopped)
    else if f.started != Running then Ok(f)
    else Ok(f.(executorPaused := true, started := Paused))
  }

  /**
   * `Resume`: refused unless paused; otherwise the fiber runs again, the executor resumes and
   * a no-op is enqueued so what was buffered while paused gets flushed.
   */
  function Resume<A>(f: PoolFiber<A>): (r: Result<PoolFiber<A>, StateError>)
    requires Valid(f)
    ensures r.Err? <==> !IsPaused(f)
    ensures r.Err? ==> r.error == NotPaused
    ensures r.Ok? ==> Valid(r.value) && r.value.started == Running && !r.value.executorPaused
    ensures r.Ok? ==> r.value.queue == f.queue + [Noop] && r.value.flushPending
    ensures r.Ok? ==> r.value.poolRequests == f.poolRequests + (if f.flushPending then 0 else 1)
    ensures r.Ok? ==> r.value == f.(started := Running, executorPaused := false, queue := r.value.queue,
                                    flushPending := true, poolRequests := r.value.poolRequests)
  {
    if !IsPaused(f) then Err(NotPaused)
    else Ok(Enqueue(f.(started := Running, executorPaused := false), Noop))
  }

  /**
   * A running fiber is paused by `Pause` and running again after `Resume`, with a no-op
   * enqueued behind whatever was buffered meanwhile.
   */
  lemma PauseThenResume<A>(f: PoolFiber<A>)
    requires Valid(f) && f.started == Running
    ensures Pause(f).Ok? && IsPaused(Pause(f).value)
    ensures Resume(Pause(f).value).Ok? && !IsPaused(Resume(Pause(f).value).value)
    ensures Resume(Pause(f).value).value.queue == f.queue + [Noop]
  {
  }

  /* ---------------- traces ---------------- */

  /** Every call the outside world, the pool and the timers can make on the fiber. */
  datatype Op<A> =
    | EnqueueOp(action: A)
    | StartOp
    | StopOp
    | PauseOp
    | ResumeOp
    | ScheduleOp(action: A, firstInMs: Long)
    | ScheduleOnIntervalOp(action: A, firstInMs: Long, regularInMs: Long)
    | DisposeHandleOp(handle: S.Handle)
    | TickOp(id: nat)
    | RegisterOp(sub: Registry.SubscriptionId)
    | PoolRunsFlush
    | FlushFinishes

  /** Applies one call; a call that throws, or that cannot happen in this state, leaves `f` alone. */
  function Apply<A>(f: PoolFiber<A>, op: Op<A>): (f': PoolFiber<A>)
    requires Valid(f)
    ensures Valid(f')
  {
    match op
    case EnqueueOp(a) => Enqueue(f, Act(a))
    case StartOp => (var r := Start(f); if r.Ok? then r.value else f)
    case StopOp => Stop(f).0
    case PauseOp => (var r := Pause(f); if r.Ok? then r.value else f)
    case ResumeOp => (var r := Resume(f); if r.Ok? then r.value else f)
    case ScheduleOp(a, first) => Schedule(f, a, first).0
    case ScheduleOnIntervalOp(a, first, regular) => ScheduleOnInterval(f, a, first, regular).0
    case DisposeHandleOp(h) => if S.HandleOf(f.timer, h) then DisposeHandle(f, h) else f
    case TickOp(id) => if id in f.timer.timers then TimerTick(f, id) else f
    case RegisterOp(d) => RegisterSubscription(f, d)
    case PoolRunsFlush => if f.poolRequests > 0 then BeginFlush(f) else f
    case FlushFinishes => if f.inFlight.Some? then FinishFlush(f).0 else f
  }

  function ApplyAll<A>(f: PoolFiber<A>, ops: seq<Op<A>>): PoolFiber<A>
    requires Valid(f)
    decreases |ops|
  {
    if |ops| == 0 then f else ApplyAll(Apply(f, ops[0]), ops[1..])
  }

  /**
   * Whatever sequence of calls a fiber goes through, at most one flush callback is ever
   * queued or running, and a running fiber with buffered work always has one.
   */
  lemma {:induction false} AtMostOneFlush<A>(f: PoolFiber<A>, ops: seq<Op<A>>)
    requires Valid(f)
    ensures var g := ApplyAll(f, ops);
      && g.poolRequests + (if g.inFlight.Some? then 1 else 0) <= 1
      && (g.started == Running && g.queue != [] ==> g.flushPending)
    decreases |ops|
  {
    if |ops| > 0 {
      AtMostOneFlush(Apply(f, ops[0]), ops[1..]);
    }
  }

  /**
   * A created fiber only buffers: nothing reaches the pool until `Start`, which asks for one
   * flush, and that flush runs every buffered action in enqueue order.
   */
  lemma {:induction false} CreatedBuffersUntilStart<A>(f0: PoolFiber<A>, xs: seq<A>)
    requires f0 == NewPoolFiber(f0.executor) && f0.executor.isEnabled
    ensures var f1 := EnqueueAll(f0, Acts(xs));
      && f1.poolRequests == 0 && f1.queue == Acts(xs)
      && var started := Start(f1);
      && started.Ok? && started.value.poolRequests == 1
      && var taken := BeginFlush(started.value);
      && FinishFlush(taken).1 == xs
      && !FinishFlush(taken).0.flushPending && FinishFlush(taken).0.poolRequests == 0
  {
    var f2 := StartAfterBuffering(f0, xs);
    StartedBatch(xs);
    PlainBatchFlush(f2);
  }

  /** The batch a started fiber flushes holds only plain actions, which are `xs`. */
  lemma StartedBatch<A>(xs: seq<A>)
    ensures var batch := Acts(xs) + [Noop];
      Actions(batch) == xs && forall i :: 0 <= i < |batch| ==> !batch[i].Sched?
  {
    var batch := Acts(xs) + [Noop];
    var noop: seq<Job<A>> := [Noop];
    var none: seq<A> := [];
    assert Actions(noop) == none by {
      assert noop[1..] == [];
    }
    ActionsAppend(Acts(xs), noop);
    ActionsOfActs(xs);
    assert xs + none == xs;
    forall i | 0 <= i < |batch| ensures !batch[i].Sched? {
      if i < |xs| {
        assert batch[i] == Acts(xs)[i];
      }
    }
  }

  /** The fiber `CreatedBuffersUntilStart` starts: the buffered actions, then the start marker. */
  function StartAfterBuffering<A>(f0: PoolFiber<A>, xs: seq<A>): (f2: PoolFiber<A>)
    requires f0 == NewPoolFiber(f0.executor)
    ensures var f1 := EnqueueAll(f0, Acts(xs));
      && f1.poolRequests == 0 && f1.queue == Acts(xs) && Start(f1).Ok? && f2 == Start(f1).value
    ensures Valid(f2) && f2.poolRequests == 1 && f2.queue == Acts(xs) + [Noop] && f2.executor == f0.executor
  {
    JobsOfActs(f0.timer, xs);
    var f1 := EnqueueAll(f0, Acts(xs));
    assert f0.queue + Acts(xs) == Acts(xs);
    Start(f1).value
  }

  /** One flush of a batch of plain actions, with nothing enqueued meanwhile, runs exactly those actions. */
  lemma PlainBatchFlush<A>(f: PoolFiber<A>)
    requires Valid(f) && f.poolRequests > 0 && f.queue != [] && f.executor.isEnabled
    requires forall i :: 0 <= i < |f.queue| ==> !f.queue[i].Sched?
    ensures var r := FinishFlush(BeginFlush(f));
      r.1 == Actions(f.queue) && !r.0.flushPending && r.0.poolRequests == 0
  {
    var taken := BeginFlush(f);
    assert taken.inFlight == Some(f.queue) && taken.queue == [] && taken.executor == f.executor;
  }

  lemma JobsOfActs<A>(s: S.Scheduler<A>, xs: seq<A>)
    ensures JobsOf(s, Acts(xs))
  {
  }
}

=== FILE: queue_channel.dfy ===
/**
 * The queue channel: competing consumers share one FIFO queue. A publish queues the message
 * and raises the signal event, whose invocation list holds one handler per subscribed
 * consumer; a signalled consumer schedules `ConsumeNext` on its execution context unless it
 * already has one scheduled. The contexts are abstract: each consumer's count of scheduled,
 * not yet run `ConsumeNext` actions stands for its context's queue, and running one is a step.
 * `published` and `popped` record the history of the queue for the statements below.
 */
module QueueChannels {
  import opened Wrappers
  import Seqs

  /** `QueueChannel<T>`: the queue, oldest first, and the signal event's invocation list (consumer ids). */
  datatype QueueChannel<T> = QueueChannel(queue: seq<T>, signal: seq<nat>)

  /** `QueueConsumer<T>`: its flush-pending flag and the `ConsumeNext` actions scheduled for it. */
  datatype Consumer = Consumer(flushPending: bool, scheduled: nat)

  datatype Hub<T> = Hub(channel: QueueChannel<T>, consumers: map<nat, Consumer>, published: seq<T>, popped: seq<T>)

  /** A consumer has a `ConsumeNext` scheduled exactly when its flag is set, and never more than one. */
  predicate ConsumerOk(c: Consumer)
  {
    c.scheduled == (if c.flushPending then 1 else 0)
  }

  ghost predicate Valid<T>(h: Hub<T>)
  {
    && (forall id :: id in h.consumers ==> ConsumerOk(h.consumers[id]))
    && (forall id :: id in h.channel.signal ==> id in h.consumers)
    && h.popped + h.channel.queue == h.published
  }

  function NewHub<T>(): Hub<T>
  {
    Hub(QueueChannel([], []), map[], [], [])
  }

  /** `Count`: the number of queued messages. */
  function Count<T>(q: QueueChannel<T>): nat
  {
    |q.queue|
  }

  /** `Pop`: the head is removed and returned; an empty queue gives nothing and stays as it is. */
  function Pop<T>(q: QueueChannel<T>): (r: (QueueChannel<T>, Option<T>))
    ensures r.1.Some? <==> q.queue != []
    ensures r.1.Some? ==> r.1.value == q.queue[0]
    ensures Taken(r.1) + r.0.queue == q.queue && r.0.signal == q.signal
    ensures r.1.None? ==> r.0 == q
  {
    if q.queue == [] then (q, None)
    else
      assert [q.queue[0]] + q.queue[1..] == q.queue;
      (q.(queue := q.queue[1..]), Some(q.queue[0]))
  }

  /** `Signal`: a `ConsumeNext` is scheduled only when none is pending; then one is pending. */
  function Signal(c: Consumer): (c': Consumer)
    requires ConsumerOk(c)
    ensures ConsumerOk(c') && c'.flushPending
    ensures c'.scheduled == 1 && (c.flushPending ==> c' == c)
  {
    if c.flushPending then c else Consumer(true, c.scheduled + 1)
  }

  /** The signal event: every handler on the invocation list, in order. */
  function SignalAll(consumers: map<nat, Consumer>, ids: seq<nat>): (r: map<nat, Consumer>)
    requires forall id :: id in consumers ==> ConsumerOk(consumers[id])
    requires forall id :: id in ids ==> id in consumers
    ensures r.Keys == consumers.Keys
    ensures forall id :: id in r ==> ConsumerOk(r[id])
    ensures forall id :: id in r ==> (r[id].flushPending <==> consumers[id].flushPending || id in ids)
    ensures forall id :: id in r && id !in ids ==> r[id] == consumers[id]
    decreases |ids|
  {
    if |ids| == 0 then consumers
    else
      var next := consumers[ids[0] := Signal(consumers[ids[0]])];
      var r := SignalAll(next, ids[1..]);
      assert forall id :: id in ids <==> id == ids[0] || id in ids[1..];
      r
  }

  /** `Publish`: the message goes to the tail, then every registered consumer is signalled once. */
  function Publish<T>(h: Hub<T>, msg: T): (h': Hub<T>)
    requires Valid(h)
    ensures Valid(h')
    ensures h'.channel.queue == h.channel.queue + [msg] && h'.published == h.published + [msg]
    ensures h'.channel.signal == h.channel.signal && h'.popped == h.popped
    ensures h'.consumers.Keys == h.consumers.Keys
    ensures forall id :: id in h.channel.signal ==> h'.consumers[id].flushPending
    ensures forall id :: id in h.consumers && id !in h.channel.signal ==> h'.consumers[id] == h.consumers[id]
  {
    var consumers := SignalAll(h.consumers, h.channel.signal);
    Hub(h.channel.(queue := h.channel.queue + [msg]), consumers, h.published + [msg], h.popped)
  }

  /**
   * `QueueChannel.Subscribe`: a new consumer, with nothing pending, whose handler is added
   * to the signal event (`QueueConsumer.Subscribe`).
   */
  function Subscribe<T>(h: Hub<T>, id: nat): (h': Hub<T>)
    requires Valid(h) && id !in h.consumers
    ensures Valid(h')
    ensures h'.channel.signal == h.channel.signal + [id] && h'.channel.queue == h.channel.queue
    ensures h'.consumers == h.consumers[id := Consumer(false, 0)]
    ensures h'.published == h.published && h'.popped == h.popped
  {
    Hub(h.channel.(signal := h.channel.signal + [id]), h.consumers[id := Consumer(false, 0)], h.published, h.popped)
  }

  /**
   * `QueueConsumer.Dispose`: the consumer's handler leaves the signal event (the last equal
   * entry, as delegate removal does). A `ConsumeNext` already scheduled still runs.
   */
  function Dispose<T>(h: Hub<T>, id: nat): (h': Hub<T>)
    requires Valid(h)
    ensures Valid(h')
    ensures multiset(h'.channel.signal) == multiset(h.channel.signal) - multiset{id}
    ensures id !in h.channel.signal ==> h' == h
    ensures id in h.channel.signal ==>
      h'.channel.signal ==
        h.channel.signal[..Seqs.LastIndex(h.channel.signal, id)] + h.channel.signal[Seqs.LastIndex(h.channel.signal, id) + 1..]
    ensures h'.channel.queue == h.channel.queue && h'.consumers == h.consumers
    ensures h'.published == h.published && h'.popped == h.popped
  {
    h.(channel := h.channel.(signal := Seqs.RemoveLast(h.channel.signal, id)))
  }

  /**
   * `ConsumeNext`, run by the consumer's context: at most one message is popped and handed
   * to the callback (returned); then the consumer schedules itself again iff messages
   * remain, and otherwise clears its flag.
   */
  function ConsumeNext<T>(h: Hub<T>, id: nat): (r: (Hub<T>, Option<T>))
    requires Valid(h) && id in h.consumers && h.consumers[id].scheduled > 0
    ensures Valid(r.0)
    ensures r.1.Some? <==> h.channel.queue != []
    ensures r.1.Some? ==> r.1.value == h.channel.queue[0]
    ensures r.0.popped == h.popped + Taken(r.1) && r.0.published == h.published
    ensures r.0.channel.signal == h.channel.signal && r.0.consumers.Keys == h.consumers.Keys
    ensures r.0.consumers[id].flushPending <==> Count(r.0.channel) > 0
    ensures forall other :: other in h.consumers && other != id ==> r.0.consumers[other] == h.consumers[other]
  {
    var (q, got) := Pop(h.channel);
    var c := h.consumers[id];
    var c' := if q.queue == [] then Consumer(false, c.scheduled - 1) else c;
    assert h.popped + Taken(got) + q.queue == h.published;
    (Hub(q, h.consumers[id := c'], h.published, h.popped + Taken(got)), got)
  }

  /** The events that drive the hub. */
  datatype Op<T> = PublishOp(msg: T) | SubscribeOp(id: nat) | DisposeOp(id: nat) | RunOp(id: nat)

  /** One event; a subscription under a used id, or a run with nothing scheduled, is ignored. */
  function Apply<T>(h: Hub<T>, op: Op<T>): (r: (Hub<T>, Option<T>))
    requires Valid(h)
    ensures Valid(r.0)
    ensures r.0.popped == h.popped + Taken(r.1) && r.0.published == h.published + (if op.PublishOp? then [op.msg] else [])
  {
    match op
    case PublishOp(msg) => (Publish(h, msg), None)
    case SubscribeOp(id) => if id in h.consumers then (h, None) else (Subscribe(h, id), None)
    case DisposeOp(id) => (Dispose(h, id), None)
    case RunOp(id) => if id in h.consumers && h.consumers[id].scheduled > 0 then ConsumeNext(h, id) else (h, None)
  }

  /** The published messages of a trace, in order. */
  function PublishedBy<T>(ops: seq<Op<T>>): seq<T>
  {
    if |ops| == 0 then [] else (if ops[0].PublishOp? then [ops[0].msg] else []) + PublishedBy(ops[1..])
  }

  /** A trace of events, with the messages the callbacks received, in order. */
  function ApplyAll<T>(h: Hub<T>, ops: seq<Op<T>>): (r: (Hub<T>, seq<T>))
    requires Valid(h)
    ensures Valid(r.0)
    decreases |ops|
  {
    if |ops| == 0 then (h, [])
    else
      var (h1, got) := Apply(h, ops[0]);
      var (h2, rest) := ApplyAll(h1, ops[1..]);
      (h2, Taken(got) + rest)
  }

  /**
   * Along any trace, the messages handed to the callbacks are exactly the ones popped, in
   * order, and the published history grows by the trace's publishes.
   */
  lemma {:induction false} DeliveredIsPopped<T>(h: Hub<T>, ops: seq<Op<T>>)
    requires Valid(h)
    ensures h.popped + ApplyAll(h, ops).1 == ApplyAll(h, ops).0.popped
    ensures ApplyAll(h, ops).0.published == h.published + PublishedBy(ops)
    decreases |ops|
  {
    if |ops| > 0 {
      var (h1, got) := Apply(h, ops[0]);
      DeliveredIsPopped(h1, ops[1..]);
      var rest := ApplyAll(h1, ops[1..]).1;
      assert ApplyAll(h, ops) == (ApplyAll(h1, ops[1..]).0, Taken(got) + rest);
      Seqs.AppendAssoc(h.popped, Taken(got), rest);
      var head := if ops[0].PublishOp? then [ops[0].msg] else [];
      assert PublishedBy(ops) == head + PublishedBy(ops[1..]);
      Seqs.AppendAssoc(h.published, head, PublishedBy(ops[1..]));
    }
  }

  /**
   * From a new hub, along any trace: what the callbacks received, followed by what is still
   * queued, is exactly what was published, in order (no message is delivered twice, lost or
   * reordered), and every consumer has at most one `ConsumeNext` scheduled.
   */
  lemma EveryMessageAtMostOnce<T>(ops: seq<Op<T>>)
    ensures var r := ApplyAll(NewHub<T>(), ops);
      && r.1 + r.0.channel.queue == PublishedBy(ops)
      && r.1 == PublishedBy(ops)[..|r.1|]
      && Count(r.0.channel) == |PublishedBy(ops)| - |r.1|
      && (forall id :: id in r.0.consumers ==> r.0.consumers[id].scheduled <= 1)
  {
    var h0 := NewHub<T>();
    DeliveredIsPopped(h0, ops);
    var r := ApplyAll(h0, ops);
    assert [] + r.1 == r.1 && [] + PublishedBy(ops) == PublishedBy(ops);
    assert r.0.popped + r.0.channel.queue == r.0.published;
    assert (r.1 + r.0.channel.queue)[..|r.1|] == r.1;
  }
}

=== FILE: queues.dfy ===
/**
 * The unbounded and the bounded action queues. A drain swaps the live buffer out under
 * the queue lock; here it hands back the whole buffer and leaves an empty one.
 */
module Queues {
  import opened Longs
  import opened Executors

  /** What one drain attempt (`DequeueAll` with its `ReadyToDequeue` wait) yields. */
  datatype Drain<A> =
    | Batch(actions: seq<A>)   // the whole buffer, in FIFO order
    | Closed                   // the queue was stopped: null
    | Waiting                  // running and empty: the consumer blocks until an enqueue or a stop

  /** The drain decision both queues make: a stopped queue yields nothing even if actions remain. */
  function DrainBuffer<A>(running: bool, buffer: seq<A>): (d: Drain<A>)
    ensures !running <==> d.Closed?
    ensures d.Waiting? <==> running && buffer == []
    ensures d.Batch? ==> d.actions == buffer && buffer != []
  {
    if !running then Closed
    else if |buffer| == 0 then Waiting
    else Batch(buffer)
  }

  /** What one `ExecuteNextBatch` call does: ran a batch (true), returned false, or is still waiting. */
  datatype Step<A> = Executed(ran: seq<A>) | Finished | Blocked

  // ---------------------------------------------------------------- DefaultQueue

  datatype DefaultQueue<A> = DefaultQueue(running: bool, actions: seq<A>, executor: Executor)

  function NewDefaultQueue<A>(executor: Executor): DefaultQueue<A>
  {
    DefaultQueue(true, [], executor)
  }

  /** `Enqueue`: always appends at the tail, also after `Stop`. */
  function Enqueue<A>(q: DefaultQueue<A>, a: A): (q': DefaultQueue<A>)
    ensures q'.actions == q.actions + [a]
    ensures q'.running == q.running && q'.executor == q.executor
  {
    q.(actions := q.actions + [a])
  }

  /** `Stop`: clears the running flag and keeps the buffer; stopping twice is stopping once. */
  function Stop<A>(q: DefaultQueue<A>): (q': DefaultQueue<A>)
    ensures !q'.running && q'.actions == q.actions && q'.executor == q.executor
  {
    q.(running := false)
  }

  lemma StopIdempotent<A>(q: DefaultQueue<A>)
    ensures Stop(Stop(q)) == Stop(q)
  {
  }

  /** `DequeueAll`: while running, hands over the entire buffer in order and empties it. */
  function DequeueAll<A>(q: DefaultQueue<A>): (r: (DefaultQueue<A>, Drain<A>))
    ensures r.1 == DrainBuffer(q.running, q.actions)
    ensures r.1.Batch? ==> r.0 == q.(actions := []) && r.1.actions == q.actions
    ensures !r.1.Batch? ==> r.0 == q
  {
    var d := DrainBuffer(q.running, q.actions);
    if d.Batch? then (q.(actions := []), d) else (q, d)
  }

  /** `ExecuteNextBatch`: true iff a batch was drained and handed to the executor. */
  function ExecuteNextBatch<A>(q: DefaultQueue<A>): (r: (DefaultQueue<A>, Step<A>))
    ensures r.1.Executed? <==> q.running && q.actions != []
    ensures r.1.Executed? ==> r.1.ran == ExecuteAll(q.executor, q.actions) && r.0 == q.(actions := [])
    ensures r.1.Finished? <==> !q.running
    ensures !r.1.Executed? ==> r.0 == q
  {
    var (q', d) := DequeueAll(q);
    match d
    case Batch(b) => (q', Executed(ExecuteAll(q.executor, b)))
    case Closed => (q', Finished)
    case Waiting => (q', Blocked)
  }

  /** What producer threads do between two drain attempts of the consumer. */
  datatype Round<A> = Round(arrivals: seq<A>, stop: bool)

  /** All actions enqueued during the first `k` rounds, in order. */
  function Arrivals<A>(rounds: seq<Round<A>>, k: nat): seq<A>
    requires k <= |rounds|
  {
    if k == 0 then [] else Arrivals(rounds, k - 1) + rounds[k - 1].arrivals
  }

  /** Index of the first round that stops the queue, or the number of rounds. */
  function FirstStop<A>(rounds: seq<Round<A>>): (k: nat)
    ensures k <= |rounds|
    ensures forall j :: 0 <= j < k ==> !rounds[j].stop
    ensures k < |rounds| ==> rounds[k].stop
  {
    if |rounds| == 0 then 0
    else if rounds[0].stop then 0
    else 1 + FirstStop(rounds[1..])
  }

  function EnqueueAll<A>(q: DefaultQueue<A>, arrivals: seq<A>): (q': DefaultQueue<A>)
    ensures q'.actions == q.actions + arrivals && q'.running == q.running && q'.executor == q.executor
    decreases |arrivals|
  {
    if |arrivals| == 0 then q else EnqueueAll(Enqueue(q, arrivals[0]), arrivals[1..])
  }

  /** One round: the producers' enqueues and optional stop, then one `ExecuteNextBatch`. */
  function Consume<A>(q: DefaultQueue<A>, r: Round<A>): (res: (DefaultQueue<A>, Step<A>))
    ensures res.0.executor == q.executor
    ensures res.1.Finished? <==> !q.running || r.stop
    ensures res.1.Finished? ==> res.0.actions == q.actions + r.arrivals && !res.0.running
    ensures !res.1.Finished? ==> res.0.actions == [] && res.0.running
    ensures !res.1.Finished? ==>
      ExecuteAll(q.executor, q.actions + r.arrivals) == (if res.1.Executed? then res.1.ran else [])
  {
    var q1 := EnqueueAll(q, r.arrivals);
    var q2 := if r.stop then Stop(q1) else q1;
    ExecuteNextBatch(q2)
  }

  /** What `Run` has done after `i` rounds without finishing. */
  ghost predicate RunInv<A>(q: DefaultQueue<A>, rounds: seq<Round<A>>, i: nat, cur: DefaultQueue<A>, ran: seq<A>)
  {
    && i <= |rounds| && i <= FirstStop(rounds)
    && cur.executor == q.executor
    && (i == 0 ==> cur == q && ran == [])
    && (i > 0 ==> q.running && cur.running && cur.actions == [])
    && (i > 0 ==> ran == ExecuteAll(q.executor, q.actions + Arrivals(rounds, i)))
  }

  /** A round that does not finish the loop keeps `RunInv`, adding its batch to what ran. */
  lemma NextRound<A>(q: DefaultQueue<A>, rounds: seq<Round<A>>, i: nat, cur: DefaultQueue<A>, ran: seq<A>,
                     next: DefaultQueue<A>, step: Step<A>)
    requires RunInv(q, rounds, i, cur, ran) && i < |rounds|
    requires (next, step) == Consume(cur, rounds[i]) && !step.Finished?
    ensures RunInv(q, rounds, i + 1, next, ran + (if step.Executed? then step.ran else []))
  {
    PastNonStoppingRound(rounds, i);
    var batch := if step.Executed? then step.ran else [];
    RoundRan(q.executor, q.actions, rounds, i, ran, cur.actions, batch);
  }

  /** A round that does not stop the queue lies before the first stopping round. */
  lemma PastNonStoppingRound<A>(rounds: seq<Round<A>>, i: nat)
    requires i < |rounds| && i <= FirstStop(rounds) && !rounds[i].stop
    ensures i < FirstStop(rounds)
  {
    var k := FirstStop(rounds);
    assert k < |rounds| ==> rounds[k].stop;
  }

  /** What the consumer has run after round `i`: the earlier rounds' actions, then this round's batch. */
  lemma RoundRan<A>(e: Executor, base: seq<A>, rounds: seq<Round<A>>, i: nat, prev: seq<A>, pending: seq<A>, batch: seq<A>)
    requires i < |rounds|
    requires i == 0 ==> prev == [] && pending == base
    requires i > 0 ==> prev == ExecuteAll(e, base + Arrivals(rounds, i)) && pending == []
    requires batch == ExecuteAll(e, pending + rounds[i].arrivals)
    ensures prev + batch == ExecuteAll(e, base + Arrivals(rounds, i+1))
  {
    if i == 0 {
      assert pending + rounds[0].arrivals == base + Arrivals(rounds, 1);
    } else {
      LaterRoundRan(e, base + Arrivals(rounds, i), rounds[i].arrivals);
    }
  }

  lemma LaterRoundRan<A>(e: Executor, before: seq<A>, arr: seq<A>)
    ensures ExecuteAll(e, before) + ExecuteAll(e, [] + arr) == ExecuteAll(e, before + arr)
  {
    assert [] + arr == arr;
    ExecuteAllAppend(e, before, arr);
  }

  /** The round that finds the queue stopped is the first stopping round (or the first, if it was stopped already). */
  lemma FinishingRound<A>(q: DefaultQueue<A>, rounds: seq<Round<A>>, i: nat, cur: DefaultQueue<A>, ran: seq<A>)
    requires RunInv(q, rounds, i, cur, ran) && i < |rounds|
    requires Consume(cur, rounds[i]).1.Finished?
    ensures !q.running ==> i == 0
    ensures q.running ==> i == FirstStop(rounds)
  {
  }

  /**
   * `Run` driven by a script of producer rounds: each round's enqueues (and stop) happen,
   * then the consumer makes one drain attempt. The loop ends only once the queue is stopped;
   * every action enqueued before the stopping round runs exactly once, in order, except that
   * a stop in the very first round strands what was already buffered; the actions of the
   * stopping round stay buffered and never run.
   */
  method Run<A>(q: DefaultQueue<A>, rounds: seq<Round<A>>) returns (q': DefaultQueue<A>, ran: seq<A>, finished: bool)
    ensures finished ==> !q'.running
    ensures finished <==> |rounds| > 0 && (!q.running || FirstStop(rounds) < |rounds|)
    ensures !q.running || FirstStop(rounds) == 0 ==> ran == []
    ensures q.running && FirstStop(rounds) > 0 ==>
      ran == ExecuteAll(q.executor, q.actions + Arrivals(rounds, FirstStop(rounds)))
    ensures q.running && finished && FirstStop(rounds) > 0 ==> q'.actions == rounds[FirstStop(rounds)].arrivals
    ensures !finished && |rounds| > 0 ==> q'.actions == [] && q'.running
  {
    ran := [];
    finished := false;
    q' := q;
    var i := 0;
    while i < |rounds|
      invariant RunInv(q, rounds, i, q', ran)
    {
      var (next, step) := Consume(q', rounds[i]);
      if step.Finished? {
        FinishingRound(q, rounds, i, q', ran);
        q' := next;
        finished := true;
        return;
      }
      NextRound(q, rounds, i, q', ran, next, step);
      ran := ran + (if step.Executed? then step.ran else []);
      q' := next;
      i := i + 1;
    }
    assert i == |rounds|;
  }

  // ---------------------------------------------------------------- BoundedQueue

  datatype BoundedQueue<A> = BoundedQueue(
    running: bool,
    maxDepth: Int32,
    maxEnqueueWaitTime: Int32,
    actions: seq<A>,
    executor: Executor)

  /** Default configuration: `MaxDepth` is -1 (unbounded) and the wait time is 0. */
  function NewBoundedQueue<A>(executor: Executor): BoundedQueue<A>
  {
    BoundedQueue(true, -1, 0, [], executor)
  }

  /** A new bounded queue is unbounded until `MaxDepth` is set, never waits, runs, and is empty. */
  lemma BoundedDefaults<A>(q: BoundedQueue<A>)
    requires q == NewBoundedQueue(q.executor)
    ensures q.maxDepth == -1 && q.maxEnqueueWaitTime == 0
    ensures !HasLimit(q) && q.running && q.actions == []
  {
  }

  /** Any `MaxDepth <= 0` means unbounded. */
  predicate HasLimit<A>(q: BoundedQueue<A>)
  {
    q.maxDepth > 0
  }

  /** Adding `toAdd` actions would exceed the configured depth. */
  predicate OverDepth<A>(q: BoundedQueue<A>, toAdd: nat)
  {
    HasLimit(q) && |q.actions| + toAdd > q.maxDepth
  }

  /** The buffer respects the configured depth. */
  predicate WithinDepth<A>(q: BoundedQueue<A>)
  {
    !HasLimit(q) || |q.actions| <= q.maxDepth
  }

  /** Outcome of `SpaceAvailable`: room, a silent drop (stopped), or `QueueFullException` with its depth. */
  datatype Space = Available | Dropped | QueueFull(depth: nat)

  /**
   * `SpaceAvailable(toAdd)`. When the queue is over depth and a wait is configured, the
   * lock is released during the wait and `woke` is the queue as other threads left it; the
   * decision is then taken on that state. Returns the state the decision was taken on.
   */
  function SpaceAvailable<A>(q: BoundedQueue<A>, toAdd: nat, woke: BoundedQueue<A>): (r: (BoundedQueue<A>, Space))
    ensures !q.running ==> r == (q, Dropped)
    ensures q.running && !OverDepth(q, toAdd) ==> r == (q, Available)
    ensures q.running && OverDepth(q, toAdd) && q.maxEnqueueWaitTime <= 0 ==> r == (q, QueueFull(|q.actions|))
    ensures q.running && OverDepth(q, toAdd) && q.maxEnqueueWaitTime > 0 ==>
      && r.0 == woke
      && (!woke.running ==> r.1 == Dropped)
      && (woke.running && OverDepth(woke, toAdd) ==> r.1 == QueueFull(|woke.actions|))
      && (woke.running && !OverDepth(woke, toAdd) ==> r.1 == Available)
    ensures r.1 == Available ==> r.0.running && !OverDepth(r.0, toAdd)
  {
    if !q.running then (q, Dropped)
    else if OverDepth(q, toAdd) then
      if q.maxEnqueueWaitTime <= 0 then (q, QueueFull(|q.actions|))
      else if !woke.running then (woke, Dropped)
      else if OverDepth(woke, toAdd) then (woke, QueueFull(|woke.actions|))
      else (woke, Available)
    else (q, Available)
  }

  /** What a bounded `Enqueue` call reports to its caller. */
  datatype EnqueueOutcome = Enqueued | Discarded | Full(depth: nat)

  /**
   * `Enqueue`: appends when there is room; a stopped queue drops silently; an over-depth
   * queue throws `QueueFullException` carrying the current depth, leaving the buffer as it was.
   * A successful enqueue never takes a bounded buffer past `MaxDepth`.
   */
  function BoundedEnqueue<A>(q: BoundedQueue<A>, a: A, woke: BoundedQueue<A>): (r: (BoundedQueue<A>, EnqueueOutcome))
    ensures var (base, space) := SpaceAvailable(q, 1, woke);
      && (space == Available ==> r == (base.(actions := base.actions + [a]), Enqueued))
      && (space == Dropped ==> r == (base, Discarded))
      && (space.QueueFull? ==> r == (base, Full(space.depth)))
    ensures r.1 == Enqueued && HasLimit(r.0) ==> |r.0.actions| <= r.0.maxDepth
    ensures !q.running ==> r == (q, Discarded)
    ensures q.running && OverDepth(q, 1) && q.maxEnqueueWaitTime <= 0 ==> r == (q, Full(|q.actions|))
    ensures WithinDepth(q) && WithinDepth(woke) ==> WithinDepth(r.0)
  {
    var (base, space) := SpaceAvailable(q, 1, woke);
    match space
    case Available => (base.(actions := base.actions + [a]), Enqueued)
    case Dropped => (base, Discarded)
    case QueueFull(d) => (base, Full(d))
  }

  function StopBounded<A>(q: BoundedQueue<A>): (q': BoundedQueue<A>)
    ensures !q'.running && q'.actions == q.actions && q'.maxDepth == q.maxDepth
  {
    q.(running := false)
  }

  /** `DequeueAll`: the whole buffer in FIFO order, leaving it empty; nothing once stopped. */
  function BoundedDequeueAll<A>(q: BoundedQueue<A>): (r: (BoundedQueue<A>, Drain<A>))
    ensures r.1 == DrainBuffer(q.running, q.actions)
    ensures r.1.Batch? ==> r.0 == q.(actions := []) && r.1.actions == q.actions
    ensures !r.1.Batch? ==> r.0 == q
  {
    var d := DrainBuffer(q.running, q.actions);
    if d.Batch? then (q.(actions := []), d) else (q, d)
  }

  /** `ExecuteNextBatch`: true iff a batch was drained and handed to the executor. */
  function BoundedExecuteNextBatch<A>(q: BoundedQueue<A>): (r: (BoundedQueue<A>, Step<A>))
    ensures r.1.Executed? <==> q.running && q.actions != []
    ensures r.1.Executed? ==> r.1.ran == ExecuteAll(q.executor, q.actions) && r.0 == q.(actions := [])
    ensures r.1.Finished? <==> !q.running
    ensures !r.1.Executed? ==> r.0 == q
  {
    var (q', d) := BoundedDequeueAll(q);
    match d
    case Batch(b) => (q', Executed(ExecuteAll(q.executor, b)))
    case Closed => (q', Finished)
    case Waiting => (q', Blocked)
  }

  /** Enqueues each action in turn on a queue configured to fail at once (no wait), stopping at the first failure. */
  function EnqueueNoWait<A>(q: BoundedQueue<A>, xs: seq<A>): (r: (BoundedQueue<A>, seq<EnqueueOutcome>))
    requires q.maxEnqueueWaitTime <= 0
    ensures r.0.maxDepth == q.maxDepth && r.0.maxEnqueueWaitTime == q.maxEnqueueWaitTime && r.0.running == q.running
    decreases |xs|
  {
    if |xs| == 0 then (q, [])
    else
      var (q1, o) := BoundedEnqueue(q, xs[0], q);
      if o != Enqueued then (q1, [o])
      else
        var rest := EnqueueNoWait(q1, xs[1..]);
        (rest.0, [o] + rest.1)
  }

  /**
   * With `MaxDepth = D > 0` and no wait, enqueuing D+1 actions into an empty running queue
   * succeeds D times, then fails immediately with a capacity error carrying depth D; once a
   * drain empties the buffer, the next enqueue succeeds again.
   */
  lemma {:induction false} FullAfterMaxDepth<A>(q: BoundedQueue<A>, xs: seq<A>, a: A)
    requires q.running && q.actions == [] && HasLimit(q) && q.maxEnqueueWaitTime <= 0
    requires |xs| == q.maxDepth + 1
    ensures var (q', outs) := EnqueueNoWait(q, xs);
      && |outs| == |xs|
      && (forall i :: 0 <= i < |xs| - 1 ==> outs[i] == Enqueued)
      && outs[|xs| - 1] == Full(q.maxDepth)
      && q'.actions == xs[..|xs| - 1]
      && BoundedEnqueue(BoundedDequeueAll(q').0, a, q).1 == Enqueued
  {
    FillUp(q, xs);
    var (q', outs) := EnqueueNoWait(q, xs);
    assert BoundedDequeueAll(q').0.actions == [];
  }

  lemma {:induction false} FillUp<A>(q: BoundedQueue<A>, xs: seq<A>)
    requires q.running && HasLimit(q) && q.maxEnqueueWaitTime <= 0
    requires |q.actions| + |xs| == q.maxDepth + 1
    ensures var (q', outs) := EnqueueNoWait(q, xs);
      && |outs| == |xs|
      && (forall i :: 0 <= i < |xs| - 1 ==> outs[i] == Enqueued)
      && (|xs| > 0 ==> outs[|xs| - 1] == Full(q.maxDepth))
      && (|xs| > 0 ==> q'.actions == q.actions + xs[..|xs| - 1])
    decreases |xs|
  {
    if |xs| > 0 {
      var (q1, o) := BoundedEnqueue(q, xs[0], q);
      if |xs| == 1 {
        assert o == Full(q.maxDepth);
      } else {
        assert o == Enqueued && q1.actions == q.actions + [xs[0]];
        FillUp(q1, xs[1..]);
        var rest := EnqueueNoWait(q1, xs[1..]);
        assert q.actions + [xs[0]] + xs[1..][..|xs[1..]| - 1] == q.actions + xs[..|xs| - 1];
      }
    }
  }
}

=== FILE: request_reply.dfy ===
/**
 * Request/reply over a channel. A request handle is an inbox: replies queue up in arrival
 * order until the requester takes them, and once the handle is disposed further replies are
 * refused. The blocking `Receive` releases the lock while it waits; what happens meanwhile
 * is a parameter of the step (`Wait`): the replies accepted during the wait and whether the
 * handle was disposed. How long the wait lasts is not modelled.
 */
module RequestReply {
  import opened Wrappers
  import Channels

  /** `ChannelRequest<R, M>`: the request payload, the queued replies (oldest first) and the disposed flag. */
  datatype ChannelRequest<R, M> = ChannelRequest(request: R, replies: seq<M>, disposed: bool)

  /** What happened while `Receive` waited on the lock. */
  datatype Wait<M> = Wait(arrived: seq<M>, disposed: bool)

  /** A fresh handle: the payload, no replies yet, not disposed. */
  function NewRequest<R, M>(req: R): ChannelRequest<R, M>
  {
    ChannelRequest(req, [], false)
  }

  /** `SendReply`: accepted (and queued at the tail) iff the handle is not disposed. */
  function SendReply<R, M>(h: ChannelRequest<R, M>, m: M): (r: (ChannelRequest<R, M>, bool))
    ensures r.1 <==> !h.disposed
    ensures r.1 ==> r.0 == h.(replies := h.replies + [m])
    ensures !r.1 ==> r.0 == h
  {
    if h.disposed then (h, false) else (h.(replies := h.replies + [m]), true)
  }

  /** The replies a `Receive` that had to wait saw arrive; none when it did not wait. */
  function Arrived<R, M>(h: ChannelRequest<R, M>, w: Wait<M>): seq<M>
  {
    if h.replies == [] && !h.disposed then w.arrived else []
  }

  /**
   * `Receive`: a queued reply is taken at once; an empty, disposed handle gives nothing
   * without waiting; otherwise the caller waits and then takes the oldest reply that
   * arrived meanwhile, if any. No reply is lost or duplicated: what was taken followed by
   * what is left is what was queued followed by what arrived.
   */
  function Receive<R, M>(h: ChannelRequest<R, M>, w: Wait<M>): (r: (ChannelRequest<R, M>, Option<M>))
    ensures r.0.request == h.request
    ensures Taken(r.1) + r.0.replies == h.replies + Arrived(h, w)
    ensures h.replies != [] ==> r.1 == Some(h.replies[0]) && r.0.disposed == h.disposed
    ensures h.replies == [] && h.disposed ==> r == (h, None)
    ensures h.replies == [] && !h.disposed ==> (r.1.Some? <==> w.arrived != []) && r.0.disposed == w.disposed
  {
    if h.replies != [] then
      assert [h.replies[0]] + h.replies[1..] == h.replies;
      (h.(replies := h.replies[1..]), Some(h.replies[0]))
    else if h.disposed then
      (h, None)
    else if w.arrived != [] then
      assert [w.arrived[0]] + w.arrived[1..] == w.arrived;
      (h.(replies := w.arrived[1..], disposed := w.disposed), Some(w.arrived[0]))
    else
      (h.(disposed := w.disposed), None)
  }

  /** `Dispose`: the handle refuses replies from now on; queued replies stay receivable. */
  function Dispose<R, M>(h: ChannelRequest<R, M>): (h': ChannelRequest<R, M>)
    ensures h'.disposed && h'.request == h.request && h'.replies == h.replies
    ensures h.disposed ==> h' == h
  {
    h.(disposed := true)
  }

  /** Replies sent one after another. */
  function SendReplies<R, M>(h: ChannelRequest<R, M>, ms: seq<M>): (h': ChannelRequest<R, M>)
    ensures h'.request == h.request && h'.disposed == h.disposed
    ensures !h.disposed ==> h'.replies == h.replies + ms
    ensures h.disposed ==> h' == h
    decreases |ms|
  {
    if |ms| == 0 then
      assert h.replies + ms == h.replies;
      h
    else
      assert h.replies + ms == h.replies + [ms[0]] + ms[1..];
      SendReplies(SendReply(h, ms[0]).0, ms[1..])
  }

  /** `n` calls of `Receive` in a row, each finding nothing new during a wait. */
  function ReceiveMany<R, M>(h: ChannelRequest<R, M>, n: nat): (r: (ChannelRequest<R, M>, seq<M>))
    decreases n
  {
    if n == 0 then (h, [])
    else
      var (h1, got) := Receive(h, Wait([], h.disposed));
      var (h2, rest) := ReceiveMany(h1, n - 1);
      (h2, Taken(got) + rest)
  }

  /** Receiving takes the queued replies oldest first, one per call, whether or not the handle is disposed. */
  lemma {:induction false} ReceiveManyFifo<R, M>(h: ChannelRequest<R, M>, n: nat)
    requires n <= |h.replies|
    ensures ReceiveMany(h, n).1 == h.replies[..n]
    ensures ReceiveMany(h, n).0 == h.(replies := h.replies[n..])
    decreases n
  {
    if n > 0 {
      var (h1, got) := Receive(h, Wait([], h.disposed));
      assert got == Some(h.replies[0]) && h1 == h.(replies := h.replies[1..]);
      ReceiveManyFifo(h1, n - 1);
      assert h.replies[..n] == [h.replies[0]] + h1.replies[..n - 1];
      assert h1.replies[n - 1..] == h.replies[n..];
    }
  }

  /**
   * Replies sent before the handle was disposed are all received after it, in the order
   * they were sent, and then the handle gives nothing, without waiting.
   */
  lemma RepliesSurviveDispose<R, M>(req: R, ms: seq<M>, w: Wait<M>)
    ensures var h := Dispose(SendReplies(NewRequest<R, M>(req), ms));
      var (h', got) := ReceiveMany(h, |ms|);
      got == ms && Receive(h', w) == (h', None)
  {
    var h := Dispose(SendReplies(NewRequest<R, M>(req), ms));
    assert h.replies == ms;
    ReceiveManyFifo(h, |ms|);
    assert ms[..|ms|] == ms && ms[|ms|..] == [];
  }

  /** `RequestReplyChannel`: requests travel on an ordinary channel to the repliers. */
  datatype RequestReplyChannel = RequestReplyChannel(requests: Channels.Channel)

  /** `Subscribe`: the handler becomes one more plain subscriber of the request channel. */
  function Subscribe(rr: RequestReplyChannel, registry: Channels.Unsubscribers): (r: (RequestReplyChannel, Channels.Subscribed))
    requires Channels.Valid(rr.requests)
    ensures r.0.requests == r.1.channel && Channels.Valid(r.0.requests)
    ensures Channels.NumSubscribers(r.0.requests) == Channels.NumSubscribers(rr.requests) + 1
    ensures r.1.handle.receiver.Created? && r.1.handle.receiver.kind == Channels.Plain
    ensures r.1.registry.items == registry.items + [r.1.handle]
  {
    var s := Channels.SubscribeWith(rr.requests, registry, Channels.Plain);
    (RequestReplyChannel(s.channel), s)
  }

  /**
   * `SendRequest`: a fresh handle for the payload is published to every replier, in
   * order; without repliers the caller gets no handle (null).
   */
  function SendRequest<R, M>(rr: RequestReplyChannel, req: R): (Option<ChannelRequest<R, M>>, seq<Channels.Subscriber>)
  {
    var (delivered, calls) := Channels.Publish(rr.requests);
    (if delivered then Some(NewRequest(req)) else None, calls)
  }

  /**
   * A request round trip: without repliers the requester gets no handle; otherwise every
   * replier is handed a fresh, empty, live handle for the payload, in subscription order,
   * and a reply any of them sends is what the requester's next `Receive` takes, whatever
   * happens during that call.
   */
  lemma RequestRoundTrip<R, M>(rr: RequestReplyChannel, req: R, reply: M, w: Wait<M>)
    ensures var (h, calls) := SendRequest<R, M>(rr, req);
      && (h.None? <==> !Channels.HasSubscriptions(rr.requests))
      && calls == rr.requests.subscribers
      && (h.Some? ==> h.value.request == req && h.value.replies == [] && !h.value.disposed)
      && (h.Some? ==> Receive(SendReply(h.value, reply).0, w).1 == Some(reply))
  {
    var (h, calls) := SendRequest<R, M>(rr, req);
    if h.Some? {
      var h1 := SendReply(h.value, reply).0;
      assert h1.replies == [reply];
    }
  }
}

=== FILE: scheduler.dfy ===
/**
 * The scheduler. Scheduled items live in an arena keyed by id; the closures the source
 * enqueues onto its execution context are the `Work` values returned by each operation,
 * and the context later runs them with `RunWork`.
 */
module Scheduling {
  import opened Wrappers
  import opened Longs
  import Seqs
  import PA = PendingActions
  import TA = TimerActions

  /** The `IDisposable` handed back by `Schedule`/`ScheduleOnInterval`. */
  datatype Handle = PendingHandle(id: nat) | TimerHandle(id: nat)

  /** Closures enqueued on the execution context. */
  datatype Work =
    | RunPending(id: nat)     // PendingAction.Execute
    | AddTimer(id: nat)       // the deferred AddPending body
    | RemoveTimer(id: nat)    // the deferred Remove body
    | RunTimer(id: nat)       // TimerAction.ExecuteOnFiberThread

  datatype Scheduler<A> = Scheduler(
    running: bool,
    pending: seq<nat>,
    immediates: map<nat, PA.PendingAction<A>>,
    timers: map<nat, TA.TimerAction<A>>,
    nextId: nat)

  /** Every id the scheduler refers to belongs to an allocated item, and fresh ids are unused. */
  ghost predicate Valid<A>(s: Scheduler<A>)
  {
    && (forall i :: 0 <= i < |s.pending| ==> s.pending[i] in s.timers)
    && (forall id :: id in s.timers ==> id < s.nextId)
    && (forall id :: id in s.immediates ==> id < s.nextId)
  }

  /** A work item produced by this scheduler refers to an item of the right kind. */
  predicate WorkOf<A>(s: Scheduler<A>, w: Work)
  {
    match w
    case RunPending(id) => id in s.immediates
    case AddTimer(id) => id in s.timers
    case RemoveTimer(_) => true
    case RunTimer(id) => id in s.timers
  }

  predicate HandleOf<A>(s: Scheduler<A>, h: Handle)
  {
    match h
    case PendingHandle(id) => id in s.immediates
    case TimerHandle(id) => id in s.timers
  }

  function NewScheduler<A>(): (s: Scheduler<A>)
  {
    Scheduler(true, [], map[], map[], 0)
  }

  /** `PendingCount`: the size of the pending set. */
  function PendingCount<A>(s: Scheduler<A>): nat
  {
    |s.pending|
  }

  /** Result of a scheduling call: new state, the handle returned, the work enqueued on the context. */
  datatype Scheduled<A> = Scheduled(after: Scheduler<A>, handle: Handle, work: seq<Work>)

  /** `AddPending` for a new timer item: allocate it and enqueue the deferred add. */
  function AddPending<A>(s: Scheduler<A>, t: TA.TimerAction<A>): (r: Scheduled<A>)
    requires Valid(s)
    ensures Valid(r.after)
    ensures r.handle.TimerHandle? && r.handle.id !in s.timers && r.handle.id !in s.immediates
    ensures r.after.timers == s.timers[r.handle.id := t] && r.after.immediates == s.immediates
    ensures r.after.pending == s.pending && r.after.running == s.running
    ensures r.work == [AddTimer(r.handle.id)]
  {
    var id := s.nextId;
    Scheduled(s.(timers := s.timers[id := t], nextId := id + 1), TimerHandle(id), [AddTimer(id)])
  }

  /**
   * `Schedule`: a non-positive delay wraps the action in a cancellable pending action and
   * enqueues it at once, leaving the pending set alone; a positive delay creates a one-shot
   * timer item whose registration is deferred through the context.
   */
  function Schedule<A>(s: Scheduler<A>, action: A, firstInMs: Long): (r: Scheduled<A>)
    requires Valid(s)
    ensures Valid(r.after)
    ensures r.after.pending == s.pending && r.after.running == s.running
    ensures s.immediates.Keys <= r.after.immediates.Keys && s.timers.Keys <= r.after.timers.Keys
    ensures HandleOf(r.after, r.handle) && |r.work| == 1 && WorkOf(r.after, r.work[0])
    ensures firstInMs <= 0 ==>
      && r.handle.PendingHandle? && r.work == [RunPending(r.handle.id)]
      && r.handle.id !in s.immediates
      && r.after.immediates[r.handle.id] == PA.NewPendingAction(action)
      && r.after.timers == s.timers
    ensures firstInMs > 0 ==>
      && r.handle.TimerHandle? && r.work == [AddTimer(r.handle.id)]
      && r.handle.id !in s.timers
      && r.after.timers[r.handle.id] == TA.NewTimerAction(action, firstInMs, TA.OneShot)
      && r.after.immediates == s.immediates
  {
    if firstInMs <= 0 then
      var id := s.nextId;
      Scheduled(s.(immediates := s.immediates[id := PA.NewPendingAction(action)], nextId := id + 1),
                PendingHandle(id), [RunPending(id)])
    else
      AddPending(s, TA.NewTimerAction(action, firstInMs, TA.OneShot))
  }

  /** `ScheduleOnInterval`: always the deferred timer path, whatever the first delay. */
  function ScheduleOnInterval<A>(s: Scheduler<A>, action: A, firstInMs: Long, regularInMs: Long): (r: Scheduled<A>)
    requires Valid(s)
    ensures Valid(r.after)
    ensures r.after.pending == s.pending && r.after.immediates == s.immediates
    ensures r.handle.TimerHandle? && r.handle.id !in s.timers && r.work == [AddTimer(r.handle.id)]
    ensures r.after.timers.Keys == s.timers.Keys + {r.handle.id}
    ensures r.after.timers[r.handle.id] == TA.NewTimerAction(action, firstInMs, regularInMs)
    ensures forall id :: id in s.timers ==> id in r.after.timers && r.after.timers[id] == s.timers[id]
  {
    AddPending(s, TA.NewTimerAction(action, firstInMs, regularInMs))
  }

  /** `Remove`: the pending set is not touched here; the removal is enqueued on the context. */
  function Remove<A>(s: Scheduler<A>, id: nat): (r: (Scheduler<A>, seq<Work>))
    ensures r.0 == s && r.1 == [RemoveTimer(id)]
  {
    (s, [RemoveTimer(id)])
  }

  /** Registry calls of timer item `id` become work on the context (`Remove` and `Enqueue`). */
  function CallsToWork(id: nat, calls: seq<TA.RegistryCall>): (w: seq<Work>)
    ensures |w| == |calls|
    ensures forall i :: 0 <= i < |calls| ==>
      w[i] == (if calls[i] == TA.RemoveFromRegistry then RemoveTimer(id) else RunTimer(id))
  {
    if |calls| == 0 then []
    else [if calls[0] == TA.RemoveFromRegistry then RemoveTimer(id) else RunTimer(id)] + CallsToWork(id, calls[1..])
  }

  /**
   * A timer tick for item `id`: removal from the pending set is requested iff the item is
   * one-shot or cancelled, and exactly one fiber-thread run is enqueued iff it is not cancelled.
   */
  function Fire<A>(s: Scheduler<A>, id: nat): (r: (Scheduler<A>, seq<Work>))
    requires Valid(s) && id in s.timers
    ensures Valid(r.0) && r.0.pending == s.pending && r.0.running == s.running
    ensures RemoveTimer(id) in r.1 <==> s.timers[id].intervalInMs == TA.OneShot || s.timers[id].cancelled
    ensures RunTimer(id) in r.1 <==> !s.timers[id].cancelled
    ensures forall i, j :: 0 <= i < j < |r.1| && r.1[j] == RunTimer(id) ==> r.1[i] != RunTimer(id)
    ensures forall w :: w in r.1 ==> w == RemoveTimer(id) || w == RunTimer(id)
    ensures r.0.timers.Keys == s.timers.Keys && r.0.immediates == s.immediates
    ensures r.0.timers[id].cancelled == s.timers[id].cancelled && r.0.timers[id].action == s.timers[id].action
    ensures forall k :: k in s.timers && k != id ==> k in r.0.timers && r.0.timers[k] == s.timers[k]
    ensures r.1 == (if s.timers[id].intervalInMs == TA.OneShot || s.timers[id].cancelled then [RemoveTimer(id)] else [])
                 + (if !s.timers[id].cancelled then [RunTimer(id)] else [])
  {
    var t := s.timers[id];
    var (t', calls) := TA.ExecuteOnTimerThread(t);
    var removes := t.intervalInMs == TA.OneShot || t.cancelled;
    assert calls == (if removes then [TA.RemoveFromRegistry] else []) + (if !t.cancelled then [TA.EnqueueFiberRun] else []) by {
      if |calls| == 1 {
        assert calls[0] in calls;
      } else if |calls| == 2 {
        assert calls[0] in calls && calls[1] in calls;
      }
    }
    (s.(timers := s.timers[id := t']), CallsToWork(id, calls))
  }

  /** The execution context runs one work item: the state after it and the user actions that ran. */
  function RunWork<A>(s: Scheduler<A>, w: Work): (r: (Scheduler<A>, seq<A>))
    requires Valid(s) && WorkOf(s, w)
    ensures Valid(r.0) && r.0.running == s.running && r.0.nextId == s.nextId
    ensures r.0.immediates == s.immediates && r.0.timers.Keys == s.timers.Keys
    ensures w.RunPending? ==> r.0 == s && r.1 == PA.Execute(s.immediates[w.id])
    ensures w.RunTimer? ==> r.0 == s && r.1 == TA.ExecuteOnFiberThread(s.timers[w.id])
    ensures w.AddTimer? && s.running ==>
      r.0.pending == s.pending + [w.id] && r.0.timers == s.timers[w.id := TA.Arm(s.timers[w.id])] && r.1 == []
    ensures w.AddTimer? && !s.running ==> r.0 == s && r.1 == []
    ensures w.RemoveTimer? ==> r.0 == s.(pending := Seqs.RemoveFirst(s.pending, w.id)) && r.1 == []
  {
    match w
    case RunPending(id) => (s, PA.Execute(s.immediates[id]))
    case AddTimer(id) =>
      if s.running then (s.(pending := s.pending + [id], timers := s.timers[id := TA.Arm(s.timers[id])]), [])
      else (s, [])
    case RemoveTimer(id) =>
      var p := Seqs.RemoveFirst(s.pending, id);
      assert forall i :: 0 <= i < |p| ==> p[i] in multiset(s.pending);
      (s.(pending := p), [])
    case RunTimer(id) => (s, TA.ExecuteOnFiberThread(s.timers[id]))
  }

  /** Disposing a handle returned by `Schedule`/`ScheduleOnInterval`. */
  function DisposeHandle<A>(s: Scheduler<A>, h: Handle): (r: (Scheduler<A>, seq<Work>))
    requires Valid(s) && HandleOf(s, h)
    ensures Valid(r.0) && r.0.pending == s.pending && r.0.running == s.running
    ensures r.0.timers.Keys == s.timers.Keys && r.0.immediates.Keys == s.immediates.Keys
    ensures h.PendingHandle? ==> r.1 == [] && r.0.immediates[h.id].cancelled && r.0.timers == s.timers
    ensures h.TimerHandle? ==> r.1 == [RemoveTimer(h.id)] && r.0.timers[h.id].cancelled && r.0.immediates == s.immediates
    ensures h.TimerHandle? ==> TA.ExecuteOnFiberThread(r.0.timers[h.id]) == [] && r.0.timers[h.id].action == None
    ensures h.TimerHandle? ==> r.0.timers == s.timers[h.id := r.0.timers[h.id]]
    ensures h.PendingHandle? ==> r.0.immediates == s.immediates[h.id := r.0.immediates[h.id]]
    ensures h.PendingHandle? ==> r.0.immediates[h.id].action == s.immediates[h.id].action
    ensures h.PendingHandle? ==> PA.Execute(r.0.immediates[h.id]) == []
  {
    match h
    case PendingHandle(id) => (s.(immediates := s.immediates[id := PA.Dispose(s.immediates[id])]), [])
    case TimerHandle(id) =>
      var (t', calls) := TA.Dispose(s.timers[id]);
      (s.(timers := s.timers[id := t']), CallsToWork(id, calls))
  }

  /** Disposes the listed timer items one after the other, collecting the removals they request. */
  function DisposeAll<A>(timers: map<nat, TA.TimerAction<A>>, ids: seq<nat>): (r: (map<nat, TA.TimerAction<A>>, seq<Work>))
    requires forall i :: 0 <= i < |ids| ==> ids[i] in timers
    ensures r.0.Keys == timers.Keys
    ensures |r.1| == |ids| && forall i :: 0 <= i < |ids| ==> r.1[i] == RemoveTimer(ids[i])
    ensures forall i :: 0 <= i < |ids| ==> r.0[ids[i]].cancelled && r.0[ids[i]].action == None
    ensures forall k :: k in timers && k !in ids ==> r.0[k] == timers[k]
  {
    if |ids| == 0 then (timers, [])
    else
      var (t', calls) := TA.Dispose(timers[ids[0]]);
      var rest := DisposeAll(timers[ids[0] := t'], ids[1..]);
      var head := CallsToWork(ids[0], calls);
      assert head == [RemoveTimer(ids[0])];
      DisposeAllStep(timers, ids, t', head, rest.0, rest.1);
      (rest.0, head + rest.1)
  }

  /** One step of `DisposeAll`: the first item disposed, then the rest as the recursive call promises. */
  lemma DisposeAllStep<A>(timers: map<nat, TA.TimerAction<A>>, ids: seq<nat>, t': TA.TimerAction<A>,
                          head: seq<Work>, m: map<nat, TA.TimerAction<A>>, w: seq<Work>)
    requires |ids| > 0 && forall i :: 0 <= i < |ids| ==> ids[i] in timers
    requires t'.cancelled && t'.action == None && head == [RemoveTimer(ids[0])]
    requires var next := timers[ids[0] := t'];
      && m.Keys == next.Keys
      && |w| == |ids[1..]| && (forall i :: 0 <= i < |ids[1..]| ==> w[i] == RemoveTimer(ids[1..][i]))
      && (forall i :: 0 <= i < |ids[1..]| ==> m[ids[1..][i]].cancelled && m[ids[1..][i]].action == None)
      && (forall k :: k in next && k !in ids[1..] ==> m[k] == next[k])
    ensures m.Keys == timers.Keys
    ensures |head + w| == |ids| && forall i :: 0 <= i < |ids| ==> (head + w)[i] == RemoveTimer(ids[i])
    ensures forall i :: 0 <= i < |ids| ==> m[ids[i]].cancelled && m[ids[i]].action == None
    ensures forall k :: k in timers && k !in ids ==> m[k] == timers[k]
  {
    forall i | 1 <= i < |ids| ensures (head + w)[i] == RemoveTimer(ids[i]) && m[ids[i]].cancelled {
      assert ids[i] == ids[1..][i - 1];
    }
    assert ids[0] !in ids[1..] ==> m[ids[0]] == t';
    forall k | k in timers && k !in ids ensures m[k] == timers[k] {
      assert k !in ids[1..];
    }
  }

  /**
   * `Dispose`: stops accepting deferred adds, swaps in an empty pending set and disposes each
   * previously pending item once, in order; items that were not pending are untouched.
   */
  function Dispose<A>(s: Scheduler<A>): (r: (Scheduler<A>, seq<Work>))
    requires Valid(s)
    ensures Valid(r.0) && !r.0.running && r.0.pending == [] && r.0.immediates == s.immediates
    ensures r.0.timers.Keys == s.timers.Keys
    ensures |r.1| == |s.pending| && forall i :: 0 <= i < |s.pending| ==> r.1[i] == RemoveTimer(s.pending[i])
    ensures forall i :: 0 <= i < |s.pending| ==> r.0.timers[s.pending[i]].cancelled
    ensures forall k :: k in s.timers && k !in s.pending ==> r.0.timers[k] == s.timers[k]
  {
    var (timers', work) := DisposeAll(s.timers, s.pending);
    (s.(running := false, pending := [], timers := timers'), work)
  }

  /**
   * The deferred add of a new timer item registers it as pending exactly when the scheduler
   * is still running by the time the context runs the add.
   */
  lemma AddPendingRegistersIffRunning<A>(s: Scheduler<A>, t: TA.TimerAction<A>)
    requires Valid(s)
    ensures var r := AddPending(s, t);
      (r.handle.id in RunWork(r.after, r.work[0]).0.pending <==> s.running)
  {
    var r := AddPending(s, t);
    assert r.handle.id !in s.pending;
  }

  /**
   * An immediate schedule runs the action when the context runs the enqueued work, unless
   * its handle is disposed first, in which case nothing runs.
   */
  lemma ImmediateRunsUnlessDisposed<A>(s: Scheduler<A>, action: A, firstInMs: Long)
    requires Valid(s) && firstInMs <= 0
    ensures var r := Schedule(s, action, firstInMs);
      && RunWork(r.after, r.work[0]).1 == [action]
      && var d := DisposeHandle(r.after, r.handle);
         WorkOf(d.0, r.work[0]) && RunWork(d.0, r.work[0]).1 == []
  {
  }

  /**
   * Life of a one-shot timer on a running scheduler: the deferred add registers and arms it,
   * the tick asks for its removal and then one fiber-thread run, that run executes the
   * action, and the removal leaves it unregistered.
   */
  lemma OneShotLifecycle<A>(s: Scheduler<A>, action: A, firstInMs: Long)
    requires Valid(s) && s.running && firstInMs > 0
    ensures var r := Schedule(s, action, firstInMs);
      var id := r.handle.id;
      var added := RunWork(r.after, AddTimer(id)).0;
      && id in added.pending && |added.pending| == |s.pending| + 1 && added.timers[id].armed
      && var fired := Fire(added, id);
         && fired.1 == [RemoveTimer(id), RunTimer(id)]
         && !fired.0.timers[id].armed
         && RunWork(fired.0, RunTimer(id)).1 == [action]
         && var removed := RunWork(fired.0, RemoveTimer(id)).0;
            id !in removed.pending && removed.pending == s.pending
  {
    var r := Schedule(s, action, firstInMs);
    var id := r.handle.id;
    assert id !in s.pending;
    assert r.after.pending == s.pending;
    var added := RunWork(r.after, AddTimer(id)).0;
    assert added.pending == s.pending + [id];
    assert added.timers[id] == TA.Arm(TA.NewTimerAction(action, firstInMs, TA.OneShot));
    var t := added.timers[id];
    var tick := TA.ExecuteOnTimerThread(t);
    assert tick.1 == [TA.RemoveFromRegistry, TA.EnqueueFiberRun];
    assert tick.0 == t.(armed := false);
    var fired := Fire(added, id);
    assert fired.0 == added.(timers := added.timers[id := tick.0]);
    assert fired.1 == CallsToWork(id, tick.1);
    assert fired.1 == [RemoveTimer(id), RunTimer(id)];
    assert TA.ExecuteOnFiberThread(fired.0.timers[id]) == [action];
    Seqs.RemoveFirstAppended(s.pending, id);
    assert RunWork(fired.0, RemoveTimer(id)).0.pending == Seqs.RemoveFirst(s.pending + [id], id);
  }

  /**
   * Disposing an item after its tick enqueued the fiber-thread run but before the context
   * runs it suppresses the action.
   */
  lemma DisposeAfterFireSuppresses<A>(s: Scheduler<A>, id: nat)
    requires Valid(s) && id in s.timers && !s.timers[id].cancelled
    ensures var fired := Fire(s, id);
      && RunTimer(id) in fired.1
      && var d := DisposeHandle(fired.0, TimerHandle(id));
         RunWork(d.0, RunTimer(id)).1 == []
  {
  }

  /** A live recurring item stays registered and armed across a tick, which only enqueues one run. */
  lemma RecurringStaysRegistered<A>(s: Scheduler<A>, id: nat)
    requires Valid(s) && id in s.timers && id in s.pending
    requires s.timers[id].intervalInMs != TA.OneShot && !s.timers[id].cancelled
    ensures var fired := Fire(s, id);
      && fired.1 == [RunTimer(id)]
      && id in fired.0.pending && fired.0.timers[id] == s.timers[id]
  {
  }

  /** Once disposed, the scheduler registers nothing: a deferred add that runs later is ignored. */
  lemma DisposedSchedulerIgnoresAdds<A>(s: Scheduler<A>, action: A, firstInMs: Long, regularInMs: Long)
    requires Valid(s)
    ensures var d := Dispose(s).0;
      var r := ScheduleOnInterval(d, action, firstInMs, regularInMs);
      RunWork(r.after, r.work[0]).0.pending == [] && PendingCount(RunWork(r.after, r.work[0]).0) == 0
  {
  }
}

=== FILE: snapshot_channel.dfy ===
/**
 * The snapshot channel: an update channel plus a request/reply channel through which a new
 * subscriber asks for the current state before it starts receiving updates.
 */
module Snapshots {
  import opened Wrappers
  import opened Longs
  import Channels
  import RR = RequestReply

  /** The payload of a priming request (a fresh `object`). */
  datatype Token = Token

  datatype SnapshotChannel = SnapshotChannel(timeoutInMs: Int32, updates: Channels.Channel, requests: RR.RequestReplyChannel)

  predicate Valid(sc: SnapshotChannel)
  {
    Channels.Valid(sc.updates) && Channels.Valid(sc.requests.requests)
  }

  function NewSnapshotChannel(timeoutInMs: Int32, updatesId: nat, requestsId: nat): (sc: SnapshotChannel)
    ensures Valid(sc) && sc.timeoutInMs == timeoutInMs
    ensures Channels.NumSubscribers(sc.updates) == 0 && Channels.NumSubscribers(sc.requests.requests) == 0
  {
    SnapshotChannel(timeoutInMs, Channels.NewChannel(updatesId), RR.RequestReplyChannel(Channels.NewChannel(requestsId)))
  }

  /** The two `ArgumentException`s of `PrimedSubscribe`. */
  datatype PrimeError = NoReplySubscriber | TimedOut(timeoutInMs: Int32)

  /** A successful priming: the snapshot handed to the receiver, and the update subscription. */
  datatype Primed<T> = Primed(snapshot: T, handle: Channels.Unsubscriber)

  datatype PrimedResult<T> = PrimedResult(
    channel: SnapshotChannel,
    registry: Channels.Unsubscribers,
    reply: Option<RR.ChannelRequest<Token, T>>,   // the reply handle, as it is left
    outcome: Result<Primed<T>, PrimeError>)

  /**
   * `PrimedSubscribe`: a priming request goes to the repliers; without one it fails at
   * once. Otherwise the caller waits for a reply (`w` says what arrived); with none it
   * fails with the timeout, and with one the receiver gets that snapshot and is subscribed
   * to the updates. On failure nothing is subscribed, and the reply handle, when there is
   * one, is disposed on every path.
   */
  function PrimedSubscribe<T>(sc: SnapshotChannel, registry: Channels.Unsubscribers, w: RR.Wait<T>): (r: PrimedResult<T>)
    requires Valid(sc)
    ensures Valid(r.channel) && r.channel.requests == sc.requests && r.channel.timeoutInMs == sc.timeoutInMs
    ensures r.outcome == Err(NoReplySubscriber) <==> !Channels.HasSubscriptions(sc.requests.requests)
    ensures r.outcome == Err(TimedOut(sc.timeoutInMs)) <==> Channels.HasSubscriptions(sc.requests.requests) && w.arrived == []
    ensures r.reply.None? <==> !Channels.HasSubscriptions(sc.requests.requests)
    ensures r.reply.Some? ==> r.reply.value.disposed && r.reply.value.request == Token
    ensures r.outcome.Err? ==> r.channel == sc && r.registry == registry
    ensures r.outcome.Ok? ==> r.outcome.value.snapshot == w.arrived[0]
    ensures r.outcome.Ok? ==> r.channel.updates.subscribers == sc.updates.subscribers + [r.outcome.value.handle.receiver]
    ensures r.outcome.Ok? ==> r.registry.items == registry.items + [r.outcome.value.handle]
  {
    var (reply, _) := RR.SendRequest<Token, T>(sc.requests, Token);
    if reply.None? then
      PrimedResult(sc, registry, None, Err(NoReplySubscriber))
    else
      var (h, got) := RR.Receive(reply.value, w);
      var h' := RR.Dispose(h);
      if got.None? then
        PrimedResult(sc, registry, Some(h'), Err(TimedOut(sc.timeoutInMs)))
      else
        var s := Channels.SubscribeWith(sc.updates, registry, Channels.Plain);
        PrimedResult(sc.(updates := s.channel), s.registry, Some(h'), Ok(Primed(got.value, s.handle)))
  }

  /** `Publish`: an update goes out on the update channel only. */
  function Publish(sc: SnapshotChannel): (r: (bool, seq<Channels.Subscriber>))
    ensures r.0 <==> Channels.HasSubscriptions(sc.updates)
    ensures r.1 == sc.updates.subscribers
  {
    Channels.Publish(sc.updates)
  }

  /** `ReplyToPrimingRequest`: one more replier on the request channel. */
  function ReplyToPrimingRequest(sc: SnapshotChannel, registry: Channels.Unsubscribers): (r: (SnapshotChannel, Channels.Subscribed))
    requires Valid(sc)
    ensures Valid(r.0) && r.0.updates == sc.updates && r.0.timeoutInMs == sc.timeoutInMs
    ensures r.0.requests.requests.subscribers == sc.requests.requests.subscribers + [r.1.handle.receiver]
    ensures r.1.registry.items == registry.items + [r.1.handle]
  {
    var (rr, s) := RR.Subscribe(sc.requests, registry);
    (sc.(requests := rr), s)
  }

  /** The handler a replier installs: it answers each request with one reply, the current state. */
  function Replier<T>(h: RR.ChannelRequest<Token, T>, current: T): (h': RR.ChannelRequest<Token, T>)
    ensures !h.disposed ==> h'.replies == h.replies + [current]
    ensures h.disposed ==> h' == h
  {
    RR.SendReply(h, current).0
  }

  /** With no replier, priming fails whatever happens during the wait, and nothing is subscribed. */
  lemma PrimingWithoutReplierFails<T>(timeoutInMs: Int32, registry: Channels.Unsubscribers, w: RR.Wait<T>)
    ensures var sc := NewSnapshotChannel(timeoutInMs, 0, 1);
      var r := PrimedSubscribe(sc, registry, w);
      r.outcome == Err(NoReplySubscriber) && r.channel == sc && r.registry == registry
  {
  }

  /**
   * Once a replier is installed, a priming request it answers with `current` before the
   * wait ends gives the subscriber exactly that snapshot and subscribes it to updates.
   */
  lemma PrimingWithReplier<T>(sc: SnapshotChannel, replierRegistry: Channels.Unsubscribers,
                               registry: Channels.Unsubscribers, current: T)
    requires Valid(sc)
    ensures var sc1 := ReplyToPrimingRequest(sc, replierRegistry).0;
      var h := RR.SendRequest<Token, T>(sc1.requests, Token).0;
      h.Some? && (
        var answered := Replier(h.value, current);
        var r := PrimedSubscribe(sc1, registry, RR.Wait(answered.replies, false));
        r.outcome.Ok? && r.outcome.value.snapshot == current
        && Channels.NumSubscribers(r.channel.updates) == Channels.NumSubscribers(sc.updates) + 1)
  {
    var sc1 := ReplyToPrimingRequest(sc, replierRegistry).0;
    var h := RR.SendRequest<Token, T>(sc1.requests, Token).0;
    assert Channels.HasSubscriptions(sc1.requests.requests);
    var answered := Replier(h.value, current);
    assert answered.replies == [current];
  }
}

=== FILE: stub_fiber.dfy ===
/**
 * The synchronous test fiber. An action is a `Task`: running it records its id and then
 * enqueues its spawned tasks on the same fiber, which is all an action can do to the fiber
 * here. Every operation returns the new fiber and the ids of the tasks it ran, in order.
 */
module StubFibers {
  import opened Longs
  import Seqs

  datatype Task = Task(id: nat, spawns: seq<Task>)

  /** How many runs a task amounts to, counting everything it spawns transitively. */
  function Size(t: Task): nat
    decreases t
  {
    1 + SizeSeq(t.spawns)
  }

  function SizeSeq(ts: seq<Task>): nat
    decreases ts
  {
    if |ts| == 0 then 0 else Size(ts[0]) + SizeSeq(ts[1..])
  }

  lemma {:induction false} SizeSeqAppend(a: seq<Task>, b: seq<Task>)
    ensures SizeSeq(a + b) == SizeSeq(a) + SizeSeq(b)
    decreases |a|
  {
    if |a| == 0 {
      assert a + b == b;
    } else {
      assert (a + b)[1..] == a[1..] + b;
      SizeSeqAppend(a[1..], b);
    }
  }

  /** The ids of a task and of everything it spawns transitively, one per run. */
  function Ids(t: Task): multiset<nat>
    decreases t
  {
    multiset{t.id} + IdsSeq(t.spawns)
  }

  function IdsSeq(ts: seq<Task>): multiset<nat>
    decreases ts
  {
    if |ts| == 0 then multiset{} else Ids(ts[0]) + IdsSeq(ts[1..])
  }

  lemma {:induction false} IdsSeqAppend(a: seq<Task>, b: seq<Task>)
    ensures IdsSeq(a + b) == IdsSeq(a) + IdsSeq(b)
    decreases |a|
  {
    if |a| == 0 {
      assert a + b == b;
    } else {
      assert (a + b)[1..] == a[1..] + b;
      IdsSeqAppend(a[1..], b);
    }
  }

  /** Two runs in a row: what the first leaves pending, the second accounts for. */
  lemma Chain(t1: multiset<nat>, t2: multiset<nat>, p0: multiset<nat>, p1: multiset<nat>, p2: multiset<nat>,
              u: multiset<nat>, v: multiset<nat>)
    requires t1 + p1 == p0 + u && t2 + p2 == p1 + v
    ensures t1 + t2 + p2 == p0 + (u + v)
  {
    forall e ensures (t1 + t2 + p2)[e] == (p0 + (u + v))[e] {
      assert (t1 + p1)[e] == (p0 + u)[e];
      assert (t2 + p2)[e] == (p1 + v)[e];
    }
  }

  /** Enqueueing the head of `ts` and then its tail accounts for all of `ts`. */
  lemma ChainRuns(tr1: seq<nat>, tr2: seq<nat>, p0: multiset<nat>, p1: multiset<nat>, p2: multiset<nat>, ts: seq<Task>)
    requires |ts| > 0
    requires multiset(tr1) + p1 == p0 + Ids(ts[0]) && multiset(tr2) + p2 == p1 + IdsSeq(ts[1..])
    ensures multiset(tr1 + tr2) + p2 == p0 + IdsSeq(ts)
  {
    Chain(multiset(tr1), multiset(tr2), p0, p1, p2, Ids(ts[0]), IdsSeq(ts[1..]));
    assert multiset(tr1 + tr2) == multiset(tr1) + multiset(tr2);
  }

  /** The top-level ids of `ts`, in order. */
  function TopIds(ts: seq<Task>): (r: seq<nat>)
    ensures |r| == |ts| && forall i :: 0 <= i < |ts| ==> r[i] == ts[i].id
  {
    if |ts| == 0 then [] else [ts[0].id] + TopIds(ts[1..])
  }

  /** What the tasks of `ts` spawn directly, in order. */
  function Spawns(ts: seq<Task>): seq<Task>
  {
    if |ts| == 0 then [] else ts[0].spawns + Spawns(ts[1..])
  }

  /** A scheduled stub entry; `uid` stands for the object's identity. */
  datatype StubScheduledAction = StubScheduledAction(uid: nat, action: Task, firstIntervalInMs: Long, intervalInMs: Long)

  const OneShot: Long := -1

  datatype StubFiber = StubFiber(
    subscriptions: seq<nat>,         // registered subscriptions, by identity
    pending: seq<Task>,
    scheduled: seq<StubScheduledAction>,
    root: bool,                        // false while an immediate execution is under way
    executePendingImmediately: bool,
    nextUid: nat)

  function NewStubFiber(): (f: StubFiber)
    ensures f.pending == [] && f.scheduled == [] && f.subscriptions == [] && f.root
    ensures !f.executePendingImmediately
  {
    StubFiber([], [], [], true, false, 0)
  }

  /** Whether an `Enqueue` now runs the action at once. */
  predicate Immediate(f: StubFiber)
  {
    f.root && f.executePendingImmediately
  }

  /** Everything a task run leaves alone. */
  predicate SameFrame(f: StubFiber, g: StubFiber)
  {
    && g.root == f.root && g.executePendingImmediately == f.executePendingImmediately
    && g.scheduled == f.scheduled && g.subscriptions == f.subscriptions && g.nextUid == f.nextUid
  }

  /**
   * Runs one task: its id, then its spawns enqueued in order. Every run it accounts for is
   * either in the trace or still pending (`RunTaskConservesIds` says which ids).
   */
  function RunTask(f: StubFiber, t: Task): (r: (StubFiber, seq<nat>))
    ensures SameFrame(f, r.0)
    ensures |r.1| + SizeSeq(r.0.pending) == SizeSeq(f.pending) + Size(t)
    ensures |r.1| >= 1 && r.1[0] == t.id
    ensures !Immediate(f) ==> r.0.pending == f.pending + t.spawns && r.1 == [t.id]
    decreases SizeSeq(f.pending) + Size(t), 1, 0
  {
    var (f1, tr) := EnqueueSeq(f, t.spawns);
    (f1, [t.id] + tr)
  }

  function EnqueueSeq(f: StubFiber, ts: seq<Task>): (r: (StubFiber, seq<nat>))
    ensures SameFrame(f, r.0)
    ensures |r.1| + SizeSeq(r.0.pending) == SizeSeq(f.pending) + SizeSeq(ts)
    ensures !Immediate(f) ==> r.0.pending == f.pending + ts && r.1 == []
    ensures Immediate(f) && ts != [] ==> r.0.pending == []
    ensures ts == [] ==> r == (f, [])
    decreases SizeSeq(f.pending) + SizeSeq(ts), 3, |ts|
  {
    if |ts| == 0 then
      assert f.pending + ts == f.pending;
      (f, [])
    else
      var (f1, tr1) := Enqueue(f, ts[0]);
      var (f2, tr2) := EnqueueSeq(f1, ts[1..]);
      assert ts == [ts[0]] + ts[1..];
      Seqs.AppendAssoc(f.pending, [ts[0]], ts[1..]);
      (f2, tr1 + tr2)
  }

  /**
   * `Enqueue`: at the top level with immediate execution on, the action runs at once and
   * then everything pending is drained, nested enqueues being queued meanwhile; otherwise
   * the action is appended to the pending list.
   */
  function Enqueue(f: StubFiber, t: Task): (r: (StubFiber, seq<nat>))
    ensures SameFrame(f, r.0)
    ensures |r.1| + SizeSeq(r.0.pending) == SizeSeq(f.pending) + Size(t)
    ensures !Immediate(f) ==> r == (f.(pending := f.pending + [t]), [])
    ensures Immediate(f) ==> r.0.pending == [] && |r.1| >= 1 && r.1[0] == t.id
    decreases SizeSeq(f.pending) + Size(t), 2, 0
  {
    SizeSeqAppend(f.pending, [t]);
    assert SizeSeq([t]) == Size(t) by {
      assert [t][1..] == [];
    }
    if Immediate(f) then
      var (f1, tr1) := RunTask(f.(root := false), t);
      var (f2, tr2) := ExecuteAllPendingUntilEmpty(f1);
      (f2.(root := true), tr1 + tr2)
    else
      (f.(pending := f.pending + [t]), [])
  }

  /**
   * `ExecuteAllPendingUntilEmpty`: runs the head of the pending list until the list is
   * empty, including whatever the runs enqueue.
   */
  function ExecuteAllPendingUntilEmpty(f: StubFiber): (r: (StubFiber, seq<nat>))
    ensures SameFrame(f, r.0) && r.0.pending == []
    ensures |r.1| == SizeSeq(f.pending)
    decreases SizeSeq(f.pending), 2, 0
  {
    if |f.pending| == 0 then (f, [])
    else
      var (f1, tr1) := RunTask(f.(pending := f.pending[1..]), f.pending[0]);
      var (f2, tr2) := ExecuteAllPendingUntilEmpty(f1);
      (f2, tr1 + tr2)
  }

  /* ---------------- no run lost or duplicated ---------------- */

  /** Running a task: the ids run plus the ids left pending are those pending before plus the task's. */
  lemma {:induction false} RunTaskConservesIds(f: StubFiber, t: Task)
    ensures var r := RunTask(f, t);
      multiset(r.1) + IdsSeq(r.0.pending) == IdsSeq(f.pending) + Ids(t)
    decreases SizeSeq(f.pending) + Size(t), 1, 0
  {
    var (f1, tr) := EnqueueSeq(f, t.spawns);
    EnqueueSeqConservesIds(f, t.spawns);
    Chain(multiset{t.id}, multiset(tr), IdsSeq(f.pending), IdsSeq(f.pending), IdsSeq(f1.pending),
          multiset{t.id}, IdsSeq(t.spawns));
    assert multiset([t.id] + tr) == multiset{t.id} + multiset(tr);
  }

  lemma {:induction false} EnqueueSeqConservesIds(f: StubFiber, ts: seq<Task>)
    ensures var r := EnqueueSeq(f, ts);
      multiset(r.1) + IdsSeq(r.0.pending) == IdsSeq(f.pending) + IdsSeq(ts)
    decreases SizeSeq(f.pending) + SizeSeq(ts), 3, |ts|
  {
    if |ts| > 0 {
      var (f1, tr1) := Enqueue(f, ts[0]);
      var (f2, tr2) := EnqueueSeq(f1, ts[1..]);
      EnqueueConservesIds(f, ts[0]);
      EnqueueSeqConservesIds(f1, ts[1..]);
      ChainRuns(tr1, tr2, IdsSeq(f.pending), IdsSeq(f1.pending), IdsSeq(f2.pending), ts);
    }
  }

  /**
   * `Enqueue` loses and duplicates no run: the ids run plus the ids still pending are
   * exactly those pending before plus those the new task amounts to.
   */
  lemma {:induction false} EnqueueConservesIds(f: StubFiber, t: Task)
    ensures var r := Enqueue(f, t);
      multiset(r.1) + IdsSeq(r.0.pending) == IdsSeq(f.pending) + Ids(t)
    decreases SizeSeq(f.pending) + Size(t), 2, 0
  {
    IdsSeqAppend(f.pending, [t]);
    assert IdsSeq([t]) == Ids(t) by {
      assert [t][1..] == [];
    }
    if Immediate(f) {
      var (f1, tr1) := RunTask(f.(root := false), t);
      var (f2, tr2) := ExecuteAllPendingUntilEmpty(f1);
      RunTaskConservesIds(f.(root := false), t);
      DrainRunsAllIds(f1);
      assert multiset(tr1 + tr2) == multiset(tr1) + multiset(tr2);
    }
  }

  /** Draining runs exactly the ids of the pending tasks and of everything they spawn. */
  lemma {:induction false} DrainRunsAllIds(f: StubFiber)
    ensures multiset(ExecuteAllPendingUntilEmpty(f).1) == IdsSeq(f.pending)
    decreases SizeSeq(f.pending), 2, 0
  {
    if |f.pending| > 0 {
      var (f1, tr1) := RunTask(f.(pending := f.pending[1..]), f.pending[0]);
      var (f2, tr2) := ExecuteAllPendingUntilEmpty(f1);
      RunTaskConservesIds(f.(pending := f.pending[1..]), f.pending[0]);
      DrainRunsAllIds(f1);
      assert multiset(tr1 + tr2) == multiset(tr1) + multiset(tr2);
    }
  }

  /** Runs `ts` one after the other on the fiber. */
  function RunAll(f: StubFiber, ts: seq<Task>): (r: (StubFiber, seq<nat>))
    ensures SameFrame(f, r.0)
    ensures |r.1| + SizeSeq(r.0.pending) == SizeSeq(f.pending) + SizeSeq(ts)
    ensures !Immediate(f) ==> r.0.pending == f.pending + Spawns(ts) && r.1 == TopIds(ts)
    decreases |ts|
  {
    if |ts| == 0 then
      assert f.pending + Spawns(ts) == f.pending;
      (f, [])
    else
      var (f1, tr1) := RunTask(f, ts[0]);
      var (f2, tr2) := RunAll(f1, ts[1..]);
      RunAllStep(f, ts, f1, tr1, f2, tr2);
      (f2, tr1 + tr2)
  }

  /** Running the head of `ts` and then the rest accounts for all of `ts`. */
  lemma RunAllStep(f: StubFiber, ts: seq<Task>, f1: StubFiber, tr1: seq<nat>, f2: StubFiber, tr2: seq<nat>)
    requires |ts| > 0 && SameFrame(f, f1) && SameFrame(f1, f2)
    requires |tr1| + SizeSeq(f1.pending) == SizeSeq(f.pending) + Size(ts[0])
    requires |tr2| + SizeSeq(f2.pending) == SizeSeq(f1.pending) + SizeSeq(ts[1..])
    requires !Immediate(f) ==> f1.pending == f.pending + ts[0].spawns && tr1 == [ts[0].id]
    requires !Immediate(f1) ==> f2.pending == f1.pending + Spawns(ts[1..]) && tr2 == TopIds(ts[1..])
    ensures SameFrame(f, f2)
    ensures |tr1 + tr2| + SizeSeq(f2.pending) == SizeSeq(f.pending) + SizeSeq(ts)
    ensures !Immediate(f) ==> f2.pending == f.pending + Spawns(ts) && tr1 + tr2 == TopIds(ts)
  {
    assert SizeSeq(ts) == Size(ts[0]) + SizeSeq(ts[1..]);
    assert Spawns(ts) == ts[0].spawns + Spawns(ts[1..]);
    Seqs.AppendAssoc(f.pending, ts[0].spawns, Spawns(ts[1..]));
  }

  /**
   * `ExecuteAllPending`: runs a snapshot of the pending list once. Unless immediate
   * execution is on, what those runs enqueue stays pending for the next call.
   */
  function ExecuteAllPending(f: StubFiber): (r: (StubFiber, seq<nat>))
    ensures SameFrame(f, r.0)
    ensures |r.1| + SizeSeq(r.0.pending) == SizeSeq(f.pending)
    ensures !Immediate(f) ==> r.1 == TopIds(f.pending) && r.0.pending == Spawns(f.pending)
  {
    RunAll(f.(pending := []), f.pending)
  }

  /** Without immediate execution, draining tasks that spawn nothing runs them in FIFO order. */
  lemma {:induction false} DrainFlatIsFifo(f: StubFiber)
    requires !Immediate(f)
    requires forall i :: 0 <= i < |f.pending| ==> f.pending[i].spawns == []
    ensures ExecuteAllPendingUntilEmpty(f).1 == TopIds(f.pending)
    decreases |f.pending|
  {
    if |f.pending| > 0 {
      var f1 := RunTask(f.(pending := f.pending[1..]), f.pending[0]).0;
      assert f1.pending == f.pending[1..];
      DrainFlatIsFifo(f1);
    }
  }

  /**
   * Without immediate execution, draining is breadth-first: the tasks pending now run first,
   * in order, and then whatever they spawned is drained.
   */
  lemma DrainIsBreadthFirst(f: StubFiber)
    requires !Immediate(f)
    ensures ExecuteAllPendingUntilEmpty(f).1 ==
      TopIds(f.pending) + ExecuteAllPendingUntilEmpty(f.(pending := Spawns(f.pending))).1
  {
    assert f.pending + [] == f.pending;
    assert [] + Spawns(f.pending) == Spawns(f.pending);
    DrainSplit(f, f.pending, []);
  }

  /** Draining `p + q` runs the tasks of `p`, then drains `q` followed by what `p` spawned. */
  lemma {:induction false} DrainSplit(f: StubFiber, p: seq<Task>, q: seq<Task>)
    requires !Immediate(f) && f.pending == p + q
    ensures ExecuteAllPendingUntilEmpty(f).1 ==
      TopIds(p) + ExecuteAllPendingUntilEmpty(f.(pending := q + Spawns(p))).1
    decreases |p|
  {
    if |p| == 0 {
      assert p + q == q && q + Spawns(p) == q;
      assert f.(pending := q + Spawns(p)) == f;
    } else {
      assert f.pending[0] == p[0] && f.pending[1..] == p[1..] + q;
      var r1 := RunTask(f.(pending := f.pending[1..]), f.pending[0]);
      assert ExecuteAllPendingUntilEmpty(f).1 == r1.1 + ExecuteAllPendingUntilEmpty(r1.0).1;
      assert r1.1 == [p[0].id];
      Seqs.AppendAssoc(p[1..], q, p[0].spawns);
      assert r1.0 == f.(pending := p[1..] + (q + p[0].spawns));
      DrainSplit(r1.0, p[1..], q + p[0].spawns);
      var rest := ExecuteAllPendingUntilEmpty(f.(pending := q + Spawns(p))).1;
      assert Spawns(p) == p[0].spawns + Spawns(p[1..]);
      Seqs.AppendAssoc(q, p[0].spawns, Spawns(p[1..]));
      assert ExecuteAllPendingUntilEmpty(r1.0).1 == TopIds(p[1..]) + rest;
      assert TopIds(p) == [p[0].id] + TopIds(p[1..]);
      Seqs.AppendAssoc([p[0].id], TopIds(p[1..]), rest);
    }
  }

  /* ---------------- subscriptions ---------------- */

  function RegisterSubscription(f: StubFiber, d: nat): (f': StubFiber)
    ensures f'.subscriptions == f.subscriptions + [d] && f' == f.(subscriptions := f'.subscriptions)
  {
    f.(subscriptions := f.subscriptions + [d])
  }

  /** `DeregisterSubscription`: removes the first registration; true iff there was one. */
  function DeregisterSubscription(f: StubFiber, d: nat): (r: (StubFiber, bool))
    ensures r.1 <==> d in f.subscriptions
    ensures multiset(r.0.subscriptions) == multiset(f.subscriptions) - multiset{d}
    ensures !r.1 ==> r.0 == f
    ensures r.0 == f.(subscriptions := r.0.subscriptions)
    ensures r.1 ==>
      r.0.subscriptions ==
        f.subscriptions[..Seqs.FirstIndex(f.subscriptions, d)] + f.subscriptions[Seqs.FirstIndex(f.subscriptions, d) + 1..]
  {
    Seqs.RemoveFirstFacts(f.subscriptions, d);
    (f.(subscriptions := Seqs.RemoveFirst(f.subscriptions, d)), d in f.subscriptions)
  }

  /* ---------------- scheduled actions ---------------- */

  /** `Schedule`: a one-shot entry appended to the scheduled list; nothing runs yet. */
  function Schedule(f: StubFiber, t: Task, firstInMs: Long): (r: (StubFiber, StubScheduledAction))
    ensures r.0.scheduled == f.scheduled + [r.1] && r.1.intervalInMs == OneShot
    ensures r.1.action == t && r.1.firstIntervalInMs == firstInMs && r.1 !in f.scheduled
    ensures r.1.uid >= f.nextUid && r.0.nextUid == r.1.uid + 1
    ensures r.0.pending == f.pending
  {
    ScheduleEntry(f, t, firstInMs, OneShot)
  }

  /** `ScheduleOnInterval`: a recurring entry appended to the scheduled list. */
  function ScheduleOnInterval(f: StubFiber, t: Task, firstInMs: Long, regularInMs: Long)
    : (r: (StubFiber, StubScheduledAction))
    ensures r.0.scheduled == f.scheduled + [r.1] && r.1.intervalInMs == regularInMs
    ensures r.1.action == t && r.1.firstIntervalInMs == firstInMs && r.1 !in f.scheduled
    ensures r.1.uid >= f.nextUid && r.0.nextUid == r.1.uid + 1
    ensures r.0.pending == f.pending
  {
    ScheduleEntry(f, t, firstInMs, regularInMs)
  }

  /**
   * A new entry, standing for a new object: its uid is above every uid handed out before
   * (the counter only grows) and above every uid on the list.
   */
  function ScheduleEntry(f: StubFiber, t: Task, firstInMs: Long, intervalInMs: Long)
    : (r: (StubFiber, StubScheduledAction))
    ensures r.0.scheduled == f.scheduled + [r.1] && r.1.intervalInMs == intervalInMs
    ensures r.1.action == t && r.1.firstIntervalInMs == firstInMs
    ensures r.1 !in f.scheduled
    ensures r.1.uid >= f.nextUid && r.0.nextUid == r.1.uid + 1
    ensures r.0 == f.(scheduled := r.0.scheduled, nextUid := r.0.nextUid)
  {
    var uid := if |f.scheduled| == 0 || MaxUid(f.scheduled) < f.nextUid then f.nextUid else MaxUid(f.scheduled) + 1;
    var a := StubScheduledAction(uid, t, firstInMs, intervalInMs);
    (f.(scheduled := f.scheduled + [a], nextUid := uid + 1), a)
  }

  /** The largest uid in use: a fresh uid is larger than every one in the list. */
  function MaxUid(s: seq<StubScheduledAction>): (m: nat)
    requires |s| > 0
    ensures forall i :: 0 <= i < |s| ==> s[i].uid <= m
  {
    if |s| == 1 then s[0].uid
    else var m := MaxUid(s[1..]); if s[0].uid > m then s[0].uid else m
  }

  /** `StubScheduledAction.Dispose`: removes the entry from the fiber's scheduled list. */
  function DisposeScheduled(f: StubFiber, a: StubScheduledAction): (f': StubFiber)
    ensures multiset(f'.scheduled) == multiset(f.scheduled) - multiset{a}
    ensures f' == f.(scheduled := f'.scheduled)
    ensures a !in f.scheduled ==> f' == f
    ensures a in f.scheduled ==>
      f'.scheduled == f.scheduled[..Seqs.FirstIndex(f.scheduled, a)] + f.scheduled[Seqs.FirstIndex(f.scheduled, a) + 1..]
  {
    f.(scheduled := Seqs.RemoveFirst(f.scheduled, a))
  }

  /** `StubScheduledAction.Execute`: runs the action, then a one-shot entry removes itself. */
  function ExecuteScheduled(f: StubFiber, a: StubScheduledAction): (r: (StubFiber, seq<nat>))
    ensures multiset(r.0.scheduled) == multiset(f.scheduled) - (if a.intervalInMs == OneShot then multiset{a} else multiset{})
    ensures |r.1| >= 1 && r.1[0] == a.action.id
    ensures |r.1| + SizeSeq(r.0.pending) == SizeSeq(f.pending) + Size(a.action)
    ensures multiset(r.1) + IdsSeq(r.0.pending) == IdsSeq(f.pending) + Ids(a.action)
    ensures !Immediate(f) ==> r.1 == [a.action.id] && r.0.pending == f.pending + a.action.spawns
    ensures r.0.subscriptions == f.subscriptions && r.0.nextUid == f.nextUid
    ensures r.0.root == f.root && r.0.executePendingImmediately == f.executePendingImmediately
  {
    var (f1, tr) := RunTask(f, a.action);
    RunTaskConservesIds(f, a.action);
    if a.intervalInMs == OneShot then (DisposeScheduled(f1, a), tr) else (f1, tr)
  }

  /** The one-shot entries of `s`. */
  function OneShots(s: seq<StubScheduledAction>): (r: seq<StubScheduledAction>)
    ensures forall x :: x in r <==> x in s && x.intervalInMs == OneShot
  {
    if |s| == 0 then []
    else (if s[0].intervalInMs == OneShot then [s[0]] else []) + OneShots(s[1..])
  }

  function RunScheduled(f: StubFiber, snapshot: seq<StubScheduledAction>): (r: (StubFiber, seq<nat>))
    ensures multiset(r.0.scheduled) == multiset(f.scheduled) - multiset(OneShots(snapshot))
    ensures |r.1| + SizeSeq(r.0.pending) == SizeSeq(f.pending) + SizeSeq(Actions(snapshot))
    ensures multiset(r.1) + IdsSeq(r.0.pending) == IdsSeq(f.pending) + IdsSeq(Actions(snapshot))
    ensures !Immediate(f) ==>
      r.1 == TopIds(Actions(snapshot)) && r.0.pending == f.pending + Spawns(Actions(snapshot))
    ensures r.0.subscriptions == f.subscriptions && r.0.nextUid == f.nextUid
    ensures r.0.root == f.root && r.0.executePendingImmediately == f.executePendingImmediately
    decreases |snapshot|
  {
    if |snapshot| == 0 then
      assert multiset(f.scheduled) - multiset(OneShots(snapshot)) == multiset(f.scheduled);
      assert f.pending + Spawns(Actions(snapshot)) == f.pending;
      (f, [])
    else
      var a := snapshot[0];
      var (f1, tr1) := ExecuteScheduled(f, a);
      var (f2, tr2) := RunScheduled(f1, snapshot[1..]);
      RunScheduledStep(snapshot, f.scheduled, f1.scheduled, f2.scheduled);
      assert Actions(snapshot)[1..] == Actions(snapshot[1..]);
      RunScheduledTrace(Actions(snapshot), f, f1, tr1, f2, tr2);
      (f2, tr1 + tr2)
  }

  /** Running the first scheduled action and then the rest accounts for all of them. */
  lemma RunScheduledTrace(ts: seq<Task>, f: StubFiber, f1: StubFiber, tr1: seq<nat>, f2: StubFiber, tr2: seq<nat>)
    requires |ts| > 0 && Immediate(f1) == Immediate(f)
    requires |tr1| + SizeSeq(f1.pending) == SizeSeq(f.pending) + Size(ts[0])
    requires |tr2| + SizeSeq(f2.pending) == SizeSeq(f1.pending) + SizeSeq(ts[1..])
    requires multiset(tr1) + IdsSeq(f1.pending) == IdsSeq(f.pending) + Ids(ts[0])
    requires multiset(tr2) + IdsSeq(f2.pending) == IdsSeq(f1.pending) + IdsSeq(ts[1..])
    requires !Immediate(f) ==> tr1 == [ts[0].id] && f1.pending == f.pending + ts[0].spawns
    requires !Immediate(f1) ==> tr2 == TopIds(ts[1..]) && f2.pending == f1.pending + Spawns(ts[1..])
    ensures |tr1 + tr2| + SizeSeq(f2.pending) == SizeSeq(f.pending) + SizeSeq(ts)
    ensures multiset(tr1 + tr2) + IdsSeq(f2.pending) == IdsSeq(f.pending) + IdsSeq(ts)
    ensures !Immediate(f) ==> tr1 + tr2 == TopIds(ts) && f2.pending == f.pending + Spawns(ts)
  {
    ChainRuns(tr1, tr2, IdsSeq(f.pending), IdsSeq(f1.pending), IdsSeq(f2.pending), ts);
    assert Spawns(ts) == ts[0].spawns + Spawns(ts[1..]);
    Seqs.AppendAssoc(f.pending, ts[0].spawns, Spawns(ts[1..]));
    assert TopIds(ts) == [ts[0].id] + TopIds(ts[1..]);
  }

  lemma RunScheduledStep(snapshot: seq<StubScheduledAction>, s0: seq<StubScheduledAction>,
                         s1: seq<StubScheduledAction>, s2: seq<StubScheduledAction>)
    requires |snapshot| > 0
    requires multiset(s1) == multiset(s0) - (if snapshot[0].intervalInMs == OneShot then multiset{snapshot[0]} else multiset{})
    requires multiset(s2) == multiset(s1) - multiset(OneShots(snapshot[1..]))
    ensures multiset(s2) == multiset(s0) - multiset(OneShots(snapshot))
  {
    var once := if snapshot[0].intervalInMs == OneShot then multiset{snapshot[0]} else multiset{};
    assert OneShots(snapshot) == (if snapshot[0].intervalInMs == OneShot then [snapshot[0]] else []) + OneShots(snapshot[1..]);
    assert multiset(OneShots(snapshot)) == once + multiset(OneShots(snapshot[1..]));
    Seqs.MinusMinus(multiset(s0), once, multiset(OneShots(snapshot[1..])));
  }

  function Actions(s: seq<StubScheduledAction>): (r: seq<Task>)
    ensures |r| == |s| && forall i :: 0 <= i < |s| ==> r[i] == s[i].action
  {
    if |s| == 0 then [] else [s[0].action] + Actions(s[1..])
  }

  /**
   * `ExecuteAllScheduled`: runs every entry of a snapshot of the scheduled list once; the
   * one-shot entries are gone afterwards and the recurring ones remain.
   */
  function ExecuteAllScheduled(f: StubFiber): (r: (StubFiber, seq<nat>))
    ensures forall x :: x in r.0.scheduled <==> x in f.scheduled && x.intervalInMs != OneShot
    ensures |r.1| + SizeSeq(r.0.pending) == SizeSeq(f.pending) + SizeSeq(Actions(f.scheduled))
    ensures multiset(r.1) + IdsSeq(r.0.pending) == IdsSeq(f.pending) + IdsSeq(Actions(f.scheduled))
    ensures !Immediate(f) ==>
      r.1 == TopIds(Actions(f.scheduled)) && r.0.pending == f.pending + Spawns(Actions(f.scheduled))
    ensures r.0.subscriptions == f.subscriptions && r.0.nextUid == f.nextUid
    ensures r.0.root == f.root && r.0.executePendingImmediately == f.executePendingImmediately
  {
    var r := RunScheduled(f, f.scheduled);
    forall x ensures x in r.0.scheduled <==> x in f.scheduled && x.intervalInMs != OneShot {
      assert x in r.0.scheduled <==> x in multiset(r.0.scheduled);
      if x in f.scheduled && x.intervalInMs == OneShot {
        assert x in OneShots(f.scheduled);
        OneShotsCount(f.scheduled, x);
      }
    }
    r
  }

  /** Every copy of a one-shot entry is listed among the one-shots. */
  lemma {:induction false} OneShotsCount(s: seq<StubScheduledAction>, x: StubScheduledAction)
    requires x.intervalInMs == OneShot
    ensures multiset(OneShots(s))[x] == multiset(s)[x]
    decreases |s|
  {
    if |s| > 0 {
      OneShotsCount(s[1..], x);
      assert s == [s[0]] + s[1..];
    }
  }

  /** `Start` does nothing on a stub fiber. */
  function Start(f: StubFiber): (f': StubFiber)
    ensures f' == f
  {
    f
  }

  /**
   * `Dispose`: disposes every scheduled entry, which empties the scheduled list, hands every
   * registered subscription back to be disposed, and clears the pending actions. The
   * subscription list itself is left to the subscriptions, which deregister themselves.
   */
  function Dispose(f: StubFiber): (r: (StubFiber, seq<nat>))
    ensures r.0.scheduled == [] && r.0.pending == [] && r.1 == f.subscriptions
    ensures r.0.subscriptions == f.subscriptions && r.0.nextUid == f.nextUid
  {
    var g := DisposeAll(f, f.scheduled);
    assert multiset(g.scheduled) == multiset{};
    (g.(pending := []), f.subscriptions)
  }

  function DisposeAll(f: StubFiber, entries: seq<StubScheduledAction>): (f': StubFiber)
    ensures multiset(f'.scheduled) == multiset(f.scheduled) - multiset(entries)
    ensures f' == f.(scheduled := f'.scheduled)
    decreases |entries|
  {
    if |entries| == 0 then
      assert multiset(f.scheduled) - multiset(entries) == multiset(f.scheduled);
      f
    else
      var f1 := DisposeScheduled(f, entries[0]);
      var f2 := DisposeAll(f1, entries[1..]);
      DisposeAllStep(entries, f.scheduled, f1.scheduled, f2.scheduled);
      f2
  }

  lemma DisposeAllStep(entries: seq<StubScheduledAction>, s0: seq<StubScheduledAction>,
                       s1: seq<StubScheduledAction>, s2: seq<StubScheduledAction>)
    requires |entries| > 0
    requires multiset(s1) == multiset(s0) - multiset{entries[0]}
    requires multiset(s2) == multiset(s1) - multiset(entries[1..])
    ensures multiset(s2) == multiset(s0) - multiset(entries)
  {
    assert multiset(entries) == multiset{entries[0]} + multiset(entries[1..]) by {
      assert entries == [entries[0]] + entries[1..];
    }
    Seqs.MinusMinus(multiset(s0), multiset{entries[0]}, multiset(entries[1..]));
  }

  /**
   * Handles are never reused: after an entry is disposed, a later schedule returns a
   * different entry, and disposing the stale handle again changes nothing.
   */
  lemma StaleHandleIsHarmless(f: StubFiber, t: Task, u: Task, firstInMs: Long, laterInMs: Long)
    ensures var (f1, a) := Schedule(f, t, firstInMs);
      var f2 := DisposeScheduled(f1, a);
      var (f3, b) := Schedule(f2, u, laterInMs);
      b != a && DisposeScheduled(f3, a) == f3
  {
    var (f1, a) := Schedule(f, t, firstInMs);
    var f2 := DisposeScheduled(f1, a);
    assert multiset(f1.scheduled)[a] == 1 by {
      assert multiset(f1.scheduled) == multiset(f.scheduled) + multiset{a};
    }
    assert a !in f2.scheduled by {
      assert multiset(f2.scheduled)[a] == 0;
    }
    var (f3, b) := Schedule(f2, u, laterInMs);
    assert b.uid >= f2.nextUid == f1.nextUid > a.uid;
    assert a !in f3.scheduled by {
      assert f3.scheduled == f2.scheduled + [b];
    }
  }

  /** Every call a test can make on a stub fiber. */
  datatype Op =
    | EnqueueOp(task: Task)
    | ExecuteAllPendingOp
    | ExecuteAllPendingUntilEmptyOp
    | ScheduleOp(task: Task, firstInMs: Long)
    | ScheduleOnIntervalOp(task: Task, firstInMs: Long, regularInMs: Long)
    | DisposeScheduledOp(entry: StubScheduledAction)
    | ExecuteScheduledOp(entry: StubScheduledAction)
    | ExecuteAllScheduledOp
    | RegisterOp(sub: nat)
    | DeregisterOp(sub: nat)
    | StartOp
    | DisposeOp

  /** Applies one call; only scheduling moves the uid counter, and only forward. */
  function Apply(f: StubFiber, op: Op): (f': StubFiber)
    ensures f'.nextUid >= f.nextUid
    ensures !op.ScheduleOp? && !op.ScheduleOnIntervalOp? ==> f'.nextUid == f.nextUid
  {
    match op
    case EnqueueOp(t) => Enqueue(f, t).0
    case ExecuteAllPendingOp => ExecuteAllPending(f).0
    case ExecuteAllPendingUntilEmptyOp => ExecuteAllPendingUntilEmpty(f).0
    case ScheduleOp(t, first) => Schedule(f, t, first).0
    case ScheduleOnIntervalOp(t, first, regular) => ScheduleOnInterval(f, t, first, regular).0
    case DisposeScheduledOp(a) => DisposeScheduled(f, a)
    case ExecuteScheduledOp(a) => ExecuteScheduled(f, a).0
    case ExecuteAllScheduledOp => ExecuteAllScheduled(f).0
    case RegisterOp(d) => RegisterSubscription(f, d)
    case DeregisterOp(d) => DeregisterSubscription(f, d).0
    case StartOp => Start(f)
    case DisposeOp => Dispose(f).0
  }

  function ApplyAll(f: StubFiber, ops: seq<Op>): StubFiber
    decreases |ops|
  {
    if |ops| == 0 then f else ApplyAll(Apply(f, ops[0]), ops[1..])
  }

  /** The uid counter never goes back, whatever calls the fiber goes through. */
  lemma {:induction false} UidCounterNeverDecreases(f: StubFiber, ops: seq<Op>)
    ensures ApplyAll(f, ops).nextUid >= f.nextUid
    decreases |ops|
  {
    if |ops| > 0 {
      UidCounterNeverDecreases(Apply(f, ops[0]), ops[1..]);
    }
  }

  /**
   * Handles are never reused: whatever calls come between them (runs of the scheduled
   * list, disposals, a full `Dispose`), an entry scheduled later differs from one scheduled
   * earlier, one-shot or recurring.
   */
  lemma HandlesNeverReused(f: StubFiber, t: Task, firstInMs: Long, ops: seq<Op>,
                           u: Task, laterInMs: Long, regularInMs: Long)
    ensures var (f1, a) := Schedule(f, t, firstInMs);
      var g := ApplyAll(f1, ops);
      && Schedule(g, u, laterInMs).1 != a
      && ScheduleOnInterval(g, u, laterInMs, regularInMs).1 != a
  {
    var (f1, a) := Schedule(f, t, firstInMs);
    UidCounterNeverDecreases(f1, ops);
  }

  /** A one-shot entry runs on the first `ExecuteAllScheduled` and never again. */
  lemma OneShotRunsOnce(f: StubFiber, t: Task, firstInMs: Long)
    requires f.scheduled == [] && !Immediate(f)
    ensures var s := Schedule(f, t, firstInMs).0;
      && var first := ExecuteAllScheduled(s);
      && first.0.scheduled == [] && t.id in first.1
      && ExecuteAllScheduled(first.0).1 == []
  {
    var s := Schedule(f, t, firstInMs).0;
    var first := ExecuteAllScheduled(s);
    assert forall x :: x !in first.0.scheduled;
    assert first.0.scheduled == [];
  }
}

=== FILE: subscribers.dfy ===
/**
 * The channel subscriptions. A subscription is called on the publisher's thread; what it
 * asks of its fiber is returned as `Request`s: enqueue a delivery to the receiver, or
 * schedule the batching flush after the interval. The flush itself is a function the
 * fiber later runs, returning what the receiver is handed.
 */
module Subscribers {
  import opened Wrappers
  import opened Longs
  import Seqs

  /** A producer-thread filter; `None` lets everything through. */
  type Filter<!T> = Option<T -> bool>

  predicate Passes<T(==)>(filter: Filter<T>, msg: T)
  {
    filter.None? || filter.value(msg)
  }

  /** The messages that pass `filter`, in publish order. */
  function Filtered<T(==)>(filter: Filter<T>, msgs: seq<T>): (r: seq<T>)
    ensures |r| <= |msgs|
    ensures forall i :: 0 <= i < |r| ==> r[i] in msgs && Passes(filter, r[i])
  {
    if |msgs| == 0 then []
    else (if Passes(filter, msgs[0]) then [msgs[0]] else []) + Filtered(filter, msgs[1..])
  }

  lemma {:induction false} FilteredSnoc<T>(filter: Filter<T>, msgs: seq<T>, m: T)
    ensures Filtered(filter, msgs + [m]) == Filtered(filter, msgs) + (if Passes(filter, m) then [m] else [])
    decreases |msgs|
  {
    if |msgs| == 0 {
      assert msgs + [m] == [m];
      assert [m][1..] == [];
    } else {
      assert (msgs + [m])[1..] == msgs[1..] + [m];
      FilteredSnoc(filter, msgs[1..], m);
    }
  }

  datatype Request<T> = Deliver(msg: T) | ScheduleFlush(delayInMs: Int32)

  /* ---------------- ChannelSubscription ---------------- */

  /**
   * `ReceiveOnProducerThread` of a plain subscription: a message that passes the filter is
   * enqueued on the fiber for the receiver; any other is dropped.
   */
  function ReceiveChannel<T(==)>(filter: Filter<T>, msg: T): (reqs: seq<Request<T>>)
    ensures |reqs| <= 1
    ensures reqs != [] <==> Passes(filter, msg)
    ensures forall i :: 0 <= i < |reqs| ==> reqs[i] == Deliver(msg)
  {
    if Passes(filter, msg) then [Deliver(msg)] else []
  }

  function ReceiveChannelAll<T(==)>(filter: Filter<T>, msgs: seq<T>): seq<Request<T>>
  {
    if |msgs| == 0 then [] else ReceiveChannel(filter, msgs[0]) + ReceiveChannelAll(filter, msgs[1..])
  }

  /** The messages that `reqs` deliver. */
  function Delivered<T(==)>(reqs: seq<Request<T>>): seq<T>
  {
    if |reqs| == 0 then []
    else (if reqs[0].Deliver? then [reqs[0].msg] else []) + Delivered(reqs[1..])
  }

  lemma {:induction false} DeliveredAppend<T>(a: seq<Request<T>>, b: seq<Request<T>>)
    ensures Delivered(a + b) == Delivered(a) + Delivered(b)
    decreases |a|
  {
    if |a| == 0 {
      assert a + b == b;
    } else {
      assert (a + b)[0] == a[0];
      assert (a + b)[1..] == a[1..] + b;
      DeliveredAppend(a[1..], b);
    }
  }

  /**
   * A plain subscription delivers every passing message exactly once, in publish order,
   * and never schedules anything.
   */
  lemma {:induction false} ChannelDeliversFilteredInOrder<T>(filter: Filter<T>, msgs: seq<T>)
    ensures Delivered(ReceiveChannelAll(filter, msgs)) == Filtered(filter, msgs)
    ensures forall i :: 0 <= i < |ReceiveChannelAll(filter, msgs)| ==> ReceiveChannelAll(filter, msgs)[i].Deliver?
    decreases |msgs|
  {
    if |msgs| > 0 {
      ChannelDeliversFilteredInOrder(filter, msgs[1..]);
      var head := ReceiveChannel(filter, msgs[0]);
      DeliveredAppend(head, ReceiveChannelAll(filter, msgs[1..]));
      if Passes(filter, msgs[0]) {
        assert Delivered(head) == [msgs[0]] by {
          assert head[1..] == [];
        }
      }
    }
  }

  /* ---------------- BatchSubscriber ---------------- */

  datatype BatchSubscriber<T> = BatchSubscriber(interval: Int32, pending: Option<seq<T>>)

  /**
   * A passing message is added to the batch; the first message of a batch also schedules
   * the flush after the interval.
   */
  function ReceiveBatch<T(==)>(filter: Filter<T>, b: BatchSubscriber<T>, msg: T): (r: (BatchSubscriber<T>, seq<Request<T>>))
    ensures r.0.interval == b.interval
    ensures !Passes(filter, msg) ==> r == (b, [])
    ensures Passes(filter, msg) ==> r.0.pending == Some((if b.pending.Some? then b.pending.value else []) + [msg])
    ensures r.1 == (if Passes(filter, msg) && b.pending.None? then [ScheduleFlush(b.interval)] else [])
  {
    if !Passes(filter, msg) then (b, [])
    else if b.pending.None? then
      assert [] + [msg] == [msg];
      (b.(pending := Some([msg])), [ScheduleFlush(b.interval)])
    else (b.(pending := Some(b.pending.value + [msg])), [])
  }

  function ReceiveBatchAll<T(==)>(filter: Filter<T>, b: BatchSubscriber<T>, msgs: seq<T>): (r: (BatchSubscriber<T>, seq<Request<T>>))
    ensures r.0.interval == b.interval
    decreases |msgs|
  {
    if |msgs| == 0 then (b, [])
    else
      var (b1, reqs1) := ReceiveBatch(filter, b, msgs[0]);
      var (b2, reqs2) := ReceiveBatchAll(filter, b1, msgs[1..]);
      (b2, reqs1 + reqs2)
  }

  /** The scheduled flush: hands over the whole batch, if any, and starts a new window. */
  function FlushBatch<T(==)>(b: BatchSubscriber<T>): (r: (BatchSubscriber<T>, Option<seq<T>>))
    ensures r.1 == b.pending && r.0.pending.None? && r.0.interval == b.interval
  {
    (b.(pending := None), b.pending)
  }

  /**
   * Over one window, a batch subscriber schedules exactly one flush if any message passed
   * and none otherwise, and the flush delivers every passing message in publish order and
   * leaves the subscriber as it was before the window, so the next message opens a new one.
   */
  lemma {:induction false} BatchWindow<T>(filter: Filter<T>, b: BatchSubscriber<T>, msgs: seq<T>)
    requires b.pending.None?
    ensures var (b', reqs) := ReceiveBatchAll(filter, b, msgs);
      && reqs == (if Filtered(filter, msgs) == [] then [] else [ScheduleFlush(b.interval)])
      && FlushBatch(b').1 == (if Filtered(filter, msgs) == [] then None else Some(Filtered(filter, msgs)))
      && FlushBatch(b').0 == b
  {
    BatchWindowFrom(filter, b, msgs);
    assert [] + Filtered(filter, msgs) == Filtered(filter, msgs);
  }

  /** The window lemma from any state: the batch grows by the passing messages. */
  lemma {:induction false} BatchWindowFrom<T>(filter: Filter<T>, b: BatchSubscriber<T>, msgs: seq<T>)
    ensures var r := ReceiveBatchAll(filter, b, msgs);
      var before := if b.pending.Some? then b.pending.value else [];
      && (b.pending.Some? || Filtered(filter, msgs) != [] ==> r.0.pending == Some(before + Filtered(filter, msgs)))
      && (b.pending.None? && Filtered(filter, msgs) == [] ==> r.0.pending == None)
      && r.1 == (if b.pending.None? && Filtered(filter, msgs) != [] then [ScheduleFlush(b.interval)] else [])
    decreases |msgs|
  {
    if |msgs| > 0 {
      var (b1, reqs1) := ReceiveBatch(filter, b, msgs[0]);
      BatchWindowFrom(filter, b1, msgs[1..]);
      var (b2, reqs2) := ReceiveBatchAll(filter, b1, msgs[1..]);
      assert ReceiveBatchAll(filter, b, msgs) == (b2, reqs1 + reqs2);
      var before := if b.pending.Some? then b.pending.value else [];
      var head := if Passes(filter, msgs[0]) then [msgs[0]] else [];
      var rest := Filtered(filter, msgs[1..]);
      assert Filtered(filter, msgs) == head + rest;
      Seqs.AppendAssoc(before, head, rest);
      if Passes(filter, msgs[0]) {
        assert b1.pending == Some(before + head);
      } else {
        assert b1 == b && head == [] && before + head == before;
      }
    } else {
      var before := if b.pending.Some? then b.pending.value else [];
      assert before + Filtered(filter, msgs) == before;
    }
  }

  /* ---------------- KeyedBatchSubscriber ---------------- */

  datatype KeyedBatchSubscriber<K, T> = KeyedBatchSubscriber(interval: Int32, pending: Option<map<K, T>>)

  /**
   * A passing message replaces any earlier message with the same key in the batch; the
   * first message of a batch also schedules the flush.
   */
  function ReceiveKeyed<K(==), T(==)>(filter: Filter<T>, keyOf: T -> K, b: KeyedBatchSubscriber<K, T>, msg: T): (r: (KeyedBatchSubscriber<K, T>, seq<Request<T>>))
    ensures r.0.interval == b.interval
    ensures !Passes(filter, msg) ==> r == (b, [])
    ensures Passes(filter, msg) ==>
      r.0.pending == Some((if b.pending.Some? then b.pending.value else map[])[keyOf(msg) := msg])
    ensures r.1 == (if Passes(filter, msg) && b.pending.None? then [ScheduleFlush(b.interval)] else [])
  {
    if !Passes(filter, msg) then (b, [])
    else
      var key := keyOf(msg);
      if b.pending.None? then (b.(pending := Some(map[key := msg])), [ScheduleFlush(b.interval)])
      else (b.(pending := Some(b.pending.value[key := msg])), [])
  }

  function ReceiveKeyedAll<K(==), T(==)>(filter: Filter<T>, keyOf: T -> K, b: KeyedBatchSubscriber<K, T>, msgs: seq<T>)
    : (r: (KeyedBatchSubscriber<K, T>, seq<Request<T>>))
    ensures r.0.interval == b.interval
    decreases |msgs|
  {
    if |msgs| == 0 then (b, [])
    else
      var (b1, reqs1) := ReceiveKeyed(filter, keyOf, b, msgs[0]);
      var (b2, reqs2) := ReceiveKeyedAll(filter, keyOf, b1, msgs[1..]);
      (b2, reqs1 + reqs2)
  }

  /** The scheduled flush: hands over a non-empty batch; the window restarts either way. */
  function FlushKeyed<K(==), T(==)>(b: KeyedBatchSubscriber<K, T>): (r: (KeyedBatchSubscriber<K, T>, Option<map<K, T>>))
    ensures r.0 == b.(pending := None)
    ensures r.1.Some? <==> b.pending.Some? && |b.pending.value| > 0
    ensures r.1.Some? ==> r.1.value == b.pending.value
  {
    if b.pending.None? || |b.pending.value| == 0 then (b.(pending := None), None)
    else (b.(pending := None), b.pending)
  }

  /** `msgs[i]` is the last message with key `k`. */
  ghost predicate LastWithKey<K, T>(keyOf: T -> K, msgs: seq<T>, i: int, k: K)
  {
    0 <= i < |msgs| && keyOf(msgs[i]) == k && forall j :: i < j < |msgs| ==> keyOf(msgs[j]) != k
  }

  /**
   * The latest message per key: `m` holds, for every key that occurs in `msgs`, the last
   * message with that key, and nothing else.
   */
  ghost predicate LatestByKey<K, T>(keyOf: T -> K, msgs: seq<T>, m: map<K, T>)
  {
    && (forall i :: 0 <= i < |msgs| ==> keyOf(msgs[i]) in m)
    && (forall k :: k in m ==> exists i :: LastWithKey(keyOf, msgs, i, k) && msgs[i] == m[k])
  }

  /**
   * Over one window, a keyed subscriber schedules one flush if any message passed and none
   * otherwise, and the flush hands over the latest passing message of each key and leaves
   * the subscriber as it was before the window.
   */
  lemma {:induction false} KeyedWindow<K, T>(filter: Filter<T>, keyOf: T -> K, b: KeyedBatchSubscriber<K, T>, msgs: seq<T>)
    requires b.pending.None?
    ensures var (b', reqs) := ReceiveKeyedAll(filter, keyOf, b, msgs);
      var passed := Filtered(filter, msgs);
      && reqs == (if passed == [] then [] else [ScheduleFlush(b.interval)])
      && (passed == [] <==> FlushKeyed(b').1.None?)
      && (passed != [] ==> LatestByKey(keyOf, passed, FlushKeyed(b').1.value))
      && FlushKeyed(b').0 == b
  {
    KeyedWindowFrom(filter, keyOf, b, msgs, []);
    var b' := ReceiveKeyedAll(filter, keyOf, b, msgs).0;
    var passed := Filtered(filter, msgs);
    assert [] + passed == passed;
    if passed != [] {
      assert keyOf(passed[0]) in b'.pending.value;
      assert |b'.pending.value| > 0;
    }
  }

  /**
   * The window lemma from a state whose batch is the latest-by-key of `seen`: after `msgs`
   * it is the latest-by-key of `seen` followed by the passing messages.
   */
  lemma {:induction false} KeyedWindowFrom<K, T>(filter: Filter<T>, keyOf: T -> K, b: KeyedBatchSubscriber<K, T>, msgs: seq<T>, seen: seq<T>)
    requires b.pending.None? ==> seen == []
    requires b.pending.Some? ==> seen != [] && LatestByKey(keyOf, seen, b.pending.value)
    ensures var (b', reqs) := ReceiveKeyedAll(filter, keyOf, b, msgs);
      var all := seen + Filtered(filter, msgs);
      && (all == [] ==> b'.pending.None?)
      && (all != [] ==> b'.pending.Some? && LatestByKey(keyOf, all, b'.pending.value))
      && reqs == (if b.pending.None? && all != [] then [ScheduleFlush(b.interval)] else [])
    decreases |msgs|
  {
    if |msgs| == 0 {
      assert seen + Filtered(filter, msgs) == seen;
    } else {
      var m := msgs[0];
      var (b1, reqs1) := ReceiveKeyed(filter, keyOf, b, m);
      var head := if Passes(filter, m) then [m] else [];
      var seen1 := seen + head;
      assert Filtered(filter, msgs) == head + Filtered(filter, msgs[1..]);
      Seqs.AppendAssoc(seen, head, Filtered(filter, msgs[1..]));
      if Passes(filter, m) {
        var prior := if b.pending.Some? then b.pending.value else map[];
        LatestByKeySnoc(keyOf, seen, prior, m);
      } else {
        assert seen1 == seen;
      }
      KeyedWindowFrom(filter, keyOf, b1, msgs[1..], seen1);
    }
  }

  /** Appending a message updates the latest-by-key map at that message's key. */
  lemma LatestByKeySnoc<K, T>(keyOf: T -> K, seen: seq<T>, m: map<K, T>, msg: T)
    requires seen == [] ==> m == map[]
    requires seen != [] ==> LatestByKey(keyOf, seen, m)
    ensures LatestByKey(keyOf, seen + [msg], m[keyOf(msg) := msg])
  {
    var all := seen + [msg];
    var m' := m[keyOf(msg) := msg];
    var n := |seen|;
    assert all[n] == msg;
    forall k | k in m'
      ensures exists i :: LastWithKey(keyOf, all, i, k) && all[i] == m'[k]
    {
      if k == keyOf(msg) {
        assert LastWithKey(keyOf, all, n, k) && all[n] == m'[k];
      } else {
        var i :| LastWithKey(keyOf, seen, i, k) && seen[i] == m[k];
        assert all[i] == seen[i];
        forall j | i < j < |all| ensures keyOf(all[j]) != k {
          if j < n { assert all[j] == seen[j]; }
        }
        assert LastWithKey(keyOf, all, i, k);
      }
    }
    forall k ensures k in m' <==> exists i :: 0 <= i < |all| && keyOf(all[i]) == k {
      if k in m' && k != keyOf(msg) {
        var i :| 0 <= i < |seen| && keyOf(seen[i]) == k;
        assert all[i] == seen[i];
      }
      if k == keyOf(msg) {
        assert keyOf(all[n]) == k;
      }
      if (exists i :: 0 <= i < |all| && keyOf(all[i]) == k) && k != keyOf(msg) {
        var i :| 0 <= i < |all| && keyOf(all[i]) == k;
        assert i < n && all[i] == seen[i];
      }
    }
  }

  /* ---------------- LastSubscriber ---------------- */

  datatype LastSubscriber<T> = LastSubscriber(interval: Int32, flushPending: bool, pending: Option<T>)

  /**
   * A passing message becomes the one to hand over; a flush is scheduled only when none
   * is already pending.
   */
  function ReceiveLast<T(==)>(filter: Filter<T>, s: LastSubscriber<T>, msg: T): (r: (LastSubscriber<T>, seq<Request<T>>))
    ensures r.0.interval == s.interval
    ensures !Passes(filter, msg) ==> r == (s, [])
    ensures Passes(filter, msg) ==> r.0.pending == Some(msg) && r.0.flushPending
    ensures r.1 == (if Passes(filter, msg) && !s.flushPending then [ScheduleFlush(s.interval)] else [])
  {
    if !Passes(filter, msg) then (s, [])
    else if !s.flushPending then (s.(flushPending := true, pending := Some(msg)), [ScheduleFlush(s.interval)])
    else (s.(pending := Some(msg)), [])
  }

  function ReceiveLastAll<T(==)>(filter: Filter<T>, s: LastSubscriber<T>, msgs: seq<T>): (r: (LastSubscriber<T>, seq<Request<T>>))
    ensures r.0.interval == s.interval
    decreases |msgs|
  {
    if |msgs| == 0 then (s, [])
    else
      var (s1, reqs1) := ReceiveLast(filter, s, msgs[0]);
      var (s2, reqs2) := ReceiveLastAll(filter, s1, msgs[1..]);
      (s2, reqs1 + reqs2)
  }

  /**
   * The scheduled flush: clears the pending flag and hands over the latest message. The
   * latest message is kept, so a later flush without new messages hands it over again.
   */
  function FlushLast<T(==)>(s: LastSubscriber<T>): (r: (LastSubscriber<T>, Option<T>))
    ensures !r.0.flushPending && r.0.pending == s.pending && r.1 == s.pending
    ensures r.0.interval == s.interval
  {
    (s.(flushPending := false), s.pending)
  }

  /**
   * Over one window, a last-value subscriber schedules one flush if any message passed and
   * none otherwise, and the flush hands over the last passing message.
   */
  lemma {:induction false} LastWindow<T>(filter: Filter<T>, s: LastSubscriber<T>, msgs: seq<T>)
    requires !s.flushPending
    ensures var (s', reqs) := ReceiveLastAll(filter, s, msgs);
      var passed := Filtered(filter, msgs);
      && reqs == (if passed == [] then [] else [ScheduleFlush(s.interval)])
      && (passed != [] ==> FlushLast(s').1 == Some(passed[|passed| - 1]))
      && (passed == [] ==> s' == s)
    decreases |msgs|
  {
    if |msgs| > 0 {
      var (s1, reqs1) := ReceiveLast(filter, s, msgs[0]);
      var (s2, reqs2) := ReceiveLastAll(filter, s1, msgs[1..]);
      assert ReceiveLastAll(filter, s, msgs) == (s2, reqs1 + reqs2);
      var rest := Filtered(filter, msgs[1..]);
      if Passes(filter, msgs[0]) {
        var passed := [msgs[0]] + rest;
        assert Filtered(filter, msgs) == passed;
        LastWindowPending(filter, s1, msgs[1..]);
        assert passed[|passed| - 1] == if rest == [] then msgs[0] else rest[|rest| - 1];
        assert reqs1 + reqs2 == [ScheduleFlush(s.interval)];
      } else {
        assert Filtered(filter, msgs) == [] + rest == rest;
        assert s1 == s && reqs1 == [];
        LastWindow(filter, s1, msgs[1..]);
        assert reqs1 + reqs2 == reqs2;
      }
    }
  }

  /** While a flush is pending, messages only replace the value to hand over. */
  lemma {:induction false} LastWindowPending<T>(filter: Filter<T>, s: LastSubscriber<T>, msgs: seq<T>)
    requires s.flushPending
    ensures var (s', reqs) := ReceiveLastAll(filter, s, msgs);
      var passed := Filtered(filter, msgs);
      && reqs == [] && s'.flushPending
      && s'.pending == (if passed == [] then s.pending else Some(passed[|passed| - 1]))
    decreases |msgs|
  {
    if |msgs| > 0 {
      var (s1, reqs1) := ReceiveLast(filter, s, msgs[0]);
      LastWindowPending(filter, s1, msgs[1..]);
      assert Filtered(filter, msgs) == (if Passes(filter, msgs[0]) then [msgs[0]] else []) + Filtered(filter, msgs[1..]);
    }
  }
}

=== FILE: subscriptions.dfy ===
/** The thread-safe subscription registry every fiber owns; each locked method is one step. */
module Registry {
  import Seqs

  datatype Subscriptions<D> = Subscriptions(items: seq<D>)

  /** A registered subscription (an `IDisposable`) of a fiber, identified by its object identity. */
  type SubscriptionId = nat

  function NewSubscriptions<D>(): (r: Subscriptions<D>)
  {
    Subscriptions([])
  }

  /** `Count`: the number of registered disposables, duplicates included. */
  function Count<D>(r: Subscriptions<D>): nat
  {
    |r.items|
  }

  /** `Add`: appends, even when the item is already registered. */
  function Add<D>(r: Subscriptions<D>, d: D): (r': Subscriptions<D>)
    ensures r'.items == r.items + [d]
    ensures Count(r') == Count(r) + 1
  {
    Subscriptions(r.items + [d])
  }

  /**
   * `Remove`: true iff the item was registered, in which case exactly one occurrence (the
   * first) is removed; otherwise the registry is unchanged.
   */
  function Remove<D(==)>(r: Subscriptions<D>, d: D): (res: (Subscriptions<D>, bool))
    ensures res.1 <==> d in r.items
    ensures !res.1 ==> res.0 == r
    ensures res.1 ==> Count(res.0) == Count(r) - 1
    ensures res.1 ==> res.0.items == r.items[..Seqs.FirstIndex(r.items, d)] + r.items[Seqs.FirstIndex(r.items, d) + 1..]
    ensures multiset(res.0.items) == multiset(r.items) - multiset{d}
  {
    (Subscriptions(Seqs.RemoveFirst(r.items, d)), d in r.items)
  }

  /**
   * `Dispose`: every item registered at call time is disposed, in registration order
   * (returned in that order), and the registry is left empty.
   */
  function Dispose<D>(r: Subscriptions<D>): (res: (Subscriptions<D>, seq<D>))
    ensures res.1 == r.items && Count(res.0) == 0
  {
    (Subscriptions([]), r.items)
  }

  /** Removing an item right after adding it, when it was not registered before, restores the registry. */
  lemma AddThenRemove<D>(r: Subscriptions<D>, d: D)
    requires d !in r.items
    ensures Remove(Add(r, d), d) == (r, true)
  {
    Seqs.RemoveFirstAppended(r.items, d);
  }
}

=== FILE: timer_action.dfy ===
/**
 * A timer-backed scheduled item. The OS timer is abstracted to an `armed` flag; a timer
 * tick is the `ExecuteOnTimerThread` step, and the calls it makes on its scheduler
 * registry are returned as effects.
 */
module TimerActions {
  import opened Wrappers
  import opened Longs

  /** Interval value that marks a one-shot item. */
  const OneShot: Long := -1

  datatype TimerAction<A> = TimerAction(
    action: Option<A>,
    firstIntervalInMs: Long,
    intervalInMs: Long,
    cancelled: bool,
    armed: bool)

  /** Calls a timer action makes on its registry (the scheduler). */
  datatype RegistryCall = RemoveFromRegistry | EnqueueFiberRun

  function NewTimerAction<A>(action: A, firstIntervalInMs: Long, intervalInMs: Long): (t: TimerAction<A>)
    ensures t.action == Some(action) && !t.cancelled && !t.armed
    ensures t.firstIntervalInMs == firstIntervalInMs && t.intervalInMs == intervalInMs
  {
    TimerAction(Some(action), firstIntervalInMs, intervalInMs, false, false)
  }

  /** `Schedule`: creates (arms) the underlying timer. */
  function Arm<A>(t: TimerAction<A>): (t': TimerAction<A>)
    ensures t'.armed && t' == t.(armed := true)
  {
    t.(armed := true)
  }

  /**
   * A timer tick. A one-shot or cancelled item asks the registry to remove it and releases
   * its timer; an item that is not cancelled asks the registry to enqueue one fiber-thread run.
   */
  function ExecuteOnTimerThread<A>(t: TimerAction<A>): (res: (TimerAction<A>, seq<RegistryCall>))
    ensures RemoveFromRegistry in res.1 <==> t.intervalInMs == OneShot || t.cancelled
    ensures EnqueueFiberRun in res.1 <==> !t.cancelled
    ensures |res.1| <= 2 && (|res.1| == 2 ==> res.1 == [RemoveFromRegistry, EnqueueFiberRun])
    ensures (t.intervalInMs == OneShot || t.cancelled) ==> res.0 == t.(armed := false)
    ensures !(t.intervalInMs == OneShot || t.cancelled) ==> res.0 == t
  {
    var released := t.intervalInMs == OneShot || t.cancelled;
    var t' := if released then t.(armed := false) else t;
    var removal := if released then [RemoveFromRegistry] else [];
    var run := if !t.cancelled then [EnqueueFiberRun] else [];
    (t', removal + run)
  }

  /** The fiber-thread half: runs the action iff not cancelled and the action is still held. */
  function ExecuteOnFiberThread<A>(t: TimerAction<A>): (ran: seq<A>)
    ensures ran != [] <==> !t.cancelled && t.action.Some?
    ensures ran != [] ==> ran == [t.action.value]
  {
    if !t.cancelled && t.action.Some? then [t.action.value] else []
  }

  /**
   * `Dispose`: cancels, drops the action, asks the registry to remove the item and releases
   * the timer. A fiber-thread run already enqueued before this point then runs nothing,
   * and a later tick enqueues nothing.
   */
  function Dispose<A>(t: TimerAction<A>): (res: (TimerAction<A>, seq<RegistryCall>))
    ensures res.0.cancelled && res.0.action == None && !res.0.armed
    ensures res.0.firstIntervalInMs == t.firstIntervalInMs && res.0.intervalInMs == t.intervalInMs
    ensures res.1 == [RemoveFromRegistry]
    ensures ExecuteOnFiberThread(res.0) == []
    ensures EnqueueFiberRun !in ExecuteOnTimerThread(res.0).1
  {
    (t.(cancelled := true, action := None, armed := false), [RemoveFromRegistry])
  }
}

=== FILE: wrappers.dfy ===
/** Option and result carriers used in place of the source's null references and exceptions. */
module Wrappers {

  /** A reference that may be null. */
  datatype Option<+T> = None | Some(value: T)

  /** Either a value or the exception the source would have thrown. */
  datatype Result<+R, +E> = Ok(value: R) | Err(error: E)

  /** The exceptions the fibers throw on a call made in the wrong state or without an executor. */
  datatype StateError = AlreadyStarted | AlreadyStopped | NotPaused | ArgumentNull

  /** The value a step handed out, as a sequence of at most one element. */
  function Taken<T>(got: Option<T>): seq<T>
  {
    if got.Some? then [got.value] else []
  }
}

/** Operations on sequences that mirror the .NET collection calls the source makes. */
module Seqs {

  /** Position of the first occurrence of `x` in `s`. */
  function FirstIndex<T(==)>(s: seq<T>, x: T): (i: nat)
    requires x in s
    ensures i < |s| && s[i] == x && x !in s[..i]
  {
    if s[0] == x then 0 else FirstIndex(s[1..], x) + 1
  }

  /** Position of the last occurrence of `x` in `s`. */
  function LastIndex<T(==)>(s: seq<T>, x: T): (i: nat)
    requires x in s
    ensures i < |s| && s[i] == x && x !in s[i+1..]
  {
    if s[|s|-1] == x then |s| - 1 else LastIndex(s[..|s|-1], x)
  }

  /** The sequence without its element at position `i`. */
  function RemoveAt<T>(s: seq<T>, i: nat): (r: seq<T>)
    requires i < |s|
    ensures |r| == |s| - 1
    ensures multiset(r) == multiset(s) - multiset{s[i]}
    ensures forall j :: 0 <= j < i ==> r[j] == s[j]
    ensures forall j :: i <= j < |r| ==> r[j] == s[j+1]
    ensures forall y :: y in r ==> y in s
  {
    assert s == s[..i] + [s[i]] + s[i+1..];
    s[..i] + s[i+1..]
  }

  /** `List<T>.Remove`: removes the first occurrence of `x`, if any. */
  function RemoveFirst<T(==)>(s: seq<T>, x: T): (r: seq<T>)
    ensures x !in s ==> r == s
    ensures x in s ==> |r| == |s| - 1
    ensures x in s ==> r == s[..FirstIndex(s, x)] + s[FirstIndex(s, x) + 1..]
    ensures multiset(r) == multiset(s) - multiset{x}
    ensures forall y :: y in r ==> y in s
  {
    if x in s then RemoveAt(s, FirstIndex(s, x)) else s
  }

  /** Delegate removal (`-=` on a multicast delegate): removes the last occurrence of `x`, if any. */
  function RemoveLast<T(==)>(s: seq<T>, x: T): (r: seq<T>)
    ensures x !in s ==> r == s
    ensures x in s ==> |r| == |s| - 1
    ensures x in s ==> r == s[..LastIndex(s, x)] + s[LastIndex(s, x) + 1..]
    ensures multiset(r) == multiset(s) - multiset{x}
    ensures forall y :: y in r ==> y in s
  {
    if x in s then RemoveAt(s, LastIndex(s, x)) else s
  }

  /**
   * `RemoveFirst`'s contract as one fact, for callers whose own contract repeats it: citing
   * it keeps their proofs small.
   */
  lemma RemoveFirstFacts<T>(s: seq<T>, x: T)
    ensures var r := RemoveFirst(s, x);
      && multiset(r) == multiset(s) - multiset{x}
      && (x !in s ==> r == s)
      && (x in s ==> r == s[..FirstIndex(s, x)] + s[FirstIndex(s, x) + 1..])
  {
  }

  /** Removing the first occurrence of an element just appended, and absent before, gives back the sequence. */
  lemma RemoveFirstAppended<T>(s: seq<T>, x: T)
    requires x !in s
    ensures RemoveFirst(s + [x], x) == s
  {
    var q := s + [x];
    assert q[|s|] == x;
    assert FirstIndex(q, x) == |s|;
    assert q[..|s|] == s;
  }

  /** Removing the last occurrence of an element just appended gives back the sequence. */
  lemma RemoveLastAppended<T>(s: seq<T>, x: T)
    ensures RemoveLast(s + [x], x) == s
  {
    var q := s + [x];
    assert q[|q| - 1] == x;
    assert LastIndex(q, x) == |s|;
    assert q[..|s|] == s;
  }

  /** Concatenation is associative. */
  lemma AppendAssoc<T>(a: seq<T>, b: seq<T>, c: seq<T>)
    ensures a + (b + c) == (a + b) + c
  {
  }

  /** Taking away `b` and then `c` takes away `b + c`. */
  lemma MinusMinus<T>(a: multiset<T>, b: multiset<T>, c: multiset<T>)
    ensures a - b - c == a - (b + c)
  {
    assert forall e :: (a - b - c)[e] == (a - (b + c))[e];
  }
}
